=== FILE: README.md ===
# filmreader in Dafny

filmreader is a subtitle reader. It repeatedly captures a region of the screen and normalises the image (scale, grayscale, Otsu or fixed threshold, optional inversion). An OCR engine reads the text, and the recogniser filters it: empty, low-confidence and repeated reads are skipped. Accepted texts are queued for a text-to-speech synthesiser, which caches one audio file per text and falls back to a second engine when the first fails. The program runs from a Tk window or from the command line, with settings from a JSON configuration file that can be overridden at call time.

This project models the decision logic of that program as pure functions over immutable state, and proves what the code promises about it. The model covers:

- **the recogniser**: a step function `(state, capture, clock) -> (state', result)`;
- **the image normaliser**: Otsu's method over a 256-bin histogram, the clamped fixed threshold, binarisation and inversion;
- **the speech synthesiser**: the cache path, the cache / primary / fallback branches of `speak`, the pyttsx3 `.wav` rule, the FIFO queue with its single consumer, and `clear_cache`;
- **the application**: the start / pause / stop flags, one pass of the polling loop, and how the call-time settings are merged over the persisted ones;
- **the configuration manager**: the dotted-key `get` / `set`, and the dictionary serialisers with their defaults;
- **the command-line entry point**: the region parser and the exit codes;
- **the GUI**: the drag rectangle and the control buttons.

Engines, the screen, the file system, the clock and Python's `hash` are parameters. An OCR engine is a function from an image to what it read, or to the fact that it raised. A TTS engine is its class plus a "synthesis succeeds on this text" function. The file system is the set of paths that exist.

Modules, one per source area:

| file | module | models |
|---|---|---|
| common.dfy | Common | `Option`, `Result`, the capture region |
| pytext.dfy | PyText | the Python string built-ins the code relies on: `str.strip`, `str.split` / `join`, `int()`, `str(int)` and the decimal subset of `float()` |
| preprocess.dfy | Preprocess | `SubtitleRecognizer._otsu_threshold` and `_preprocess_image` (filmreader/ocr.py) |
| recognizer.dfy | Recognizer | `SubtitleRecognizer.recognize_subtitle`, `reset`, `RecognitionResult` (filmreader/ocr.py) |
| speech.dfy | Speech | `SpeechSynthesizer` and the pyttsx3 suffix rule (filmreader/tts.py) |
| config.dfy | Config | `ConfigManager` and the configuration dataclasses (filmreader/config.py) |
| app.dfy | App | `FilmReaderApp` (filmreader/main.py) |
| cli.dfy | Cli | `main_entry` (filmreader/__main__.py) |
| gui.dfy | Gui | `RegionSelector` and `FilmReaderGUI` (filmreader/gui.py) |

Where the code and the project's documentation disagree, the model follows the code:

- A read counts as `no_text` only when the recognised string is empty. A whitespace-only read goes on to the confidence and duplicate checks (filmreader/ocr.py:485).
- A `no_text` result carries the engine's confidence, not 0.0 (filmreader/ocr.py:486).
- On a two-level image, Otsu's method returns the lower level itself, not a value strictly between the two levels. `p > t` still separates them (`Preprocess.OtsuTwoLevels`).
- When the fallback engine's extension differs from the primary's (an mp3 engine behind pyttsx3, or the reverse), a text spoken by the fallback is never found in the primary's cache. Every later `speak` of that text asks the primary engine again before it reaches the fallback's cached file (`Speech.FallbackRetriesPrimary`). When both engines use the same extension, the fallback writes the primary's cache file, and the next `speak` is a plain cache hit (`Speech.FallbackSharesPrimaryCache`).
- The command line passes `None` for every option it was not given. The merge in `_init_components` then prefers that `None` to the configured value (see Findings). `App.Start` follows this merge as written; `App.StartIntended` is the corrected start, and the GUI, which never passes `None`, gets the same result from both (`Gui.GuiStartsAsIntended`).

## Model

| member | source | states |
|---|---|---|
| PyText.StripEmptyIffBlank | filmreader/tts.py:442-443 | `text.strip()` is empty exactly when every character is whitespace, so `not text.strip()` tests for blank text |
| PyText.Strip | filmreader/tts.py:442 | `text.strip()` is no longer than the text and neither starts nor ends with whitespace |
| PyText.StripIdempotent | filmreader/tts.py:520 | stripping a stripped text changes nothing, so the text `enqueue_speech` checks is already the text `speak` checks again |
| PyText.Split | filmreader/config.py:230 | `split(sep)` gives at least one piece, and no piece contains the separator |
| PyText.SplitJoin | filmreader/__main__.py:112 | splitting on `,` a string joined from comma-free pieces gives back exactly those pieces |
| PyText.JoinSplit | filmreader/config.py:230 | joining the pieces of `split(sep)` with `sep` rebuilds the original string, so no character is lost by splitting a dotted key |
| PyText.ParseIntNeedsDigit | filmreader/gui.py:418-429 | `int()` rejects any text without a digit, so an empty or blank box makes the region unavailable |
| PyText.ParseFormatInt | filmreader/__main__.py:112-113 | `int(str(n)) == n` for every integer, negative ones included |
| PyText.ParseInt | filmreader/gui.py:422-425 | a text that `int()` accepts ends, once stripped, in a digit, and a negative value comes from a leading `-` |
| PyText.FormatInt | filmreader/gui.py:408-414 | `str(n)` is non-empty, starts with `-` exactly when `n` is negative, and is digits after that |
| PyText.ParseFloat | filmreader/gui.py:499-502 | a text that `float()` accepts is non-blank once stripped, and a negative value comes from a leading `-` |
| PyText.ParseFloatOfDecimal | filmreader/gui.py:499 | `float()` of `digits.digits` is the decimal value of the digits on both sides of the point |
| PyText.ParseIntDefault | filmreader/gui.py:498 | the default threshold text `"160"` reads as 160 |
| PyText.ParseFloatTwo | filmreader/gui.py:499 | the default scale text `"2.0"` reads as 2.0 |
| Preprocess.Histogram | filmreader/ocr.py:395-397 | bin `v` of the histogram counts the samples equal to `v`, for all 256 levels |
| Preprocess.OtsuScan | filmreader/ocr.py:401-419 | the loop with its running weight and moment, its skip of empty backgrounds and its stop at an empty foreground, yields the first level of largest between-class variance |
| Preprocess.Otsu | filmreader/ocr.py:405-419 | the threshold is the first level `t` whose split has the largest `w_b*w_f*(m_b-m_f)^2`: strict `>` keeps the earliest maximiser |
| Preprocess.FirstArgmaxUnique | filmreader/ocr.py:416-418 | only one level is the first maximiser, so Otsu's result is fully determined by that property |
| Preprocess.OtsuOneLevel | filmreader/ocr.py:405-419 | an image whose samples all share one value, or an empty one, gets threshold 0 |
| Preprocess.OtsuTwoLevels | filmreader/ocr.py:405-419 | an image with exactly the two levels `a < b` gets threshold `a` |
| Preprocess.TwoLevelVariance | filmreader/ocr.py:409-415 | on a two-level histogram, every split between the levels has the same positive variance, and every other split has zero variance |
| Preprocess.Binarise | filmreader/ocr.py:448 | the point map keeps the length, produces only 0 and 255, and gives 255 exactly for samples above the threshold |
| Preprocess.InvertInvolution | filmreader/ocr.py:451-452 | inverting twice gives the image back |
| Preprocess.InvertSwapsBinary | filmreader/ocr.py:448-452 | inverting a black-and-white image keeps it black-and-white and swaps 0 and 255 |
| Preprocess.BinariseIdempotent | filmreader/ocr.py:448 | binarising a binarised image again with any threshold in 0..254 changes nothing |
| Preprocess.OtsuThreshold | filmreader/ocr.py:390-422 | no threshold exactly when numpy is missing; otherwise the first maximiser of the image's histogram |
| Preprocess.Clamp | filmreader/ocr.py:447 | the fixed threshold is kept when in 0..255, and raised to 0 or lowered to 255 otherwise |
| Preprocess.ChooseThreshold | filmreader/ocr.py:443-447 | Otsu's value when automatic thresholding is on and numpy is present. In every other case the fixed threshold clamped to 0..255, or no threshold exactly when its `int()` conversion raised |
| Preprocess.PreprocessImage | filmreader/ocr.py:424-457 | the image is returned as it came when preprocessing is disabled, or when the resize, the grayscale step, `int(threshold)`, `point` or `invert` raises. Otherwise the result has the same length and is black-and-white. A sample is white exactly when it is above the threshold, with the test reversed by `invert` |
| Preprocess.TwoLevelsSeparate | filmreader/ocr.py:443-448 | with automatic thresholding, a two-level image becomes black at the lower level and white at the upper one |
| Recognizer.Initial | filmreader/ocr.py:379-380 | a new recogniser remembers no text |
| Recognizer.Reset | filmreader/ocr.py:505-508 | `reset` forgets the last text and the last capture time |
| Recognizer.RecognizeSubtitle | filmreader/ocr.py:459-503 | a failed capture gives `capture_failed` and a raising engine gives `error`; both keep the state and report confidence 0.0. Otherwise the capture time is recorded and the engine's confidence is reported. The result is `no_text` iff the read is empty, `low_confidence` iff non-empty and below the threshold, `duplicate` iff confident and equal to the last text, and `ok` otherwise. A refused read changes only the capture time. An `ok` read is accepted exactly as the engine gave it, not skipped, and becomes the last text |
| Recognizer.OkThenDuplicate | filmreader/ocr.py:494-499 | two confident reads of the same new text give `ok`, then `duplicate` |
| Recognizer.LowConfidenceIsForgotten | filmreader/ocr.py:489-499 | a low-confidence read is not remembered, so the same text read confidently next is `ok`, not `duplicate` |
| Recognizer.ResetAcceptsAnything | filmreader/ocr.py:505-508 | after `reset`, any non-empty confident read is accepted with its text and confidence |
| Recognizer.RunDedup | filmreader/ocr.py:494-499 | over any run of cycles, no accepted text equals the one accepted just before it, nor the last text remembered at the start; the remembered text is always the last one accepted |
| Speech.Extension | filmreader/tts.py:447-448 | the cache extension is `wav` exactly for pyttsx3 and `mp3` for every other engine |
| Speech.AudioPath | filmreader/tts.py:427-430 | the cache file lies in the cache directory and its name starts with `speech_` |
| Speech.WriteTarget | filmreader/tts.py:327-328 | the file stays in the given directory. Every engine but pyttsx3 writes at the given path, and a path pyttsx3 moves ends in `.wav` |
| Speech.AudioPathSuffix | filmreader/tts.py:427-430 | a cache file named `speech_<hash>.<ext>` has suffix `.<ext>` |
| Speech.WriteTargetIsCachePath | filmreader/tts.py:327-328 | the pyttsx3 suffix rule never moves a path built with that engine's own extension, so every engine writes where `speak` looks |
| Speech.PyttsxWritesWav | filmreader/tts.py:327-328 | whatever path pyttsx3 is given, the file it writes has a `.wav` suffix, compared case-insensitively |
| Speech.WavAndMp3Distinct | filmreader/tts.py:457-458 | the `wav` and `mp3` cache files of a text are different files |
| Speech.HashInName | filmreader/tts.py:430 | the characters between `speech_` and the extension read back, with `int()`, as the text's hash, whatever leading dots the extension had |
| Speech.AudioPathDistinguishesHashes | filmreader/tts.py:427-430 | texts with different hashes get different cache files |
| Speech.Speak | filmreader/tts.py:432-481 | blank text is refused without consulting any engine. An existing primary cache file is played without synthesis. Otherwise the primary is asked first; when it succeeds its file is created and played. When it fails with no fallback, `speak` fails with no file created. With a fallback, an existing fallback cache file is played without synthesis; otherwise the fallback is asked, and its file is created and played on success, or `speak` fails with no file created |
| Speech.SecondSpeakHitsCache | filmreader/tts.py:451 | once the primary has produced a text's file, speaking that text again is a pure cache hit |
| Speech.FallbackRetriesPrimary | filmreader/tts.py:451-462 | when the fallback's extension differs from the primary's, a text produced by the fallback makes every later `speak` of it ask the primary again before playing the fallback's cached file |
| Speech.FallbackSharesPrimaryCache | filmreader/tts.py:451-462 | when the fallback's extension is the primary's, a text produced by the fallback is afterwards a pure cache hit |
| Speech.Enqueue | filmreader/tts.py:514-521 | a non-blank text is appended at the back of the queue; a blank one is dropped; the engines and the worker flag are untouched |
| Speech.NonBlankKeeps | filmreader/tts.py:520-521 | the texts kept are all non-blank and all come from the input, and every non-blank input text is kept |
| Speech.EnqueueAllAppendsNonBlank | filmreader/tts.py:514-521 | enqueuing texts one after another appends exactly their non-blank ones, in order, repeats kept |
| Speech.ClearQueue | filmreader/tts.py:523-530 | the queue is left empty and nothing else changes |
| Speech.StopSpeaking | filmreader/tts.py:532-535 | the queue is left empty and the worker flag is untouched |
| Speech.StartQueueWorker | filmreader/tts.py:483-494 | the worker runs afterwards and the queue is untouched; a second start is a no-op |
| Speech.StopQueueWorker | filmreader/tts.py:496-500 | the worker flag is cleared and the queue is untouched |
| Speech.WorkerTurn | filmreader/tts.py:502-512 | a running worker with a non-empty queue removes exactly the head and speaks it against the current files; a stopped worker or an empty queue changes nothing |
| Speech.WorkerRun | filmreader/tts.py:502-512 | `n` turns speak no more than `n` texts, nor more than were queued. The texts are taken from the front, and the rest stay queued. The engines and the worker flag are kept, and a stopped worker speaks nothing |
| Speech.WorkerRunSpeaksInOrder | filmreader/tts.py:502-512 | `n` turns of the single consumer speak the first `min(n, |queue|)` texts in FIFO order, each once, and leave exactly the rest queued |
| Speech.ClearCache | filmreader/tts.py:537-544 | a file is removed exactly when it is in the cache directory and its name ends in `.mp3`; nothing is created |
| Speech.ClearCacheKeepsOnlyWav | filmreader/tts.py:537-541 | a pyttsx3 cache file survives `clear_cache`, and the cache file of any other engine does not |
| Config.SetAttr | filmreader/config.py:253 | `setattr` makes the attribute read back as the value and leaves every other attribute as it was |
| Config.Get | filmreader/config.py:218-237 | a key without dots reads the configuration's own attribute, or the default when there is none. A dotted key gives the default as soon as any attribute along its path is missing |
| Config.Set | filmreader/config.py:239-255 | only the top-level attribute the key starts with can change. A key without dots assigns that attribute, and a missing or non-dataclass parent leaves everything as it was |
| Config.SetPathSucceeds | filmreader/config.py:250-254 | assignment along a path succeeds exactly when the object before the last segment exists and is a dataclass instance |
| Config.WalkAfterSetPath | filmreader/config.py:251-253 | after an assignment, following the same path leads to the assigned value |
| Config.WalkFrame | filmreader/config.py:251-253 | an assignment along one path leaves every path that diverges from it reading as before |
| Config.GetAfterSet | filmreader/config.py:230-253 | when the parent exists, `set(key, v)` followed by `get(key)` gives `v`, whatever the default |
| Config.SetFailsUnchanged | filmreader/config.py:248-255 | `set` with a missing or non-dataclass parent leaves the configuration unchanged |
| Config.SetFrame | filmreader/config.py:248-253 | `set` changes only the addressed field: a key whose path diverges reads the same afterwards |
| Config.Construct | filmreader/config.py:180-185 | a section accepts exactly its declared fields. Given ones keep their value and missing ones take their default, except that a `None` capture region, given or defaulted, becomes the 800x100 region at the origin |
| Config.CaptureRegionDefault | filmreader/config.py:83-85 | a `CaptureConfig` built with `region=None`, or without one, gets the 800x100 region at the origin |
| Config.SectionFromDict | filmreader/config.py:181-185 | a section built from a dictionary has exactly the declared fields, and the capture section always has a region |
| Config.DictToConfig | filmreader/config.py:171-189 | a non-mapping is rejected. Every configuration read from a mapping has well-formed sections and no extra attributes. An absent section is its dataclass default, and a present one is built from its own mapping. `log_level`, `log_file` and `auto_start` are kept when present and are `"INFO"`, `None` and `False` when absent |
| Config.AsDict | filmreader/config.py:208-212 | `asdict` keeps exactly the declared fields of a section. Each field is copied deeply, with nested dataclass instances turned into dictionaries, so the result holds no dataclass instance |
| Config.DeepCopy | filmreader/config.py:208-212 | the copy `asdict` makes of a field holds no dataclass instance, and a value that held none is copied as itself |
| Config.ConfigToDict | filmreader/config.py:201-216 | serialising fails exactly when a section is no longer a dataclass instance |
| Config.SectionRoundTrip | filmreader/config.py:181-212 | reading back what `asdict` wrote rebuilds a section whose fields hold no dataclass instance |
| Config.DictRoundTrip | filmreader/config.py:171-216 | `_dict_to_config(_config_to_dict(c)) == c` for every well-formed configuration whose fields hold no dataclass instance |
| Config.AddedAttributesDropped | filmreader/config.py:201-216 | attributes added by `set` do not survive serialisation; the rest round-trips |
| Config.EmptyDictGivesDefaults | filmreader/config.py:180-188 | an empty dictionary gives `AppConfig()`, every section and top-level key at its default |
| Config.LoadConfig | filmreader/config.py:153-169 | the loaded configuration is always well-formed. It is the file's content whenever that content converts, and `AppConfig()` for a missing or unreadable file or a content that does not convert |
| Config.SaveThenLoad | filmreader/config.py:158-162 | a saved configuration whose fields hold no dataclass instance loads back as itself |
| Config.ConvertedIsSerialisable | filmreader/config.py:171-189 | a configuration read from JSON content holds no dataclass instance in its fields |
| Config.LoadedConfigRoundTrips | filmreader/config.py:153-169 | whatever file is loaded, the result is well-formed, holds no dataclass instance in its fields, and survives a save followed by a load |
| App.Merge | filmreader/main.py:97-116 | the merged value is the persisted one unless a non-`None` call-time value was given; it is `None` only when the persisted value is |
| App.MergeDiffersOnlyOnNull | filmreader/main.py:97-116 | `config.get(key, persisted)` differs from the intended merge exactly on a key present with `None` over a persisted value that is not `None` |
| App.Settings | filmreader/main.py:97-124 | the intended merge: each engine and preprocessing setting is the call-time value when one was given and is not `None`, else the persisted one |
| App.SettingsAsWritten | filmreader/main.py:97-124 | `config.get(key, persisted)`: each engine and preprocessing setting is the call-time value whenever the key is present, `None` included, else the persisted one |
| App.LoopIntervalAsWritten | filmreader/main.py:238 | the loop interval is the call-time value whenever `interval` is present, `None` included, else the configured capture interval |
| App.LoopInterval | filmreader/main.py:238 | the loop interval is the call-time one when given, else the configured capture interval |
| App.CliOverrides | filmreader/main.py:328-335 | the command-line dictionary has all six keys, with `None` exactly for the options not given |
| App.TtsKindFor | filmreader/tts.py:563-588 | `create_tts_engine` builds pyttsx3, Azure or AI-voice exactly for their names, and Edge TTS for anything else, `None` included |
| App.CliIntervalAsWritten | filmreader/main.py:328-335 | as written, a command-line run without `--interval` polls with interval `None`, which `time.sleep` rejects, whatever the configuration says |
| App.CliTtsEngineAsWritten | filmreader/main.py:122-123 | as written, a command-line run without `--tts-engine` builds Edge TTS even when pyttsx3 is configured |
| App.CliIntervalFallsBack | filmreader/main.py:238 | with the intended merge, an interval not given on the command line is the configured one, and a given one wins |
| App.CliTtsEngineFallsBack | filmreader/main.py:122-123 | with the intended merge, a TTS engine not given on the command line is the configured one, and a given one wins |
| App.NewApp | filmreader/main.py:52-58 | a new application is neither running nor paused |
| App.Start | filmreader/main.py:165-194 | starting while running changes nothing. Otherwise `start` raises exactly when building the components from the as-written merged settings fails, and then stays stopped. On success it runs unpaused, with a fresh recogniser, an empty queue, a running speech worker and a live loop with the passed region and the as-written interval. The configuration, cache directory and status lines are untouched |
| App.StartIntended | filmreader/main.py:165-194 | the same as `start`, with settings and interval merged so that an option passed as `None` falls back to the persisted value |
| App.StartsAgree | filmreader/main.py:97-124 | when no merged option is passed as `None`, the as-written and the intended `start` give the same result |
| App.Pause | filmreader/main.py:196-206 | sets the pause flag to the given value and changes nothing else |
| App.Stop | filmreader/main.py:208-227 | a no-op unless running; otherwise it stops, empties the queue, stops the speech worker and makes the recogniser forget its last text, keeping the pause flag and the settings |
| App.ReasonText | filmreader/main.py:267-275 | an unknown reason tag is shown verbatim |
| App.ReasonTextsDistinct | filmreader/main.py:267-275 | every tag the recogniser produces has its own status text, distinct from the tag |
| App.Sleep | filmreader/main.py:282-286 | a pass survives exactly when its interval is a non-negative number whose length in nanoseconds fits in a signed 64-bit integer; otherwise the handler's own sleep raises and the thread dies |
| App.SleepBounds | filmreader/main.py:282-286 | `time.sleep` accepts 9223372036 whole seconds but not one more, nor a float of 1e10, nor a negative number or `None` |
| App.PollOnce | filmreader/main.py:243-286 | the loop exits once the running flag is cleared, and a paused pass does nothing. Otherwise exactly the accepted text is enqueued and the status time set. A notice is shown only with a GUI, and for a miss only more than five seconds after the last one. The thread dies exactly when `time.sleep` rejects the interval: not a number, negative, or too long for 64-bit nanoseconds |
| App.NoticeThrottled | filmreader/main.py:263-279 | after a notice, a miss within five seconds adds no notice |
| App.CliLoopDiesAsWritten | filmreader/main.py:282-286 | with the as-written `start`, a command-line run without `--interval` that starts successfully loses its polling thread on its first unpaused pass; the thread is marked dead while the running flag stays set |
| App.CliLoopSurvives | filmreader/main.py:282-286 | with the intended `start`, a command-line run keeps polling, its thread alive, whenever the configured interval is a non-negative number that `time.sleep` does not reject as an overflow |
| App.Handle | filmreader/main.py:165-286 | a pass of a polling thread that ended, or never started, changes nothing. A surviving pass is one `PollOnce`, and a dying pass keeps its effects, marks the thread dead and leaves the running flag set. A pass after `stop` ends the thread. No event changes the configuration or cache directory, and status lines are only appended |
| App.HandleAll | filmreader/main.py:165-286 | over any sequence of events the configuration and cache directory stay fixed and status lines are only appended |
| App.DeadLoopIgnored | filmreader/main.py:250-286 | once the polling thread has ended, any number of further passes change nothing |
| App.InvariantHolds | filmreader/main.py:165-227 | whatever the sequence of starts, pauses, stops and passes, a running application has its recogniser, synthesiser, loop and running speech worker |
| Cli.ParseRegion | filmreader/__main__.py:111-117 | a region parses exactly when it splits on `,` into four `int()` literals, and then its fields are those integers |
| Cli.ParseFormatRegion | filmreader/__main__.py:112-113 | formatting any region as `x,y,width,height` and parsing it gives it back; zero or negative sizes are accepted |
| Cli.MainEntry | filmreader/__main__.py:93-141 | a failure building the application exits 1 and a Ctrl-C exits 0. The command line without a region, or with one that does not parse, exits 1. Otherwise the chosen mode is launched, the command line with the parsed region, and the exit code is 0 unless the run raised |
| Cli.CliLaunchesWithRegion | filmreader/__main__.py:111-127 | a well-formed region launches the command-line mode with exactly that region |
| Cli.LaunchesParsed | filmreader/__main__.py:111-127 | any region string that parses launches the command-line mode with the parsed region |
| Cli.WrongFieldCountRefused | filmreader/__main__.py:111-117 | a region with other than four fields exits 1 without launching |
| Gui.Selection | filmreader/gui.py:116-145 | a drag selects a region exactly when it is more than 10 pixels wide and high; the region's opposite edges are where the drag began and ended, offset by the canvas' screen origin |
| Gui.SelectionDirectionFree | filmreader/gui.py:121-124 | the region does not depend on which two opposite corners the drag used |
| Gui.MouseUp | filmreader/gui.py:116-145 | a large enough drag sets the region and closes the selector; any other drag changes nothing |
| Gui.CancelSelection | filmreader/gui.py:147-150 | cancelling leaves no region and closes the selector |
| Gui.NewWindow | filmreader/gui.py:187-190 | a new window is stopped, unpaused, has no region, and its buttons agree with its flags |
| Gui.RegionFromEntries | filmreader/gui.py:418-429 | the entries give a region exactly when all four boxes hold `int()` literals, and then their values |
| Gui.SelectRegion | filmreader/gui.py:394-416 | a selection becomes the window's region; a cancelled one changes nothing |
| Gui.SelectedRegionInEntries | filmreader/gui.py:406-414 | the boxes filled in by a selection read back as the selected region |
| Gui.ChosenRegion | filmreader/gui.py:434 | a selected region wins over the entries |
| Gui.FormOverrides | filmreader/gui.py:490-503 | the configuration holds the region, the parsed numbers and the engine names from the form |
| Gui.GetConfig | filmreader/gui.py:484-503 | the configuration is available exactly when the threshold, scale and interval boxes parse, and then holds their values |
| Gui.EmptyBoxesDefault | filmreader/gui.py:498-499 | empty threshold and scale boxes give 160 and 2.0 |
| Gui.GuiIntervalIsNumber | filmreader/gui.py:502 | the GUI always passes a number as the interval, so the as-written and the intended merges agree on it |
| Gui.GuiStartsAsIntended | filmreader/gui.py:484-503 | the GUI's configuration passes no merged option as `None`, so the as-written `start` behaves as the intended one |
| Gui.StartClicked | filmreader/gui.py:431-452 | without a region nothing changes. Otherwise the flags and buttons switch to running, and `start` is called with the form's configuration exactly when that configuration parses |
| Gui.StartUsesChosenRegion | filmreader/gui.py:484-491 | the start button hands over the selected region when there is one, and the typed one otherwise |
| Gui.PauseClicked | filmreader/gui.py:454-467 | flips the pause flag, reports the new value, and leaves the running flag and the region alone |
| Gui.PauseTwiceRestores | filmreader/gui.py:456-463 | two pause clicks restore the window |
| Gui.StopClicked | filmreader/gui.py:469-482 | the window is stopped and unpaused, `stop` is called, and the region and form are kept |
| Gui.Click | filmreader/gui.py:441-476 | a disabled button does nothing |
| Gui.ClickKeepsButtonsAgreeing | filmreader/gui.py:441-476 | after any click, start is enabled exactly when stopped, and pause and stop exactly when running |
| Gui.ClicksKeepButtonsAgreeing | filmreader/gui.py:441-476 | after any sequence of clicks, the buttons still follow the flags, and the window is never paused without running |

## Left out

- Screen capture, OCR and TTS engines, audio playback and the network are foreign calls. The capture is an `Option<Image>` input. An OCR engine is a function to its reply. A TTS engine is its class plus a success predicate.
- The Lanczos resize and the grayscale conversion are parameters (`Imaging`), because they are floating-point image work. `int(w * scale)` is not modelled.
- Preprocess.OtsuScan, Preprocess.Otsu: use exact real arithmetic where the source uses float64, so two splits whose variances tie only under rounding could be ordered differently.
- Preprocess.PreprocessImage: the fixed threshold arrives already converted by `int()`, or as the fact that the conversion raised; how `int()` truncates a float threshold is not modelled.
- Threads, `join` timeouts, `time.sleep` and `queue.Queue` blocking are concurrency. The queue worker is a sequential step, and the polling thread is one `PollOnce` per pass, with its flags read between passes. A sleep matters only through whether it raises.
- App.Sleep, App.PollOnce: a float interval is an exact real, so the float64 rounding of `seconds * 1e9` right at the 2^63-nanosecond bound is not modelled; an interval within one nanosecond of that bound may be judged differently.
- Cli.MainEntry: argparse's own exits happen in `parse_args` (filmreader/__main__.py:95), before `main_entry`'s `try`, and are not modelled: a usage error such as an unknown `--tts-engine` choice or `--interval abc` exits with status 2, and `--help` or `--version` exits with status 0. The parsed arguments are an input.
- App.Handle: a polling thread that has ended is kept as a loop marked not alive rather than removed; `join` timeouts are not modelled.
- Speech.Speak: a partial file left behind by a synthesis that fails half-way (Edge TTS writing before it raises, filmreader/tts.py:212-221) is not modelled; a failed synthesis creates no file.
- Python's `hash` is seed-dependent, so it is an uninterpreted function of the text.
- File existence, JSON loading and saving, directory creation and logging are I/O. The file system is a set of paths, and a configuration file is `Missing`, `Unreadable` or parsed content.
- Speech.ClearCache: `Path.glob("*.mp3")` may ignore case on some platforms, and would also match a directory named `*.mp3`, on which `unlink` raises; the model removes every file whose name ends in `.mp3`, compared exactly. A failing `unlink` that stops the loop half-way is not modelled.
- Config.Get, Config.Set: `getattr` reaching methods, properties and dunder attributes is not modelled, whether of the dataclasses or of dictionary and string values: `get("log_level.upper")` returns a bound method in the source and the default here. A value is a dataclass instance, a dictionary or a scalar.
- App.Settings, App.SettingsAsWritten: read the persisted attribute as `None` where the source would raise `AttributeError` after a `set` replaced a section with a non-dataclass value. A setting of the wrong JSON type, which makes a later comparison raise, only reaches the engines through the `Builder`.
- Config.AsDict: tuples and lists are not values of the model, so `asdict`'s copying of them is not modelled; nested dataclasses and dictionaries are copied.
- Config.SectionRoundTrip, Config.DictRoundTrip, Config.SaveThenLoad: hold for configurations whose fields hold no dataclass instance; a dataclass that `set` stored inside a field comes back as a dictionary.
- PyText.ParseInt models `int()` on ASCII digits, an optional sign, single underscores between digits and surrounding whitespace. Non-ASCII digits are not modelled.
- PyText.ParseFloat models only `float()` of `[sign]digits[.digits]` or `[sign].digits` with surrounding whitespace. Exponents, `inf`, `nan` and underscores are not modelled, so such box contents count as unparsable.
- The GUI's widget layout, dialogs, status log, `root.after` marshalling and the Tesseract hint messages of `_init_components` are UI plumbing.
- The keyword arguments `_init_components` passes to the engine factories beyond the merged settings (paths, API keys, rates) only configure foreign engines.

## Findings

| source | as written | input that shows it | evidently intended | confidence | as-written member | corrected member |
|---|---|---|---|---|---|---|
| filmreader/main.py:238 | `run_cli` puts `"interval": None` in the call-time dictionary when `--interval` is absent, and `config.get("interval", configured)` returns that `None`; `time.sleep(None)` raises in the loop body and again in its handler, ending the polling thread | `python -m filmreader --cli --region 0,900,1920,100` with no `--interval` | an option not given falls back to the configured capture interval | not executed | App.CliLoopDiesAsWritten | App.CliLoopSurvives |
| filmreader/main.py:122-123 | the same `None`-wins merge applies to `--tts-engine`, `--tts-voice`, `--ocr-engine` and `--ocr-language`, so the command line without them ignores the configured engines | a configuration with `tts.engine = "pyttsx3"` and a command line without `--tts-engine`: `create_tts_engine(None)` builds Edge TTS | an option not given falls back to the configured value | not executed | App.CliTtsEngineAsWritten | App.CliTtsEngineFallsBack |

=== FILE: app.dfy ===
/** filmreader/main.py's `FilmReaderApp`: the start / pause / stop flag machine,
    one iteration of the polling loop `_worker_loop`, and how the call-time
    configuration passed to `start` is merged over the persisted one.

    `start` builds with the merge as written, where a key present with `None`
    wins; `StartIntended` is the same call with `None` read as "not given".

    The worker thread is one `PollOnce` per iteration, its flags read between
    iterations; `time.time()` is the `now` argument and `time.sleep` only
    matters through whether it raises. Building the OCR and TTS engines is a
    `Builder` parameter. */
module App {
  import opened Common
  import opened Config
  import opened Recognizer
  import opened Speech
  import opened Preprocess

  // ---------------------------------------------------------------------------
  // Call-time settings

  /** The dictionary `start` receives from the GUI or from `run_cli`. */
  type Overrides = map<string, Val>

  /** `config.get(key, persisted)`, as written: a key that is present wins, even
      when its value is `None`. */
  function MergeAsWritten(overrides: Overrides, key: string, persisted: Val): Val {
    DictGet(overrides, key, persisted)
  }

  /** The merge evidently intended: an option that was not given, which `run_cli`
      passes as `None`, falls back to the persisted value. */
  function Merge(overrides: Overrides, key: string, persisted: Val): (v: Val)
    ensures v == Null ==> persisted == Null
    ensures v != persisted ==> key in overrides && v == overrides[key]
  {
    if key in overrides && overrides[key] != Null then overrides[key] else persisted
  }

  /** The two merges differ exactly on a key present with `None` over a
      persisted value that is not `None`. */
  lemma MergeDiffersOnlyOnNull(overrides: Overrides, key: string, persisted: Val)
    ensures MergeAsWritten(overrides, key, persisted) != Merge(overrides, key, persisted)
        <==> key in overrides && overrides[key] == Null && persisted != Null
  {
  }

  /** The settings `_init_components` passes to the engine factories. */
  datatype RunSettings = RunSettings(
    ocrEngine: Val,
    ocrLanguage: Val,
    preprocessEnable: Val,
    preprocessGrayscale: Val,
    preprocessThreshold: Val,
    preprocessInvert: Val,
    preprocessAutoThreshold: Val,
    preprocessScale: Val,
    ttsEngine: Val,
    ttsVoice: Val)

  /** `config.<section>.<name>`, read by attribute access; `None` where that
      raises `AttributeError`. */
  function Attribute(c: AppConfig, section: string, name: string): Val {
    Lookup(c, [section, name]).GetOr(Null)
  }

  /** The persisted attributes `_init_components` falls back on. */
  function Persisted(c: AppConfig): RunSettings {
    RunSettings(
      Attribute(c, "ocr", "engine"),
      Attribute(c, "ocr", "language"),
      Attribute(c, "ocr", "preprocess_enable"),
      Attribute(c, "ocr", "preprocess_grayscale"),
      Attribute(c, "ocr", "preprocess_threshold"),
      Attribute(c, "ocr", "preprocess_invert"),
      Attribute(c, "ocr", "preprocess_auto_threshold"),
      Attribute(c, "ocr", "preprocess_scale"),
      Attribute(c, "tts", "engine"),
      Attribute(c, "tts", "voice"))
  }

  /** The settings as the source computes them: every setting whose key is in
      the call-time dictionary is the value found there, `None` included, and
      every other one is the persisted attribute. */
  function SettingsAsWritten(c: AppConfig, o: Overrides): (s: RunSettings)
    ensures s.ocrEngine == (if "ocr_engine" in o then o["ocr_engine"] else Persisted(c).ocrEngine)
    ensures s.ocrLanguage == (if "ocr_language" in o then o["ocr_language"] else Persisted(c).ocrLanguage)
    ensures s.preprocessEnable == (if "preprocess_enable" in o then o["preprocess_enable"] else Persisted(c).preprocessEnable)
    ensures s.preprocessGrayscale == (if "preprocess_grayscale" in o then o["preprocess_grayscale"] else Persisted(c).preprocessGrayscale)
    ensures s.preprocessThreshold == (if "preprocess_threshold" in o then o["preprocess_threshold"] else Persisted(c).preprocessThreshold)
    ensures s.preprocessInvert == (if "preprocess_invert" in o then o["preprocess_invert"] else Persisted(c).preprocessInvert)
    ensures s.preprocessAutoThreshold == (if "preprocess_auto_threshold" in o then o["preprocess_auto_threshold"] else Persisted(c).preprocessAutoThreshold)
    ensures s.preprocessScale == (if "preprocess_scale" in o then o["preprocess_scale"] else Persisted(c).preprocessScale)
    ensures s.ttsEngine == (if "tts_engine" in o then o["tts_engine"] else Persisted(c).ttsEngine)
    ensures s.ttsVoice == (if "tts_voice" in o then o["tts_voice"] else Persisted(c).ttsVoice)
  {
    var p := Persisted(c);
    RunSettings(
      MergeAsWritten(o, "ocr_engine", p.ocrEngine),
      MergeAsWritten(o, "ocr_language", p.ocrLanguage),
      MergeAsWritten(o, "preprocess_enable", p.preprocessEnable),
      MergeAsWritten(o, "preprocess_grayscale", p.preprocessGrayscale),
      MergeAsWritten(o, "preprocess_threshold", p.preprocessThreshold),
      MergeAsWritten(o, "preprocess_invert", p.preprocessInvert),
      MergeAsWritten(o, "preprocess_auto_threshold", p.preprocessAutoThreshold),
      MergeAsWritten(o, "preprocess_scale", p.preprocessScale),
      MergeAsWritten(o, "tts_engine", p.ttsEngine),
      MergeAsWritten(o, "tts_voice", p.ttsVoice))
  }

  /** An option given at call time: present, and not `None`. */
  predicate Given(o: Overrides, key: string) {
    key in o && o[key] != Null
  }

  /** The settings with `None` treated as "not given". Every setting is the
      call-time value when one was given, else the persisted one. */
  function Settings(c: AppConfig, o: Overrides): (s: RunSettings)
    ensures s.ocrEngine == (if Given(o, "ocr_engine") then o["ocr_engine"] else Persisted(c).ocrEngine)
    ensures s.ocrLanguage == (if Given(o, "ocr_language") then o["ocr_language"] else Persisted(c).ocrLanguage)
    ensures s.preprocessEnable == (if Given(o, "preprocess_enable") then o["preprocess_enable"] else Persisted(c).preprocessEnable)
    ensures s.preprocessGrayscale == (if Given(o, "preprocess_grayscale") then o["preprocess_grayscale"] else Persisted(c).preprocessGrayscale)
    ensures s.preprocessThreshold == (if Given(o, "preprocess_threshold") then o["preprocess_threshold"] else Persisted(c).preprocessThreshold)
    ensures s.preprocessInvert == (if Given(o, "preprocess_invert") then o["preprocess_invert"] else Persisted(c).preprocessInvert)
    ensures s.preprocessAutoThreshold == (if Given(o, "preprocess_auto_threshold") then o["preprocess_auto_threshold"] else Persisted(c).preprocessAutoThreshold)
    ensures s.preprocessScale == (if Given(o, "preprocess_scale") then o["preprocess_scale"] else Persisted(c).preprocessScale)
    ensures s.ttsEngine == (if Given(o, "tts_engine") then o["tts_engine"] else Persisted(c).ttsEngine)
    ensures s.ttsVoice == (if Given(o, "tts_voice") then o["tts_voice"] else Persisted(c).ttsVoice)
  {
    var p := Persisted(c);
    RunSettings(
      Merge(o, "ocr_engine", p.ocrEngine),
      Merge(o, "ocr_language", p.ocrLanguage),
      Merge(o, "preprocess_enable", p.preprocessEnable),
      Merge(o, "preprocess_grayscale", p.preprocessGrayscale),
      Merge(o, "preprocess_threshold", p.preprocessThreshold),
      Merge(o, "preprocess_invert", p.preprocessInvert),
      Merge(o, "preprocess_auto_threshold", p.preprocessAutoThreshold),
      Merge(o, "preprocess_scale", p.preprocessScale),
      Merge(o, "tts_engine", p.ttsEngine),
      Merge(o, "tts_voice", p.ttsVoice))
  }

  /** The capture interval `_worker_loop` sleeps for, as written: the call-time
      value whenever the key is present, `None` included. */
  function LoopIntervalAsWritten(c: AppConfig, o: Overrides): (v: Val)
    ensures "interval" in o ==> v == o["interval"]
    ensures "interval" !in o ==> v == Attribute(c, "capture", "interval")
  {
    MergeAsWritten(o, "interval", Attribute(c, "capture", "interval"))
  }

  /** The capture interval with `None` treated as "not given", as `StartIntended`
      uses it; `Start` uses `LoopIntervalAsWritten`. */
  function LoopInterval(c: AppConfig, o: Overrides): (v: Val)
    ensures "interval" in o && o["interval"] != Null ==> v == o["interval"]
    ensures "interval" !in o || o["interval"] == Null ==> v == Attribute(c, "capture", "interval")
  {
    Merge(o, "interval", Attribute(c, "capture", "interval"))
  }

  /** The largest signed 64-bit integer: `time.sleep` converts its argument to
      that many nanoseconds at most, and raises `OverflowError` beyond. */
  const MaxNanoseconds: int := 0x7FFF_FFFF_FFFF_FFFF

  /** `time.sleep(v)` returns: a non-negative number (a `bool` is an `int` in
      Python) whose length in nanoseconds fits in a signed 64-bit integer. */
  predicate Sleepable(v: Val) {
    match v
    case Int(i) => 0 <= i && i * 1_000_000_000 <= MaxNanoseconds
    case Float(r) => 0.0 <= r && r * 1_000_000_000.0 < (MaxNanoseconds + 1) as real
    case Bool(_) => true
    case _ => false
  }

  /** The longest sleep in whole seconds is 9223372036 s, a little over 292
      years; one more second, or a float of 1e10, overflows. */
  lemma SleepBounds()
    ensures Sleepable(Int(9_223_372_036)) && !Sleepable(Int(9_223_372_037))
    ensures Sleepable(Float(9_223_372_036.0)) && !Sleepable(Float(10_000_000_000.0))
    ensures !Sleepable(Int(-1)) && !Sleepable(Float(-0.5)) && !Sleepable(Null)
  {
  }

  /** A command-line option that was not given. */
  function OptStr(s: Option<string>): Val {
    match s
    case Some(x) => Str(x)
    case None => Null
  }

  function OptFloat(r: Option<real>): Val {
    match r
    case Some(x) => Float(x)
    case None => Null
  }

  /** The dictionary `run_cli` builds: every option is present, with `None` for
      the ones not given. */
  function CliOverrides(region: Val, ocrEngine: Option<string>, ocrLanguage: Option<string>,
                        ttsEngine: Option<string>, ttsVoice: Option<string>, interval: Option<real>): (o: Overrides)
    ensures o.Keys == {"region", "ocr_engine", "ocr_language", "tts_engine", "tts_voice", "interval"}
    ensures o["region"] == region
    ensures o["interval"] == Null <==> interval.None?
    ensures o["tts_engine"] == Null <==> ttsEngine.None?
  {
    map[
      "region" := region,
      "ocr_engine" := OptStr(ocrEngine),
      "ocr_language" := OptStr(ocrLanguage),
      "tts_engine" := OptStr(ttsEngine),
      "tts_voice" := OptStr(ttsVoice),
      "interval" := OptFloat(interval)]
  }

  /** The engine `create_tts_engine` builds for a type name; an unknown name,
      `None` included, gives Edge TTS. */
  function TtsKindFor(engineType: Val): (k: EngineKind)
    ensures k == Pyttsx3 <==> engineType == Str("pyttsx3")
    ensures k == AzureTts <==> engineType == Str("azure-tts")
    ensures k == AiVoice <==> engineType == Str("ai_voice")
  {
    if engineType == Str("azure-tts") then AzureTts
    else if engineType == Str("ai_voice") then AiVoice
    else if engineType == Str("pyttsx3") then Pyttsx3
    else EdgeTts
  }

  /** As written, the command line without `--interval` makes the polling loop
      sleep for `None`, which raises, whatever the configuration says. */
  lemma CliIntervalAsWritten(c: AppConfig, region: Val, e: Option<string>, l: Option<string>, t: Option<string>, v: Option<string>)
    ensures LoopIntervalAsWritten(c, CliOverrides(region, e, l, t, v, None)) == Null
    ensures !Sleepable(LoopIntervalAsWritten(c, CliOverrides(region, e, l, t, v, None)))
  {
  }

  /** As written, the command line without `--tts-engine` ignores a configured
      pyttsx3 engine and builds Edge TTS. */
  lemma CliTtsEngineAsWritten(c: AppConfig, region: Val, e: Option<string>, l: Option<string>, v: Option<string>, i: Option<real>)
    requires Persisted(c).ttsEngine == Str("pyttsx3")
    ensures TtsKindFor(SettingsAsWritten(c, CliOverrides(region, e, l, None, v, i)).ttsEngine) == EdgeTts
    ensures TtsKindFor(Persisted(c).ttsEngine) == Pyttsx3
  {
  }

  /** With the intended merge, an interval not given on the command line is the
      configured one, and a given one wins. */
  lemma CliIntervalFallsBack(c: AppConfig, region: Val, e: Option<string>, l: Option<string>, t: Option<string>, v: Option<string>, i: Option<real>)
    ensures var o := CliOverrides(region, e, l, t, v, i);
      && (i.None? ==> LoopInterval(c, o) == Attribute(c, "capture", "interval"))
      && (i.Some? ==> LoopInterval(c, o) == Float(i.value))
  {
  }

  /** With the intended merge, a TTS engine not given on the command line is the
      configured one, and a given one wins. */
  lemma CliTtsEngineFallsBack(c: AppConfig, region: Val, e: Option<string>, l: Option<string>, t: Option<string>, v: Option<string>, i: Option<real>)
    ensures var o := CliOverrides(region, e, l, t, v, i);
      && (t.None? ==> Settings(c, o).ttsEngine == Persisted(c).ttsEngine)
      && (t.Some? ==> Settings(c, o).ttsEngine == Str(t.value))
  {
    var o := CliOverrides(region, e, l, t, v, i);
    assert o["tts_engine"] == OptStr(t);
  }

  // ---------------------------------------------------------------------------
  // The application state

  /** A recogniser: its fixed settings and its memory. */
  datatype Recognizing = Recognizing(cfg: RecognizerConfig, state: RecognizerState)

  /** The polling thread's locals: its region, its interval and when it last
      showed a status line; and whether the thread is still alive. */
  datatype Loop = Loop(region: Val, interval: Val, lastStatusTime: real, alive: bool)

  /** A status line shown in the GUI: a recognised subtitle, or why none was. */
  datatype Notice = Heard(text: string, confidence: real) | Missed(reason: string, confidence: real)

  datatype App = App(
    config: AppConfig,
    isRunning: bool,
    isPaused: bool,
    hasGui: bool,
    cacheDir: string,
    hash: string -> int,
    recognizer: Option<Recognizing>,
    synth: Option<SpeechSynthesizer>,
    loop: Option<Loop>,
    notices: seq<Notice>)

  /** `FilmReaderApp.__init__`: nothing built, nothing running. */
  function NewApp(config: AppConfig, hasGui: bool, cacheDir: string, hash: string -> int): (app: App)
    ensures !app.isRunning && !app.isPaused && Invariant(app)
  {
    App(config, false, false, hasGui, cacheDir, hash, None, None, None, [])
  }

  /** What nothing the application does ever changes. */
  ghost predicate Fixed(a: App, b: App) {
    a.config == b.config && a.hasGui == b.hasGui && a.cacheDir == b.cacheDir && a.hash == b.hash
  }

  /** While the application runs, its components exist and the speech worker runs. */
  predicate Invariant(app: App) {
    app.isRunning ==>
      && app.recognizer.Some?
      && app.synth.Some?
      && app.loop.Some?
      && app.synth.value.workerRunning
  }

  // ---------------------------------------------------------------------------
  // start / pause / stop

  /** What `_init_components` produced: the recogniser and the TTS engines, or
      that building the OCR engine, or the primary TTS engine, raised. The
      recogniser is assigned before the TTS engine is built, so it survives a TTS
      failure. A fallback engine that fails to build is simply absent. */
  datatype InitOutcome =
    | Built(recognizer: RecognizerConfig, primary: TtsEngine, fallback: Option<TtsEngine>)
    | OcrFailed
    | TtsFailed(recognizer: RecognizerConfig)

  type Builder = RunSettings -> InitOutcome

  /** The new state, and whether `start` re-raised. */
  datatype Started = Started(app: App, raised: bool)

  /** `start` once the settings to build from, and the region and interval of
      its polling loop, are known. */
  function Launch(app: App, s: RunSettings, region: Val, interval: Val, build: Builder): (r: Started)
    ensures app.isRunning ==> r == Started(app, false)
    ensures !app.isRunning ==> (r.raised <==> !build(s).Built?)
    ensures r.raised ==> !r.app.isRunning && r.app.isPaused == app.isPaused && r.app.synth == app.synth && r.app.loop == app.loop
    ensures !app.isRunning && !r.raised ==>
      && r.app.isRunning && !r.app.isPaused
      && r.app.recognizer == Some(Recognizing(build(s).recognizer, Initial()))
      && r.app.synth.Some? && r.app.synth.value.queue == [] && r.app.synth.value.workerRunning
      && r.app.synth.value.primary == build(s).primary && r.app.synth.value.fallback == build(s).fallback
      && r.app.loop == Some(Loop(region, interval, 0.0, true))
    ensures Fixed(r.app, app) && r.app.notices == app.notices
    ensures Invariant(app) ==> Invariant(r.app)
  {
    if app.isRunning then Started(app, false)
    else
      match build(s)
      case OcrFailed => Started(app.(isRunning := false), true)
      case TtsFailed(rcfg) => Started(app.(recognizer := Some(Recognizing(rcfg, Initial())), isRunning := false), true)
      case Built(rcfg, primary, fallback) =>
        var synth := SpeechSynthesizer(primary, fallback, app.cacheDir, app.hash, [], false);
        Started(app.(
          recognizer := Some(Recognizing(rcfg, Initial())),
          synth := Some(StartQueueWorker(synth)),
          isRunning := true,
          isPaused := false,
          loop := Some(Loop(region, interval, 0.0, true))), false)
  }

  /** `start(config)`, with the merge as written. */
  function Start(app: App, o: Overrides, build: Builder): (r: Started)
    ensures app.isRunning ==> r == Started(app, false)
    ensures !app.isRunning ==> (r.raised <==> !build(SettingsAsWritten(app.config, o)).Built?)
    ensures r.raised ==> !r.app.isRunning && r.app.isPaused == app.isPaused && r.app.synth == app.synth && r.app.loop == app.loop
    ensures !app.isRunning && !r.raised ==>
      var built := build(SettingsAsWritten(app.config, o));
      && r.app.isRunning && !r.app.isPaused
      && r.app.recognizer == Some(Recognizing(built.recognizer, Initial()))
      && r.app.synth.Some? && r.app.synth.value.queue == [] && r.app.synth.value.workerRunning
      && r.app.synth.value.primary == built.primary && r.app.synth.value.fallback == built.fallback
      && r.app.loop == Some(Loop(DictGet(o, "region", Null), LoopIntervalAsWritten(app.config, o), 0.0, true))
    ensures Fixed(r.app, app) && r.app.notices == app.notices
    ensures Invariant(app) ==> Invariant(r.app)
  {
    Launch(app, SettingsAsWritten(app.config, o), DictGet(o, "region", Null), LoopIntervalAsWritten(app.config, o), build)
  }

  /** `start(config)` with the intended merge, where an option passed as `None`
      falls back to the persisted value. */
  function StartIntended(app: App, o: Overrides, build: Builder): (r: Started)
    ensures app.isRunning ==> r == Started(app, false)
    ensures !app.isRunning ==> (r.raised <==> !build(Settings(app.config, o)).Built?)
    ensures r.raised ==> !r.app.isRunning && r.app.isPaused == app.isPaused && r.app.synth == app.synth && r.app.loop == app.loop
    ensures !app.isRunning && !r.raised ==>
      var built := build(Settings(app.config, o));
      && r.app.isRunning && !r.app.isPaused
      && r.app.recognizer == Some(Recognizing(built.recognizer, Initial()))
      && r.app.synth.Some? && r.app.synth.value.queue == [] && r.app.synth.value.workerRunning
      && r.app.synth.value.primary == built.primary && r.app.synth.value.fallback == built.fallback
      && r.app.loop == Some(Loop(DictGet(o, "region", Null), LoopInterval(app.config, o), 0.0, true))
    ensures Fixed(r.app, app) && r.app.notices == app.notices
    ensures Invariant(app) ==> Invariant(r.app)
  {
    Launch(app, Settings(app.config, o), DictGet(o, "region", Null), LoopInterval(app.config, o), build)
  }

  /** The keys `start` merges over the persisted configuration. */
  const MergedKeys: set<string> := {
    "ocr_engine", "ocr_language", "preprocess_enable", "preprocess_grayscale", "preprocess_threshold",
    "preprocess_invert", "preprocess_auto_threshold", "preprocess_scale", "tts_engine", "tts_voice", "interval"}

  /** The region is passed through, not merged. */
  lemma RegionNotMerged()
    ensures "region" !in MergedKeys
  {
  }

  /** The two starts agree whenever no merged option is passed as `None`, as
      from the GUI. */
  lemma StartsAgree(app: App, o: Overrides, build: Builder)
    requires forall k :: k in MergedKeys && k in o ==> o[k] != Null
    ensures Start(app, o, build) == StartIntended(app, o, build)
  {
    var c := app.config;
    assert SettingsAsWritten(c, o) == Settings(c, o) by {
      assert "ocr_engine" in MergedKeys && "ocr_language" in MergedKeys && "tts_engine" in MergedKeys;
      assert "tts_voice" in MergedKeys && "preprocess_enable" in MergedKeys && "preprocess_grayscale" in MergedKeys;
      assert "preprocess_threshold" in MergedKeys && "preprocess_invert" in MergedKeys;
      assert "preprocess_auto_threshold" in MergedKeys && "preprocess_scale" in MergedKeys;
    }
    assert LoopIntervalAsWritten(c, o) == LoopInterval(c, o) by {
      assert "interval" in MergedKeys;
    }
  }

  /** `pause(paused)`: sets the flag, whatever the state, and nothing else. */
  function Pause(app: App, paused: bool): (r: App)
    ensures r.isPaused == paused
    ensures r.(isPaused := app.isPaused) == app
  {
    app.(isPaused := paused)
  }

  /** `stop()`: a no-op unless running; otherwise the loop is told to exit, speech
      stops, the queue empties, the speech worker stops and the recogniser forgets
      its last text. The pause flag is left as it was. */
  function Stop(app: App): (r: App)
    ensures !app.isRunning ==> r == app
    ensures app.isRunning ==>
      && !r.isRunning
      && r.isPaused == app.isPaused
      && r.loop == app.loop
      && r.notices == app.notices
      && (r.synth.Some? <==> app.synth.Some?)
      && (r.synth.Some? ==> r.synth.value.queue == [] && !r.synth.value.workerRunning
                            && SameSettings(r.synth.value, app.synth.value))
      && (r.recognizer.Some? <==> app.recognizer.Some?)
      && (r.recognizer.Some? ==> r.recognizer.value == Recognizing(app.recognizer.value.cfg, Initial()))
  {
    if !app.isRunning then app
    else
      var synth := match app.synth
        case Some(s) => Some(StopQueueWorker(StopSpeaking(s)))
        case None => None;
      var recognizer := match app.recognizer
        case Some(rec) => Some(rec.(state := Reset(rec.state)))
        case None => None;
      app.(isRunning := false, synth := synth, recognizer := recognizer)
  }

  // ---------------------------------------------------------------------------
  // One iteration of the polling loop

  /** The status text for a result tag; a tag the table does not know is shown as is. */
  function ReasonText(tag: string): (text: string)
    ensures tag !in {"capture_failed", "no_text", "low_confidence", "duplicate", "error", "ok"} ==> text == tag
  {
    if tag == "capture_failed" then "截图失败（检查区域或权限）"
    else if tag == "no_text" then "未检测到文本"
    else if tag == "low_confidence" then "置信度过低（可适当降低阈值）"
    else if tag == "duplicate" then "重复字幕已跳过"
    else if tag == "error" then "识别异常（查看日志）"
    else if tag == "ok" then "已识别"
    else tag
  }

  /** Every tag the recogniser produces has its own status text. */
  lemma ReasonTextsDistinct(a: Reason, b: Reason)
    ensures ReasonText(a.Name()) != a.Name()
    ensures ReasonText(a.Name()) == ReasonText(b.Name()) <==> a == b
  {
  }

  /** The outcome of one pass through the `while self.is_running` loop. */
  datatype Iteration =
    | Exited            // the flag was found cleared
    | Continued(app: App)
    | Died(app: App)    // `time.sleep(interval)` raised in the handler too

  /** `time.sleep(interval)` at the end of the `try` block; when it raises, the
      handler sleeps for the same interval, which raises again and ends the thread. */
  function Sleep(app: App, interval: Val): (r: Iteration)
    ensures r.Continued? <==> Sleepable(interval)
    ensures r.Continued? || r.Died?
    ensures r.app == app
  {
    if Sleepable(interval) then Continued(app) else Died(app)
  }

  /** One pass of `_worker_loop` with what the capture returned and the clock. */
  function PollOnce(app: App, capture: Option<Image>, now: real): (r: Iteration)
    requires app.loop.Some?
    // The loop stops once the flag is cleared; a paused pass does nothing.
    ensures !app.isRunning <==> r.Exited?
    ensures app.isRunning && app.isPaused ==> r == Continued(app)
    // The thread dies exactly when it cannot sleep for its interval.
    ensures r.Died? <==> app.isRunning && !app.isPaused && !Sleepable(app.loop.value.interval)
    ensures !r.Exited? ==> r.app.isRunning == app.isRunning && r.app.isPaused == app.isPaused
    ensures !r.Exited? ==> r.app.loop.Some? && r.app.loop.value.interval == app.loop.value.interval
    ensures !r.Exited? ==> r.app.loop.value.(lastStatusTime := app.loop.value.lastStatusTime) == app.loop.value
    ensures !r.Exited? ==> Fixed(r.app, app) && app.notices <= r.app.notices
    ensures Invariant(app) && !r.Exited? ==> Invariant(r.app)
    // What a recognition pass does with the result.
    ensures app.isRunning && !app.isPaused && app.recognizer.Some? && app.synth.Some? ==>
      var rec := app.recognizer.value;
      var out := RecognizeSubtitle(rec.cfg, rec.state, capture, now);
      var accepted := out.result.reason == Accepted;
      var last := app.loop.value.lastStatusTime;
      var notify := app.hasGui && (accepted || now - last > 5.0);
      && r.app.recognizer == Some(rec.(state := out.state))
      && r.app.synth.Some?
      && r.app.synth.value.queue == (if accepted then Enqueue(app.synth.value, out.result.text).queue else app.synth.value.queue)
      && SameSettings(r.app.synth.value, app.synth.value)
      && r.app.loop.value.lastStatusTime == (if accepted || notify then now else last)
      && r.app.notices == app.notices + (if !notify then []
           else if accepted then [Heard(out.result.text, out.result.confidence)]
           else [Missed(ReasonText(out.result.reason.Name()), out.result.confidence)])
  {
    if !app.isRunning then Exited
    else if app.isPaused then Continued(app)
    else
      var loop := app.loop.value;
      match app.recognizer
      case None => Sleep(app, loop.interval)
      case Some(rec) =>
        var out := RecognizeSubtitle(rec.cfg, rec.state, capture, now);
        var app1 := app.(recognizer := Some(rec.(state := out.state)));
        var res := out.result;
        if res.text != "" then
          var app2 := if app.hasGui then app1.(notices := app1.notices + [Heard(res.text, res.confidence)]) else app1;
          match app2.synth
          case None => Sleep(app2, loop.interval)
          case Some(s) =>
            Sleep(app2.(synth := Some(Enqueue(s, res.text)), loop := Some(loop.(lastStatusTime := now))), loop.interval)
        else if app.hasGui && now - loop.lastStatusTime > 5.0 then
          var notice := Missed(ReasonText(res.reason.Name()), res.confidence);
          Sleep(app1.(notices := app1.notices + [notice], loop := Some(loop.(lastStatusTime := now))), loop.interval)
        else Sleep(app1, loop.interval)
  }

  /** A missed-subtitle notice silences the next ones for five seconds: a pass
      that recognises nothing within five seconds of a notice adds none. */
  lemma NoticeThrottled(app: App, c1: Option<Image>, now1: real, c2: Option<Image>, now2: real)
    requires app.loop.Some? && app.isRunning && !app.isPaused
    requires app.recognizer.Some? && app.synth.Some?
    requires PollOnce(app, c1, now1).Continued?
    requires |PollOnce(app, c1, now1).app.notices| > |app.notices|
    requires var a1 := PollOnce(app, c1, now1).app;
      RecognizeSubtitle(a1.recognizer.value.cfg, a1.recognizer.value.state, c2, now2).result.reason != Accepted
    requires now2 - now1 <= 5.0
    ensures var a1 := PollOnce(app, c1, now1).app;
      PollOnce(a1, c2, now2).Continued? ==> PollOnce(a1, c2, now2).app.notices == a1.notices
  {
  }

  /** As written, a command-line run without `--interval` starts a polling
      thread that dies on its first pass: `start` succeeds, and the pass sleeps
      for `None`. */
  lemma CliLoopDiesAsWritten(app: App, build: Builder, capture: Option<Image>, now: real, region: Val,
                             e: Option<string>, l: Option<string>, t: Option<string>, v: Option<string>)
    requires !app.isRunning
    requires !Start(app, CliOverrides(region, e, l, t, v, None), build).raised
    ensures var a := Start(app, CliOverrides(region, e, l, t, v, None), build).app;
      && a.isRunning
      && PollOnce(a, capture, now).Died?
      && Handle(a, PollEvent(capture, now)).isRunning
      && !Handle(a, PollEvent(capture, now)).loop.value.alive
  {
    CliIntervalAsWritten(app.config, region, e, l, t, v);
  }

  /** With the intended merge, a command-line run started from a configuration
      whose capture interval is a sleepable number keeps polling. */
  lemma CliLoopSurvives(app: App, build: Builder, capture: Option<Image>, now: real, region: Val,
                        e: Option<string>, l: Option<string>, t: Option<string>, v: Option<string>)
    requires !app.isRunning
    requires Sleepable(Attribute(app.config, "capture", "interval"))
    requires !StartIntended(app, CliOverrides(region, e, l, t, v, None), build).raised
    ensures var a := StartIntended(app, CliOverrides(region, e, l, t, v, None), build).app;
      && PollOnce(a, capture, now).Continued?
      && Handle(a, PollEvent(capture, now)).loop.value.alive
  {
    CliIntervalFallsBack(app.config, region, e, l, t, v, None);
  }

  // ---------------------------------------------------------------------------
  // Sessions

  /** What happens to the application: the user's commands, and passes of the
      polling loop. */
  datatype Event =
    | StartEvent(overrides: Overrides, build: Builder)
    | PauseEvent(paused: bool)
    | StopEvent
    | PollEvent(capture: Option<Image>, now: real)

  /** One event. A pass of a polling thread that has ended, or was never
      started, changes nothing. The pass that ends the thread keeps what it did
      before `time.sleep` raised, and the running flag stays set. */
  function Handle(app: App, e: Event): (r: App)
    ensures Fixed(r, app) && app.notices <= r.notices
    ensures e.PollEvent? && (app.loop.None? || !app.loop.value.alive) ==> r == app
    ensures e.PollEvent? && app.loop.Some? && app.loop.value.alive ==>
      var it := PollOnce(app, e.capture, e.now);
      && (it.Continued? ==> r == it.app)
      && (it.Died? ==> r == it.app.(loop := Some(it.app.loop.value.(alive := false))) && r.isRunning)
      && (it.Exited? ==> r == app.(loop := Some(app.loop.value.(alive := false))) && !r.isRunning)
  {
    match e
    case StartEvent(o, build) => Start(app, o, build).app
    case PauseEvent(p) => Pause(app, p)
    case StopEvent => Stop(app)
    case PollEvent(capture, now) =>
      if app.loop.None? || !app.loop.value.alive then app
      else
        match PollOnce(app, capture, now)
        case Continued(a) => a
        case Died(a) => a.(loop := Some(a.loop.value.(alive := false)))
        case Exited => app.(loop := Some(app.loop.value.(alive := false)))
  }

  /** A sequence of events, in order. Only status lines are ever added, and the
      configuration and the cache directory never change. */
  function HandleAll(app: App, es: seq<Event>): (r: App)
    ensures Fixed(r, app) && app.notices <= r.notices
    decreases |es|
  {
    if |es| == 0 then app
    else
      var next := Handle(app, es[0]);
      var r := HandleAll(next, es[1..]);
      assert app.notices <= next.notices <= r.notices;
      r
  }

  /** Once the polling thread has died, no further pass does anything. */
  lemma {:induction false} DeadLoopIgnored(app: App, es: seq<Event>)
    requires app.loop.Some? && !app.loop.value.alive
    requires forall i :: 0 <= i < |es| ==> es[i].PollEvent?
    ensures HandleAll(app, es) == app
    decreases |es|
  {
    if |es| > 0 {
      assert Handle(app, es[0]) == app;
      DeadLoopIgnored(app, es[1..]);
    }
  }

  /** Whatever happens, a running application has its components and its speech
      worker. */
  lemma {:induction false} InvariantHolds(app: App, es: seq<Event>)
    requires Invariant(app)
    ensures Invariant(HandleAll(app, es))
    decreases |es|
  {
    if |es| > 0 {
      assert Invariant(Handle(app, es[0]));
      InvariantHolds(Handle(app, es[0]), es[1..]);
    }
  }
}

=== FILE: cli.dfy ===
/** filmreader/__main__.py's `main_entry`: the `--region x,y,width,height`
    parser and the exit code. Argument parsing itself (argparse) and the
    application's run are inputs: the parsed arguments, and how constructing and
    running the application ended. */
module Cli {
  import opened Common
  import opened PyText
  import opened Config
  import App

  /** The region as the four integers the command line gives: exactly four
      comma-separated fields, each an `int()` literal. */
  function ParseRegion(s: string): (r: Result<Region, string>)
    ensures var parts := Split(s, ',');
      r.Ok? <==>
        && |parts| == 4
        && ParseInt(parts[0]).Some? && ParseInt(parts[1]).Some?
        && ParseInt(parts[2]).Some? && ParseInt(parts[3]).Some?
    ensures var parts := Split(s, ',');
      r.Ok? ==>
        && Some(r.value.x) == ParseInt(parts[0])
        && Some(r.value.y) == ParseInt(parts[1])
        && Some(r.value.width) == ParseInt(parts[2])
        && Some(r.value.height) == ParseInt(parts[3])
  {
    var parts := Split(s, ',');
    if |parts| != 4 then Err("not enough values to unpack")
    else
      var x, y, w, h := ParseInt(parts[0]), ParseInt(parts[1]), ParseInt(parts[2]), ParseInt(parts[3]);
      if x.Some? && y.Some? && w.Some? && h.Some? then Ok(Region(x.value, y.value, w.value, h.value))
      else Err("invalid literal for int()")
  }

  /** The region spelt as the command line expects it. */
  function FormatRegion(r: Region): string {
    Join([FormatInt(r.x), FormatInt(r.y), FormatInt(r.width), FormatInt(r.height)], ',')
  }

  /** `str(n)` never contains a comma. */
  lemma NoCommaInFormat(n: int)
    ensures ',' !in FormatInt(n)
  {
  }

  /** Parsing a formatted region gives it back, whatever its numbers: there is no
      range check, so zero or negative sizes are accepted too. */
  lemma ParseFormatRegion(r: Region)
    ensures ParseRegion(FormatRegion(r)) == Ok(r)
    ensures FormatRegion(r) != ""
  {
    assert |FormatInt(r.x)| >= 1;
    var parts := [FormatInt(r.x), FormatInt(r.y), FormatInt(r.width), FormatInt(r.height)];
    NoCommaInFormat(r.x);
    NoCommaInFormat(r.y);
    NoCommaInFormat(r.width);
    NoCommaInFormat(r.height);
    SplitJoin(parts, ',');
    ParseFormatInt(r.x);
    ParseFormatInt(r.y);
    ParseFormatInt(r.width);
    ParseFormatInt(r.height);
  }

  /** The command-line arguments `main_entry` reads. */
  datatype Args = Args(
    cli: bool,
    region: Option<string>,
    ocrEngine: Option<string>,
    ocrLanguage: Option<string>,
    ttsEngine: Option<string>,
    ttsVoice: Option<string>,
    interval: Option<real>)

  /** How a part of the `try` block ended. */
  datatype Outcome = Completed | Interrupted | Raised

  /** Which mode was launched: the command line with its call-time
      configuration, or the GUI. */
  datatype Launch = CliMode(overrides: App.Overrides) | GuiMode

  datatype Exit = Exit(code: int, launched: Option<Launch>)

  /** The exit code of a `try` block that ended as `o`. */
  function CodeOf(o: Outcome): int {
    match o
    case Completed => 0
    case Interrupted => 0
    case Raised => 1
  }

  /** `main_entry`, given how building the application and running the chosen
      mode ended. */
  function MainEntry(args: Args, build: Outcome, run: Outcome): (r: Exit)
    // Building the application fails before anything is launched.
    ensures build != Completed ==> r == Exit(CodeOf(build), None)
    // The command line without a region, or with one that does not parse, exits 1.
    ensures build == Completed && args.cli && (args.region.None? || args.region.value == "") ==> r == Exit(1, None)
    ensures build == Completed && args.cli && args.region.Some? && ParseRegion(args.region.value).Err? ==> r == Exit(1, None)
    // Otherwise the mode is launched and its end decides the code.
    ensures r.launched.Some? ==> r.code == CodeOf(run)
    ensures build == Completed && !args.cli ==> r == Exit(CodeOf(run), Some(GuiMode))
    ensures build == Completed && args.cli && args.region.Some? && args.region.value != "" && ParseRegion(args.region.value).Ok? ==>
      r.launched == Some(CliMode(App.CliOverrides(RegionVal(ParseRegion(args.region.value).value),
                                                  args.ocrEngine, args.ocrLanguage, args.ttsEngine, args.ttsVoice, args.interval)))
    ensures r.code == 0 || r.code == 1
  {
    if build != Completed then Exit(CodeOf(build), None)
    else if args.cli then
      if args.region.None? || args.region.value == "" then Exit(1, None)
      else
        match ParseRegion(args.region.value)
        case Err(_) => Exit(1, None)
        case Ok(region) =>
          var o := App.CliOverrides(RegionVal(region), args.ocrEngine, args.ocrLanguage,
                                    args.ttsEngine, args.ttsVoice, args.interval);
          Exit(CodeOf(run), Some(CliMode(o)))
    else Exit(CodeOf(run), Some(GuiMode))
  }

  /** A well-formed region on the command line launches the command-line mode
      with exactly that region. */
  lemma CliLaunchesWithRegion(r: Region, args: Args, run: Outcome)
    requires args.cli && args.region == Some(FormatRegion(r))
    ensures MainEntry(args, Completed, run).launched.Some?
    ensures MainEntry(args, Completed, run).launched.value.overrides["region"] == RegionVal(r)
  {
    ParseFormatRegion(r);
    LaunchesParsed(args.region.value, args, run);
  }

  lemma LaunchesParsed(s: string, args: Args, run: Outcome)
    requires args.cli && args.region == Some(s) && s != ""
    requires ParseRegion(s).Ok?
    ensures MainEntry(args, Completed, run).launched.Some?
    ensures MainEntry(args, Completed, run).launched.value.overrides["region"] == RegionVal(ParseRegion(s).value)
  {
  }

  /** A region with fewer or more than four fields is refused. */
  lemma WrongFieldCountRefused(s: string, args: Args, run: Outcome)
    requires args.cli && args.region == Some(s)
    requires |Split(s, ',')| != 4
    ensures MainEntry(args, Completed, run) == Exit(1, None)
  {
  }
}

=== FILE: common.dfy ===
/** Failure-carrying wrappers shared by every module of the model. */
module Common {

  /** A value that may be absent: Python's `Optional[T]`. */
  datatype Option<+T> = None | Some(value: T) {

    /** The wrapped value, or `default` when absent. */
    function GetOr(default: T): T {
      match this
      case Some(v) => v
      case None => default
    }
  }

  /** The outcome of an operation that may raise: the value, or the error it raised. */
  datatype Result<+T, +E> = Ok(value: T) | Err(error: E)

  /** A screen rectangle: the `{"x", "y", "width", "height"}` dictionaries the
      application passes around. */
  datatype Region = Region(x: int, y: int, width: int, height: int)
}

=== FILE: config.dfy ===
/** filmreader/config.py's `ConfigManager`: the dotted-key `get` / `set` walk
    over the configuration's dataclass tree, and the `_config_to_dict` /
    `_dict_to_config` serialisers with their per-field defaults.

    The configuration is an `AppConfig` whose attributes are `Val` trees. A
    dataclass instance is a `Record`, whose attributes `getattr` reads and
    `setattr` adds or replaces; a plain dictionary is a `Dict`, which has no
    attributes of its own. Values are not type-checked, just as the dataclasses
    do not check them. */
module Config {
  import opened Common
  import opened PyText

  datatype Val =
    | Record(fields: map<string, Val>)
    | Dict(entries: map<string, Val>)
    | Str(s: string)
    | Int(i: int)
    | Float(r: real)
    | Bool(b: bool)
    | Null

  /** An `AppConfig` instance: its eight declared attributes, and whatever
      attributes `set` has added to it. */
  datatype AppConfig = AppConfig(
    ocr: Val,
    tts: Val,
    capture: Val,
    gui: Val,
    hotkey: Val,
    logLevel: Val,
    logFile: Val,
    autoStart: Val,
    added: map<string, Val>)

  // ---------------------------------------------------------------------------
  // get / set

  /** `getattr(config, name)`; `None` stands for `AttributeError`. */
  function Attr(c: AppConfig, name: string): Option<Val> {
    if name == "ocr" then Some(c.ocr)
    else if name == "tts" then Some(c.tts)
    else if name == "capture" then Some(c.capture)
    else if name == "gui" then Some(c.gui)
    else if name == "hotkey" then Some(c.hotkey)
    else if name == "log_level" then Some(c.logLevel)
    else if name == "log_file" then Some(c.logFile)
    else if name == "auto_start" then Some(c.autoStart)
    else if name in c.added then Some(c.added[name])
    else None
  }

  /** `setattr(config, name, x)`, which never fails on a dataclass instance. */
  function SetAttr(c: AppConfig, name: string, x: Val): (r: AppConfig)
    ensures Attr(r, name) == Some(x)
    ensures forall other :: other != name ==> Attr(r, other) == Attr(c, other)
  {
    if name == "ocr" then c.(ocr := x)
    else if name == "tts" then c.(tts := x)
    else if name == "capture" then c.(capture := x)
    else if name == "gui" then c.(gui := x)
    else if name == "hotkey" then c.(hotkey := x)
    else if name == "log_level" then c.(logLevel := x)
    else if name == "log_file" then c.(logFile := x)
    else if name == "auto_start" then c.(autoStart := x)
    else c.(added := c.added[name := x])
  }

  /** Follow `path` by `getattr` inside a value; `None` stands for the
      `AttributeError` raised by a missing attribute or by a value that is not a
      dataclass instance. */
  function Walk(v: Val, path: seq<string>): (r: Option<Val>)
    ensures |path| == 0 ==> r == Some(v)
    decreases |path|
  {
    if |path| == 0 then Some(v)
    else match v
      case Record(fields) => if path[0] in fields then Walk(fields[path[0]], path[1..]) else None
      case _ => None
  }

  /** The segments of a dotted key. */
  function Segments(key: string): (path: seq<string>)
    ensures |path| >= 1
  {
    Split(key, '.')
  }

  /** Follow a whole path from the configuration itself. */
  function Lookup(c: AppConfig, path: seq<string>): Option<Val>
    requires |path| >= 1
  {
    match Attr(c, path[0])
    case Some(v) => Walk(v, path[1..])
    case None => None
  }

  /** A key without dots is a single segment. */
  lemma PlainKey(key: string)
    ensures '.' !in key ==> Segments(key) == [key]
  {
    if '.' !in key {
      SplitNoSep(key, '.');
    }
  }

  /** Once a prefix of a path leads nowhere, so does the whole path. */
  lemma {:induction false} WalkPrefixNone(v: Val, path: seq<string>, i: nat)
    requires i <= |path| && Walk(v, path[..i]).None?
    ensures Walk(v, path).None?
    decreases i
  {
    if v.Record? && path[0] in v.fields {
      assert path[..i][1..] == path[1..][..i - 1];
      WalkPrefixNone(v.fields[path[0]], path[1..], i - 1);
    }
  }

  /** `WalkPrefixNone` from the configuration, for every prefix. */
  lemma LookupPrefixNone(c: AppConfig, path: seq<string>)
    requires |path| >= 1
    ensures forall i :: 1 <= i <= |path| && Lookup(c, path[..i]).None? ==> Lookup(c, path).None?
  {
    forall i | 1 <= i <= |path| && Lookup(c, path[..i]).None?
      ensures Lookup(c, path).None?
    {
      if Attr(c, path[0]).Some? {
        assert path[..i][1..] == path[1..][..i - 1];
        WalkPrefixNone(Attr(c, path[0]).value, path[1..], i - 1);
      }
    }
  }

  /** `get(key, default)`. */
  function Get(c: AppConfig, key: string, default: Val): (r: Val)
    // A key without dots reads the configuration's own attribute.
    ensures '.' !in key ==> r == Attr(c, key).GetOr(default)
    // A missing first attribute gives the default, and so does any attribute
    // missing further along the dotted path.
    ensures Attr(c, Segments(key)[0]).None? ==> r == default
    ensures forall i :: 1 <= i <= |Segments(key)| && Lookup(c, Segments(key)[..i]).None? ==> r == default
  {
    PlainKey(key);
    LookupPrefixNone(c, Segments(key));
    Lookup(c, Segments(key)).GetOr(default)
  }

  /** Inside a value: `getattr` along all but the last segment, then `setattr` of
      the last one; `None` when a `getattr` fails or the final object is not a
      dataclass instance. */
  function SetPath(v: Val, path: seq<string>, x: Val): Option<Val>
    requires |path| > 0
    decreases |path|
  {
    match v
    case Record(fields) =>
      if |path| == 1 then Some(Record(fields[path[0] := x]))
      else if path[0] in fields then
        match SetPath(fields[path[0]], path[1..], x)
        case Some(child) => Some(Record(fields[path[0] := child]))
        case None => None
      else None
    case _ => None
  }

  /** `set(key, value)`: a failure is logged and leaves the configuration as it was. */
  function Set(c: AppConfig, key: string, x: Val): (r: AppConfig)
    // Only the top-level attribute the key starts with can change.
    ensures forall name :: name != Segments(key)[0] ==> Attr(r, name) == Attr(c, name)
    // A key without dots assigns that attribute.
    ensures '.' !in key ==> Attr(r, key) == Some(x)
    // A missing or non-dataclass parent leaves the configuration as it was.
    ensures !ParentIsRecord(c, key) ==> r == c
  {
    PlainKey(key);
    SetPathAtKey(c, key, x);
    var path := Segments(key);
    if |path| == 1 then SetAttr(c, path[0], x)
    else match Attr(c, path[0])
      case None => c
      case Some(v) =>
        match SetPath(v, path[1..], x)
        case Some(v') => SetAttr(c, path[0], v')
        case None => c
  }

  /** Inside a value, the object the last segment would be assigned on exists and
      is a dataclass instance. */
  predicate ParentIsRecordIn(v: Val, path: seq<string>)
    requires |path| > 0
  {
    var parent := Walk(v, path[..|path| - 1]);
    parent.Some? && parent.value.Record?
  }

  /** The object `set(key, ...)` would assign on exists and is a dataclass instance. */
  predicate ParentIsRecord(c: AppConfig, key: string) {
    var path := Segments(key);
    || |path| == 1
    || (Attr(c, path[0]).Some? && ParentIsRecordIn(Attr(c, path[0]).value, path[1..]))
  }

  /** Assigning inside a value succeeds exactly when the parent is a dataclass instance. */
  lemma {:induction false} SetPathSucceeds(v: Val, path: seq<string>, x: Val)
    requires |path| > 0
    ensures SetPath(v, path, x).Some? <==> ParentIsRecordIn(v, path)
    decreases |path|
  {
    if |path| > 1 && v.Record? && path[0] in v.fields {
      SetPathSucceeds(v.fields[path[0]], path[1..], x);
      assert path[1..][..|path| - 2] == path[..|path| - 1][1..];
    }
  }

  /** `SetPathSucceeds` for the path below a key's first attribute. */
  lemma SetPathAtKey(c: AppConfig, key: string, x: Val)
    ensures var path := Segments(key);
      |path| > 1 && Attr(c, path[0]).Some? ==>
        (SetPath(Attr(c, path[0]).value, path[1..], x).Some? <==> ParentIsRecord(c, key))
  {
    var path := Segments(key);
    if |path| > 1 && Attr(c, path[0]).Some? {
      SetPathSucceeds(Attr(c, path[0]).value, path[1..], x);
    }
  }

  /** After a successful assignment the path leads to the assigned value. */
  lemma {:induction false} WalkAfterSetPath(v: Val, path: seq<string>, x: Val)
    requires |path| > 0 && SetPath(v, path, x).Some?
    ensures Walk(SetPath(v, path, x).value, path) == Some(x)
    decreases |path|
  {
    if |path| > 1 {
      WalkAfterSetPath(v.fields[path[0]], path[1..], x);
    }
  }

  /** Two paths that part somewhere: neither leads into the other. */
  predicate Diverge(p: seq<string>, q: seq<string>) {
    exists i :: 0 <= i < |p| && i < |q| && p[i] != q[i]
  }

  /** Assigning along one path leaves every diverging path as it was. */
  lemma {:induction false} WalkFrame(v: Val, p: seq<string>, x: Val, q: seq<string>)
    requires |p| > 0 && SetPath(v, p, x).Some?
    requires Diverge(p, q)
    ensures Walk(SetPath(v, p, x).value, q) == Walk(v, q)
    decreases |p|
  {
    var i :| 0 <= i < |p| && i < |q| && p[i] != q[i];
    if i > 0 {
      assert p[1..][i - 1] != q[1..][i - 1];
      WalkFrame(v.fields[p[0]], p[1..], x, q[1..]);
    }
  }

  /** `set(key, v)` then `get(key)` returns `v`, whenever the parent exists. */
  lemma GetAfterSet(c: AppConfig, key: string, x: Val, default: Val)
    requires ParentIsRecord(c, key)
    ensures Get(Set(c, key, x), key, default) == x
  {
    var path := Segments(key);
    if |path| > 1 {
      var v := Attr(c, path[0]).value;
      SetPathSucceeds(v, path[1..], x);
      WalkAfterSetPath(v, path[1..], x);
    }
  }

  /** `set` with a missing or non-dataclass parent changes nothing. */
  lemma SetFailsUnchanged(c: AppConfig, key: string, x: Val)
    requires !ParentIsRecord(c, key)
    ensures Set(c, key, x) == c
  {
    var path := Segments(key);
    if Attr(c, path[0]).Some? {
      SetPathSucceeds(Attr(c, path[0]).value, path[1..], x);
    }
  }

  /** `set` changes only the addressed attribute: a key whose path diverges from
      it reads the same afterwards. */
  lemma SetFrame(c: AppConfig, key: string, x: Val, other: string, default: Val)
    requires Diverge(Segments(key), Segments(other))
    ensures Get(Set(c, key, x), other, default) == Get(c, other, default)
  {
    var p, q := Segments(key), Segments(other);
    if p[0] != q[0] {
      LookupSameHead(c, Set(c, key, x), q);
    } else {
      SetFrameSameHead(c, key, x, other);
    }
  }

  /** Two configurations whose first attribute on a path agree read the same along it. */
  lemma LookupSameHead(c: AppConfig, d: AppConfig, q: seq<string>)
    requires |q| >= 1 && Attr(d, q[0]) == Attr(c, q[0])
    ensures Lookup(d, q) == Lookup(c, q)
  {
  }

  /** `SetFrame` when both keys start at the same attribute. */
  lemma SetFrameSameHead(c: AppConfig, key: string, x: Val, other: string)
    requires Diverge(Segments(key), Segments(other))
    requires Segments(key)[0] == Segments(other)[0]
    ensures Lookup(Set(c, key, x), Segments(other)) == Lookup(c, Segments(other))
  {
    var p, q := Segments(key), Segments(other);
    var i :| 0 <= i < |p| && i < |q| && p[i] != q[i];
    assert i > 0 && |p| > 1;
    if Attr(c, p[0]).Some? {
      var v := Attr(c, p[0]).value;
      if SetPath(v, p[1..], x).Some? {
        assert p[1..][i - 1] != q[1..][i - 1];
        WalkFrame(v, p[1..], x, q[1..]);
        assert Attr(Set(c, key, x), p[0]) == Some(SetPath(v, p[1..], x).value);
      }
    }
  }

  // ---------------------------------------------------------------------------
  // The dataclasses and their defaults

  /** A section dataclass: its fields with their defaults, and whether it has
      `CaptureConfig.__post_init__`, which replaces a `None` region by the default. */
  datatype SectionSpec = SectionSpec(defaults: map<string, Val>, postInit: bool)

  /** A capture region as the dictionary `{"x": .., "y": .., "width": .., "height": ..}`. */
  function RegionVal(r: Region): Val {
    Dict(map["x" := Int(r.x), "y" := Int(r.y), "width" := Int(r.width), "height" := Int(r.height)])
  }

  const DefaultRegion: Val := RegionVal(Region(0, 0, 800, 100))

  /** `OCRConfig`. */
  const OcrSpec: SectionSpec := SectionSpec(map[
    "engine" := Str("tesseract"),
    "language" := Str("chi_sim"),
    "confidence_threshold" := Float(0.6),
    "tesseract_path" := Null,
    "tesseract_psm" := Int(7),
    "preprocess_enable" := Bool(true),
    "preprocess_grayscale" := Bool(true),
    "preprocess_threshold" := Int(160),
    "preprocess_invert" := Bool(false),
    "preprocess_auto_threshold" := Bool(true),
    "preprocess_scale" := Float(2.0),
    "ai_model" := Null,
    "ai_api_key" := Null,
    "ai_endpoint" := Null], false)

  /** `TTSConfig`. */
  const TtsSpec: SectionSpec := SectionSpec(map[
    "engine" := Str("edge-tts"),
    "voice" := Str("zh-CN-XiaoxiaoNeural"),
    "rate" := Str("+0%"),
    "volume" := Str("+0%"),
    "pitch" := Str("+0Hz"),
    "fallback_engine" := Str("pyttsx3"),
    "fallback_voice" := Null,
    "fallback_rate" := Null,
    "ai_voice_model" := Null,
    "ai_api_key" := Null,
    "voice_clone_sample" := Null], false)

  /** `CaptureConfig`. */
  const CaptureSpec: SectionSpec := SectionSpec(map[
    "region" := Null,
    "interval" := Float(1.0),
    "method" := Str("mss")], true)

  /** `GUIConfig`. */
  const GuiSpec: SectionSpec := SectionSpec(map[
    "framework" := Str("tkinter"),
    "theme" := Str("default"),
    "window_size" := Dict(map["width" := Int(600), "height" := Int(400)]),
    "always_on_top" := Bool(false),
    "start_minimized" := Bool(false)], false)

  /** `HotkeyConfig`. */
  const HotkeySpec: SectionSpec := SectionSpec(map[
    "enable" := Bool(true),
    "start_stop" := Str("F9"),
    "pause_resume" := Str("F10")], false)

  /** The dataclass constructor of a section, given keyword arguments: unknown
      names raise `TypeError`, missing ones take their default, and
      `__post_init__` replaces a `None` region by the default one. */
  function Construct(spec: SectionSpec, kwargs: map<string, Val>): (r: Result<map<string, Val>, string>)
    ensures r.Ok? <==> kwargs.Keys <= spec.defaults.Keys
    ensures r.Ok? ==> r.value.Keys == spec.defaults.Keys
    // Given fields keep their value and missing ones take their default, except
    // a `None` region, which `__post_init__` replaces.
    ensures r.Ok? ==> forall k :: k in kwargs && !(spec.postInit && k == "region" && kwargs[k] == Null) ==> r.value[k] == kwargs[k]
    ensures r.Ok? ==> forall k :: k in spec.defaults && k !in kwargs && !(spec.postInit && k == "region" && spec.defaults[k] == Null) ==>
      r.value[k] == spec.defaults[k]
    ensures r.Ok? && spec.postInit && "region" in spec.defaults ==>
      && r.value["region"] != Null
      && ((if "region" in kwargs then kwargs["region"] else spec.defaults["region"]) == Null ==> r.value["region"] == DefaultRegion)
  {
    if kwargs.Keys <= spec.defaults.Keys then
      var fields := spec.defaults + kwargs;
      if spec.postInit && "region" in fields && fields["region"] == Null then Ok(fields["region" := DefaultRegion])
      else Ok(fields)
    else Err("unexpected keyword argument")
  }

  /** A `CaptureConfig` built with `region=None`, or without a region, gets the
      default 800x100 region at the origin. */
  lemma CaptureRegionDefault(kwargs: map<string, Val>)
    requires kwargs.Keys <= CaptureSpec.defaults.Keys
    requires "region" !in kwargs || kwargs["region"] == Null
    ensures Construct(CaptureSpec, kwargs).Ok?
    ensures Construct(CaptureSpec, kwargs).value["region"] == DefaultRegion
  {
  }

  /** `AppConfig()`. */
  function DefaultConfig(): AppConfig {
    AppConfig(
      Record(OcrSpec.defaults),
      Record(TtsSpec.defaults),
      Record(CaptureSpec.defaults["region" := DefaultRegion]),
      Record(GuiSpec.defaults),
      Record(HotkeySpec.defaults),
      Str("INFO"),
      Null,
      Bool(false),
      map[])
  }

  /** A section holds a dataclass instance with exactly the declared fields, and
      with a region when it has a `__post_init__`. */
  ghost predicate SectionShape(v: Val, spec: SectionSpec) {
    && v.Record?
    && v.fields.Keys == spec.defaults.Keys
    && (spec.postInit && "region" in v.fields ==> v.fields["region"] != Null)
  }

  /** The shape of every `AppConfig` the program builds: sections with their
      declared fields only, a capture region, and no added attributes. */
  ghost predicate WellFormed(c: AppConfig) {
    && SectionShape(c.ocr, OcrSpec)
    && SectionShape(c.tts, TtsSpec)
    && SectionShape(c.capture, CaptureSpec)
    && SectionShape(c.gui, GuiSpec)
    && SectionShape(c.hotkey, HotkeySpec)
    && c.added == map[]
  }

  // ---------------------------------------------------------------------------
  // _dict_to_config / _config_to_dict

  /** `data.get(key, default)`. */
  function DictGet(m: map<string, Val>, key: string, default: Val): Val {
    if key in m then m[key] else default
  }

  /** `XConfig(**raw)`: `raw` must be a mapping. */
  function SectionFromDict(spec: SectionSpec, raw: Val): (r: Result<Val, string>)
    ensures r.Ok? ==> SectionShape(r.value, spec)
  {
    match raw
    case Dict(kwargs) =>
      (match Construct(spec, kwargs)
       case Ok(fields) => Ok(Record(fields))
       case Err(e) => Err(e))
    case _ => Err("argument after ** must be a mapping")
  }

  /** `_dict_to_config`: unknown top-level keys are ignored, absent sections and
      attributes take their defaults. `Err` stands for the exception raised. */
  function DictToConfig(data: Val): (r: Result<AppConfig, string>)
    ensures r.Ok? ==> WellFormed(r.value)
    ensures !data.Dict? ==> r.Err?
    // An absent section is its dataclass default; a present one is built from its mapping.
    ensures data.Dict? && r.Ok? ==>
      var top := data.entries;
      && ("ocr" !in top ==> r.value.ocr == DefaultConfig().ocr)
      && ("tts" !in top ==> r.value.tts == DefaultConfig().tts)
      && ("capture" !in top ==> r.value.capture == DefaultConfig().capture)
      && ("gui" !in top ==> r.value.gui == DefaultConfig().gui)
      && ("hotkey" !in top ==> r.value.hotkey == DefaultConfig().hotkey)
    ensures data.Dict? && r.Ok? ==>
      var top := data.entries;
      && ("ocr" in top ==> SectionFromDict(OcrSpec, top["ocr"]) == Ok(r.value.ocr))
      && ("tts" in top ==> SectionFromDict(TtsSpec, top["tts"]) == Ok(r.value.tts))
      && ("capture" in top ==> SectionFromDict(CaptureSpec, top["capture"]) == Ok(r.value.capture))
      && ("gui" in top ==> SectionFromDict(GuiSpec, top["gui"]) == Ok(r.value.gui))
      && ("hotkey" in top ==> SectionFromDict(HotkeySpec, top["hotkey"]) == Ok(r.value.hotkey))
    // A present top-level key is kept as it came; an absent one takes its default.
    ensures data.Dict? && r.Ok? ==>
      var top := data.entries;
      && r.value.logLevel == (if "log_level" in top then top["log_level"] else Str("INFO"))
      && r.value.logFile == (if "log_file" in top then top["log_file"] else Null)
      && r.value.autoStart == (if "auto_start" in top then top["auto_start"] else Bool(false))
  {
    match data
    case Dict(top) =>
      EmptySection(OcrSpec);
      EmptySection(TtsSpec);
      EmptyCapture();
      EmptySection(GuiSpec);
      EmptySection(HotkeySpec);
      var ocr := SectionFromDict(OcrSpec, DictGet(top, "ocr", Dict(map[])));
      var tts := SectionFromDict(TtsSpec, DictGet(top, "tts", Dict(map[])));
      var capture := SectionFromDict(CaptureSpec, DictGet(top, "capture", Dict(map[])));
      var gui := SectionFromDict(GuiSpec, DictGet(top, "gui", Dict(map[])));
      var hotkey := SectionFromDict(HotkeySpec, DictGet(top, "hotkey", Dict(map[])));
      if ocr.Err? || tts.Err? || capture.Err? || gui.Err? || hotkey.Err? then Err("invalid section")
      else
        Ok(AppConfig(
          ocr.value, tts.value, capture.value, gui.value, hotkey.value,
          DictGet(top, "log_level", Str("INFO")),
          DictGet(top, "log_file", Null),
          DictGet(top, "auto_start", Bool(false)),
          map[]))
    case _ => Err("'data' has no attribute 'get'")
  }

  /** A value with no dataclass instance anywhere inside it, as JSON gives. */
  ghost predicate Plain(v: Val) {
    match v
    case Record(_) => false
    case Dict(entries) => forall k :: k in entries ==> Plain(entries[k])
    case _ => true
  }

  /** How `asdict` copies a field's value: a dataclass instance becomes the
      dictionary of its fields, and a dictionary is copied entry by entry, both
      recursively. */
  function DeepCopy(v: Val): (d: Val)
    ensures Plain(d)
    ensures Plain(v) ==> d == v
  {
    match v
    case Record(fields) => Dict(map k | k in fields :: DeepCopy(fields[k]))
    case Dict(entries) =>
      var d := Dict(map k | k in entries :: DeepCopy(entries[k]));
      assert Plain(v) ==> d.entries == entries;
      d
    case _ => v
  }

  /** `asdict` of a section: its declared fields only, copied; attributes added
      later by `set` are dropped. */
  function AsDict(spec: SectionSpec, v: Val): (d: Val)
    requires v.Record?
    ensures d.Dict? && d.entries.Keys == v.fields.Keys * spec.defaults.Keys
    ensures forall k :: k in d.entries ==> d.entries[k] == DeepCopy(v.fields[k])
    ensures Plain(d)
  {
    Dict(map k | k in v.fields && k in spec.defaults :: DeepCopy(v.fields[k]))
  }

  /** A section whose fields hold no dataclass instance, so that `asdict`
      leaves them as they are. */
  ghost predicate PlainFields(v: Val) {
    v.Record? && forall k :: k in v.fields ==> Plain(v.fields[k])
  }

  /** Every section of the configuration is plain. */
  ghost predicate Serialisable(c: AppConfig) {
    && PlainFields(c.ocr) && PlainFields(c.tts) && PlainFields(c.capture)
    && PlainFields(c.gui) && PlainFields(c.hotkey)
  }

  /** `_config_to_dict`. `asdict` raises when a section has been replaced by
      something that is not a dataclass instance. */
  function ConfigToDict(c: AppConfig): (r: Result<Val, string>)
    ensures r.Ok? <==> c.ocr.Record? && c.tts.Record? && c.capture.Record? && c.gui.Record? && c.hotkey.Record?
  {
    if c.ocr.Record? && c.tts.Record? && c.capture.Record? && c.gui.Record? && c.hotkey.Record? then
      Ok(Dict(map[
        "ocr" := AsDict(OcrSpec, c.ocr),
        "tts" := AsDict(TtsSpec, c.tts),
        "capture" := AsDict(CaptureSpec, c.capture),
        "gui" := AsDict(GuiSpec, c.gui),
        "hotkey" := AsDict(HotkeySpec, c.hotkey),
        "log_level" := c.logLevel,
        "log_file" := c.logFile,
        "auto_start" := c.autoStart]))
    else Err("asdict() should be called on dataclass instances")
  }

  /** On a plain section `asdict` gives its fields as they are. */
  lemma AsDictOfPlain(spec: SectionSpec, v: Val)
    requires SectionShape(v, spec) && PlainFields(v)
    ensures AsDict(spec, v) == Dict(v.fields)
  {
    var d := AsDict(spec, v).entries;
    assert d.Keys == v.fields.Keys;
    forall k | k in d ensures d[k] == v.fields[k] {
      assert Plain(v.fields[k]);
    }
  }

  /** A section is rebuilt from the dictionary of its own fields. */
  lemma FromOwnFields(spec: SectionSpec, v: Val)
    requires SectionShape(v, spec)
    ensures SectionFromDict(spec, Dict(v.fields)) == Ok(v)
  {
    assert spec.defaults + v.fields == v.fields;
  }

  /** Reading back a section written by `asdict` rebuilds it. */
  lemma SectionRoundTrip(spec: SectionSpec, v: Val)
    requires SectionShape(v, spec) && PlainFields(v)
    ensures SectionFromDict(spec, AsDict(spec, v)) == Ok(v)
  {
    AsDictOfPlain(spec, v);
    FromOwnFields(spec, v);
  }

  /** What `_config_to_dict` gives for a plain configuration. */
  lemma ConfigToDictOfPlain(c: AppConfig)
    requires WellFormed(c) && Serialisable(c)
    ensures ConfigToDict(c) == Ok(Dict(FieldDicts(c)))
  {
    AsDictOfPlain(OcrSpec, c.ocr);
    AsDictOfPlain(TtsSpec, c.tts);
    AsDictOfPlain(CaptureSpec, c.capture);
    AsDictOfPlain(GuiSpec, c.gui);
    AsDictOfPlain(HotkeySpec, c.hotkey);
  }

  /** `_dict_to_config(_config_to_dict(c)) == c` for every configuration the
      program builds whose sections hold no nested dataclass instance. */
  lemma DictRoundTrip(c: AppConfig)
    requires WellFormed(c) && Serialisable(c)
    ensures ConfigToDict(c).Ok? && DictToConfig(ConfigToDict(c).value) == Ok(c)
  {
    ConfigToDictOfPlain(c);
    FromFieldDicts(c);
  }

  /** The dictionary `_config_to_dict` writes for a plain configuration. */
  function FieldDicts(c: AppConfig): map<string, Val>
    requires c.ocr.Record? && c.tts.Record? && c.capture.Record? && c.gui.Record? && c.hotkey.Record?
  {
    map[
      "ocr" := Dict(c.ocr.fields),
      "tts" := Dict(c.tts.fields),
      "capture" := Dict(c.capture.fields),
      "gui" := Dict(c.gui.fields),
      "hotkey" := Dict(c.hotkey.fields),
      "log_level" := c.logLevel,
      "log_file" := c.logFile,
      "auto_start" := c.autoStart]
  }

  /** Its section entries, read back by key. */
  lemma FieldDictsSections(c: AppConfig)
    requires c.ocr.Record? && c.tts.Record? && c.capture.Record? && c.gui.Record? && c.hotkey.Record?
    ensures var top := FieldDicts(c);
      && DictGet(top, "ocr", Dict(map[])) == Dict(c.ocr.fields)
      && DictGet(top, "tts", Dict(map[])) == Dict(c.tts.fields)
      && DictGet(top, "capture", Dict(map[])) == Dict(c.capture.fields)
      && DictGet(top, "gui", Dict(map[])) == Dict(c.gui.fields)
      && DictGet(top, "hotkey", Dict(map[])) == Dict(c.hotkey.fields)
  {
  }

  /** Its top-level scalar entries, read back by key. */
  lemma FieldDictsScalars(c: AppConfig)
    requires c.ocr.Record? && c.tts.Record? && c.capture.Record? && c.gui.Record? && c.hotkey.Record?
    ensures var top := FieldDicts(c);
      && DictGet(top, "log_level", Str("INFO")) == c.logLevel
      && DictGet(top, "log_file", Null) == c.logFile
      && DictGet(top, "auto_start", Bool(false)) == c.autoStart
  {
  }

  /** The dictionary of a well-formed configuration's fields reads back as it. */
  lemma FromFieldDicts(c: AppConfig)
    requires WellFormed(c)
    ensures DictToConfig(Dict(FieldDicts(c))) == Ok(c)
  {
    FieldDictsSections(c);
    FieldDictsScalars(c);
    FromOwnFields(OcrSpec, c.ocr);
    FromOwnFields(TtsSpec, c.tts);
    FromOwnFields(CaptureSpec, c.capture);
    FromOwnFields(GuiSpec, c.gui);
    FromOwnFields(HotkeySpec, c.hotkey);
  }

  /** Attributes added by `set` do not survive a save and reload. */
  lemma AddedAttributesDropped(c: AppConfig)
    requires WellFormed(c.(added := map[])) && Serialisable(c)
    ensures DictToConfig(ConfigToDict(c).value) == Ok(c.(added := map[]))
  {
    DictRoundTrip(c.(added := map[]));
  }

  /** A section given no keyword arguments holds its defaults. */
  lemma EmptySection(spec: SectionSpec)
    requires !spec.postInit
    ensures SectionFromDict(spec, Dict(map[])) == Ok(Record(spec.defaults))
  {
    assert spec.defaults + map[] == spec.defaults;
  }

  /** `CaptureConfig()` has the default region. */
  lemma EmptyCapture()
    ensures SectionFromDict(CaptureSpec, Dict(map[])) == Ok(Record(CaptureSpec.defaults["region" := DefaultRegion]))
  {
    assert CaptureSpec.defaults + map[] == CaptureSpec.defaults;
  }

  /** An empty mapping gives `AppConfig()`. */
  lemma EmptyDictGivesDefaults()
    ensures DictToConfig(Dict(map[])) == Ok(DefaultConfig())
  {
    EmptySection(OcrSpec);
    EmptySection(TtsSpec);
    EmptyCapture();
    EmptySection(GuiSpec);
    EmptySection(HotkeySpec);
  }

  // ---------------------------------------------------------------------------
  // _load_config

  /** What reading the configuration file produced. */
  datatype ConfigFile = Missing | Unreadable | Parsed(data: Val)

  /** `_load_config`: a missing file, an unreadable one or a content that
      `_dict_to_config` rejects all give `AppConfig()`. */
  function LoadConfig(f: ConfigFile): (c: AppConfig)
    ensures WellFormed(c)
    ensures f.Parsed? && DictToConfig(f.data).Ok? ==> c == DictToConfig(f.data).value
    ensures !(f.Parsed? && DictToConfig(f.data).Ok?) ==> c == DefaultConfig()
  {
    match f
    case Parsed(data) =>
      (match DictToConfig(data)
       case Ok(c) => c
       case Err(_) => EmptyDictGivesDefaults(); DefaultConfig())
    case _ => EmptyDictGivesDefaults(); DefaultConfig()
  }

  /** A saved configuration loads back as itself. */
  lemma SaveThenLoad(c: AppConfig)
    requires WellFormed(c) && Serialisable(c)
    ensures LoadConfig(Parsed(ConfigToDict(c).value)) == c
  {
    DictRoundTrip(c);
  }

  /** Every default value is plain. */
  lemma OcrDefaultsPlain()
    ensures forall k :: k in OcrSpec.defaults ==> Plain(OcrSpec.defaults[k])
  {
  }

  lemma TtsDefaultsPlain()
    ensures forall k :: k in TtsSpec.defaults ==> Plain(TtsSpec.defaults[k])
  {
  }

  lemma CaptureDefaultsPlain()
    ensures forall k :: k in CaptureSpec.defaults ==> Plain(CaptureSpec.defaults[k])
    ensures Plain(DefaultRegion)
  {
    assert forall k :: k in DefaultRegion.entries ==> Plain(DefaultRegion.entries[k]);
  }

  lemma GuiDefaultsPlain()
    ensures forall k :: k in GuiSpec.defaults ==> Plain(GuiSpec.defaults[k])
  {
    var size := GuiSpec.defaults["window_size"];
    assert forall k :: k in size.entries ==> Plain(size.entries[k]);
  }

  lemma HotkeyDefaultsPlain()
    ensures forall k :: k in HotkeySpec.defaults ==> Plain(HotkeySpec.defaults[k])
  {
  }

  /** A section built from a plain mapping over plain defaults is plain. */
  lemma SectionFromPlain(spec: SectionSpec, raw: Val)
    requires Plain(raw) && SectionFromDict(spec, raw).Ok?
    requires forall k :: k in spec.defaults ==> Plain(spec.defaults[k])
    requires Plain(DefaultRegion)
    ensures PlainFields(SectionFromDict(spec, raw).value)
  {
    var fields := SectionFromDict(spec, raw).value.fields;
    forall k | k in fields ensures Plain(fields[k]) {
      if k in raw.entries && !(spec.postInit && k == "region") {
        assert fields[k] == raw.entries[k];
      }
    }
  }

  /** Each section read from a plain top-level mapping is plain. */
  lemma PlainSection(spec: SectionSpec, top: map<string, Val>, key: string)
    requires spec in {OcrSpec, TtsSpec, CaptureSpec, GuiSpec, HotkeySpec}
    requires forall k :: k in top ==> Plain(top[k])
    ensures var r := SectionFromDict(spec, DictGet(top, key, Dict(map[])));
      r.Ok? ==> PlainFields(r.value)
  {
    var raw := DictGet(top, key, Dict(map[]));
    assert Plain(raw) by {
      assert Plain(Dict(map[]));
    }
    CaptureDefaultsPlain();
    if spec == OcrSpec { OcrDefaultsPlain(); }
    else if spec == TtsSpec { TtsDefaultsPlain(); }
    else if spec == GuiSpec { GuiDefaultsPlain(); }
    else if spec == HotkeySpec { HotkeyDefaultsPlain(); }
    if SectionFromDict(spec, raw).Ok? {
      SectionFromPlain(spec, raw);
    }
  }

  /** A configuration converted from plain data is plain. */
  lemma ConvertedIsSerialisable(data: Val)
    requires Plain(data) && DictToConfig(data).Ok?
    ensures Serialisable(DictToConfig(data).value)
  {
    var top := data.entries;
    assert forall k :: k in top ==> Plain(top[k]);
    PlainSection(OcrSpec, top, "ocr");
    PlainSection(TtsSpec, top, "tts");
    PlainSection(CaptureSpec, top, "capture");
    PlainSection(GuiSpec, top, "gui");
    PlainSection(HotkeySpec, top, "hotkey");
  }

  /** Whatever is loaded from a JSON file, which holds no dataclass instance,
      can be saved and loaded back unchanged. */
  lemma LoadedConfigRoundTrips(f: ConfigFile)
    requires f.Parsed? ==> Plain(f.data)
    ensures WellFormed(LoadConfig(f)) && Serialisable(LoadConfig(f))
    ensures LoadConfig(Parsed(ConfigToDict(LoadConfig(f)).value)) == LoadConfig(f)
  {
    var c := LoadConfig(f);
    if f.Parsed? && DictToConfig(f.data).Ok? {
      ConvertedIsSerialisable(f.data);
    } else {
      EmptyDictGivesDefaults();
      ConvertedIsSerialisable(Dict(map[]));
    }
    SaveThenLoad(c);
  }
}

=== FILE: gui.dfy ===
/** filmreader/gui.py: the drag rectangle of `RegionSelector` and the control
    buttons of `FilmReaderGUI`, with the region and configuration the start
    button hands to the application. Widgets, dialogs and drawing are not
    modelled; a message box is only a flag in the result. */
module Gui {
  import opened Common
  import opened PyText
  import opened Config
  import App

  // ---------------------------------------------------------------------------
  // RegionSelector

  /** A mouse position relative to the canvas, or the canvas' screen origin. */
  datatype Point = Point(x: int, y: int)

  function Abs(n: int): nat {
    if n < 0 then -n else n
  }

  function Min(a: int, b: int): int {
    if a <= b then a else b
  }

  /** The screen region a drag from `start` to `end` selects, or `None` when it
      is too small; the selector keeps the region it had and warns. */
  function Selection(root: Point, start: Point, end: Point): (r: Option<Region>)
    ensures r.Some? <==> Abs(end.x - start.x) > 10 && Abs(end.y - start.y) > 10
    // The region's opposite edges are exactly where the drag began and ended.
    ensures r.Some? ==>
      && {r.value.x, r.value.x + r.value.width} == {root.x + start.x, root.x + end.x}
      && {r.value.y, r.value.y + r.value.height} == {root.y + start.y, root.y + end.y}
      && r.value.width > 10 && r.value.height > 10
  {
    var width := Abs(end.x - start.x);
    var height := Abs(end.y - start.y);
    if width > 10 && height > 10 then
      Some(Region(root.x + Min(start.x, end.x), root.y + Min(start.y, end.y), width, height))
    else None
  }

  /** The region does not depend on the direction of the drag: any two opposite
      corners of the same rectangle select it. */
  lemma SelectionDirectionFree(root: Point, a: Point, b: Point)
    ensures Selection(root, a, b) == Selection(root, b, a)
    ensures Selection(root, a, b) == Selection(root, Point(a.x, b.y), Point(b.x, a.y))
  {
  }

  /** The selector: the region chosen so far, and whether its window is open. */
  datatype Selector = Selector(region: Option<Region>, open: bool)

  /** `_on_mouse_up`: a large enough drag sets the region and closes the window;
      any other leaves both as they were. */
  function MouseUp(s: Selector, root: Point, start: Point, end: Point): (r: Selector)
    ensures Selection(root, start, end).None? ==> r == s
    ensures Selection(root, start, end).Some? ==> r == Selector(Selection(root, start, end), false)
  {
    match Selection(root, start, end)
    case Some(region) => Selector(Some(region), false)
    case None => s
  }

  /** `_cancel_selection`. */
  function CancelSelection(s: Selector): (r: Selector)
    ensures r.region.None? && !r.open
  {
    Selector(None, false)
  }

  // ---------------------------------------------------------------------------
  // FilmReaderGUI

  /** The four coordinate entry boxes, as text. */
  datatype Entries = Entries(x: string, y: string, width: string, height: string)

  /** The settings widgets `_get_config` reads. */
  datatype Form = Form(
    ocrEngine: string,
    ocrLanguage: string,
    preprocessEnable: bool,
    preprocessGrayscale: bool,
    preprocessInvert: bool,
    preprocessAutoThreshold: bool,
    preprocessThreshold: string,
    preprocessScale: string,
    ttsEngine: string,
    ttsVoice: string,
    interval: string)

  /** Which control buttons are enabled, and the pause button's label. */
  datatype Buttons = Buttons(start: bool, pause: bool, stop: bool, pauseLabel: string)

  datatype Window = Window(
    region: Option<Region>,
    entries: Entries,
    form: Form,
    isRunning: bool,
    isPaused: bool,
    buttons: Buttons)

  const PauseLabel: string := "暂停"
  const ResumeLabel: string := "继续"

  /** The window as `__init__` builds it. */
  function NewWindow(): (w: Window)
    ensures !w.isRunning && !w.isPaused && w.region.None? && ButtonsAgree(w)
  {
    Window(
      None,
      Entries("", "", "", ""),
      Form("rapidocr", "chi_sim", true, true, false, true, "160", "2.0", "edge-tts", "zh-CN-XiaoxiaoNeural", "1.0"),
      false, false,
      Buttons(true, false, false, PauseLabel))
  }

  /** The buttons follow the flags: start is enabled exactly when not running,
      pause and stop exactly when running, and the pause label offers the
      opposite of the current state. */
  predicate ButtonsAgree(w: Window) {
    && w.buttons.start == !w.isRunning
    && w.buttons.pause == w.isRunning
    && w.buttons.stop == w.isRunning
    && w.buttons.pauseLabel == (if w.isPaused then ResumeLabel else PauseLabel)
    && (w.isPaused ==> w.isRunning)
  }

  /** `_get_region_from_entries`: all four boxes must hold `int()` literals. */
  function RegionFromEntries(e: Entries): (r: Option<Region>)
    ensures r.Some? <==>
      ParseInt(e.x).Some? && ParseInt(e.y).Some? && ParseInt(e.width).Some? && ParseInt(e.height).Some?
    ensures r.Some? ==>
      && Some(r.value.x) == ParseInt(e.x) && Some(r.value.y) == ParseInt(e.y)
      && Some(r.value.width) == ParseInt(e.width) && Some(r.value.height) == ParseInt(e.height)
  {
    var x, y, w, h := ParseInt(e.x), ParseInt(e.y), ParseInt(e.width), ParseInt(e.height);
    if x.Some? && y.Some? && w.Some? && h.Some? then Some(Region(x.value, y.value, w.value, h.value))
    else None
  }

  /** `_select_region`, given what the selector returned: a selection becomes the
      window's region and is written into the four boxes; a cancelled one
      changes nothing. */
  function SelectRegion(w: Window, selected: Option<Region>): (r: Window)
    ensures selected.None? ==> r == w
    ensures selected.Some? ==>
      && r.region == selected && r.form == w.form
      && r.isRunning == w.isRunning && r.isPaused == w.isPaused && r.buttons == w.buttons
  {
    match selected
    case None => w
    case Some(g) =>
      w.(region := Some(g), entries := Entries(FormatInt(g.x), FormatInt(g.y), FormatInt(g.width), FormatInt(g.height)))
  }

  /** The boxes filled in by a selection read back as the selected region, so
      clearing the selection would keep the same region. */
  lemma SelectedRegionInEntries(w: Window, g: Region)
    ensures RegionFromEntries(SelectRegion(w, Some(g)).entries) == Some(g)
    ensures ChosenRegion(SelectRegion(w, Some(g))) == Some(g)
  {
    ParseFormatInt(g.x);
    ParseFormatInt(g.y);
    ParseFormatInt(g.width);
    ParseFormatInt(g.height);
  }

  /** `self.region or self._get_region_from_entries()`: a selected region wins. */
  function ChosenRegion(w: Window): (r: Option<Region>)
    ensures w.region.Some? ==> r == w.region
    ensures w.region.None? ==> r == RegionFromEntries(w.entries)
  {
    if w.region.Some? then w.region else RegionFromEntries(w.entries)
  }

  /** The threshold box, with an empty box read as `"160"`. */
  function ThresholdText(f: Form): string {
    if f.preprocessThreshold == "" then "160" else f.preprocessThreshold
  }

  /** The scale box, with an empty box read as `"2.0"`. */
  function ScaleText(f: Form): string {
    if f.preprocessScale == "" then "2.0" else f.preprocessScale
  }

  /** The dictionary `_get_config` returns, once its numbers are read. */
  function FormOverrides(f: Form, region: Val, threshold: int, scale: real, interval: real): (o: App.Overrides)
    ensures "region" in o && o["region"] == region
    ensures "preprocess_threshold" in o && o["preprocess_threshold"] == Int(threshold)
    ensures "preprocess_scale" in o && o["preprocess_scale"] == Float(scale)
    ensures "interval" in o && o["interval"] == Float(interval)
    ensures "ocr_engine" in o && o["ocr_engine"] == Str(f.ocrEngine)
    ensures "tts_engine" in o && o["tts_engine"] == Str(f.ttsEngine)
    // Every option but the region has a value, never `None`.
    ensures forall k :: k in o && k != "region" ==> o[k] != Null
  {
    map[
      "ocr_engine" := Str(f.ocrEngine),
      "ocr_language" := Str(f.ocrLanguage),
      "preprocess_enable" := Bool(f.preprocessEnable),
      "preprocess_grayscale" := Bool(f.preprocessGrayscale),
      "preprocess_invert" := Bool(f.preprocessInvert),
      "preprocess_auto_threshold" := Bool(f.preprocessAutoThreshold),
      "tts_voice" := Str(f.ttsVoice),
      "tts_engine" := Str(f.ttsEngine),
      "preprocess_threshold" := Int(threshold),
      "preprocess_scale" := Float(scale),
      "interval" := Float(interval),
      "region" := region]
  }

  /** The chosen region as `_get_config` passes it. */
  function RegionEntry(w: Window): Val {
    match ChosenRegion(w)
    case Some(g) => RegionVal(g)
    case None => Null
  }

  /** `_get_config`: the call-time configuration handed to `start`, or the
      `ValueError` one of the numeric boxes raises. */
  function GetConfig(w: Window): (r: Result<App.Overrides, string>)
    ensures r.Ok? <==>
      && ParseInt(ThresholdText(w.form)).Some?
      && ParseFloat(ScaleText(w.form)).Some?
      && ParseFloat(w.form.interval).Some?
    ensures r.Ok? ==>
      r.value == FormOverrides(w.form, RegionEntry(w), ParseInt(ThresholdText(w.form)).value,
                               ParseFloat(ScaleText(w.form)).value, ParseFloat(w.form.interval).value)
  {
    var f := w.form;
    var threshold, scale, interval := ParseInt(ThresholdText(f)), ParseFloat(ScaleText(f)), ParseFloat(f.interval);
    if threshold.None? || scale.None? || interval.None? then Err("could not convert string")
    else Ok(FormOverrides(f, RegionEntry(w), threshold.value, scale.value, interval.value))
  }

  /** Empty threshold and scale boxes give 160 and 2.0. */
  lemma EmptyBoxesDefault(w: Window)
    requires w.form.preprocessThreshold == "" && w.form.preprocessScale == ""
    requires ParseFloat(w.form.interval).Some?
    ensures GetConfig(w).Ok?
    ensures GetConfig(w).value["preprocess_threshold"] == Int(160)
    ensures GetConfig(w).value["preprocess_scale"] == Float(2.0)
  {
    ParseIntDefault();
    ParseFloatTwo();
  }

  /** The GUI always passes a number as the interval, never `None`: the polling
      loop sleeps for what the box says. */
  lemma GuiIntervalIsNumber(w: Window, c: AppConfig)
    requires GetConfig(w).Ok?
    ensures App.LoopInterval(c, GetConfig(w).value) == Float(ParseFloat(w.form.interval).value)
    ensures App.LoopIntervalAsWritten(c, GetConfig(w).value) == App.LoopInterval(c, GetConfig(w).value)
  {
  }

  /** The GUI passes a value for every option it sets, never `None`, so on its
      dictionary `start` as written and the intended merge agree. */
  lemma GuiStartsAsIntended(w: Window, app: App.App, build: App.Builder)
    requires GetConfig(w).Ok?
    ensures App.Start(app, GetConfig(w).value, build) == App.StartIntended(app, GetConfig(w).value, build)
  {
    var o := GetConfig(w).value;
    App.RegionNotMerged();
    App.StartsAgree(app, o, build);
  }

  /** What a click handed to the application. */
  datatype Callback =
    | NoCall                          // a warning was shown instead
    | StartCall(overrides: App.Overrides)
    | StartConfigRaised               // `_get_config` raised inside the handler
    | PauseCall(paused: bool)
    | StopCall

  datatype Clicked = Clicked(window: Window, call: Callback)

  /** `_on_start_clicked`. Without a region it warns and changes nothing;
      otherwise the flags and buttons switch to running before the configuration
      is read, so a box that does not parse leaves them switched. */
  function StartClicked(w: Window): (r: Clicked)
    ensures ChosenRegion(w).None? ==> r == Clicked(w, NoCall)
    ensures ChosenRegion(w).Some? ==>
      && r.window.isRunning && !r.window.isPaused
      && !r.window.buttons.start && r.window.buttons.pause && r.window.buttons.stop
      && r.window.region == w.region && r.window.form == w.form && r.window.entries == w.entries
      && (r.call.StartCall? <==> GetConfig(w).Ok?)
      && (r.call.StartCall? ==> r.call.overrides == GetConfig(w).value)
  {
    match ChosenRegion(w)
    case None => Clicked(w, NoCall)
    case Some(_) =>
      var w' := w.(isRunning := true, isPaused := false,
                   buttons := w.buttons.(start := false, pause := true, stop := true));
      match GetConfig(w)
      case Ok(o) => Clicked(w', StartCall(o))
      case Err(_) => Clicked(w', StartConfigRaised)
  }

  /** The start button hands over the selected region when there is one, and the
      one typed into the entries otherwise. */
  lemma StartUsesChosenRegion(w: Window)
    requires StartClicked(w).call.StartCall?
    ensures ChosenRegion(w).Some?
    ensures StartClicked(w).call.overrides["region"] == RegionVal(ChosenRegion(w).value)
    ensures w.region.Some? ==> StartClicked(w).call.overrides["region"] == RegionVal(w.region.value)
  {
    var o := StartClicked(w).call.overrides;
    assert o == GetConfig(w).value;
    assert o["region"] == RegionEntry(w);
  }

  /** `_on_pause_clicked`: flips the flag and tells the application the new value. */
  function PauseClicked(w: Window): (r: Clicked)
    ensures r.window.isPaused == !w.isPaused
    ensures r.call == PauseCall(r.window.isPaused)
    ensures r.window.isRunning == w.isRunning && r.window.region == w.region
  {
    var paused := !w.isPaused;
    var caption := if paused then ResumeLabel else PauseLabel;
    Clicked(w.(isPaused := paused, buttons := w.buttons.(pauseLabel := caption)), PauseCall(paused))
  }

  /** Two pause clicks restore the window. */
  lemma PauseTwiceRestores(w: Window)
    requires ButtonsAgree(w)
    ensures PauseClicked(PauseClicked(w).window).window == w
  {
  }

  /** `_on_stop_clicked`. */
  function StopClicked(w: Window): (r: Clicked)
    ensures !r.window.isRunning && !r.window.isPaused
    ensures r.call == StopCall
    ensures r.window.region == w.region && r.window.form == w.form && r.window.entries == w.entries
  {
    Clicked(w.(isRunning := false, isPaused := false, buttons := Buttons(true, false, false, PauseLabel)), StopCall)
  }

  /** A control button; Tk calls its handler only while it is enabled. */
  datatype Button = StartButton | PauseButton | StopButton

  predicate Enabled(bs: Buttons, b: Button) {
    match b
    case StartButton => bs.start
    case PauseButton => bs.pause
    case StopButton => bs.stop
  }

  function Click(w: Window, b: Button): (r: Clicked)
    ensures Enabled(w.buttons, b) || r == Clicked(w, NoCall)
  {
    match b
    case StartButton => if w.buttons.start then StartClicked(w) else Clicked(w, NoCall)
    case PauseButton => if w.buttons.pause then PauseClicked(w) else Clicked(w, NoCall)
    case StopButton => if w.buttons.stop then StopClicked(w) else Clicked(w, NoCall)
  }

  /** Whatever is clicked, the buttons keep following the flags. */
  lemma ClickKeepsButtonsAgreeing(w: Window, b: Button)
    requires ButtonsAgree(w)
    ensures ButtonsAgree(Click(w, b).window)
  {
  }

  function ClickAll(w: Window, bs: seq<Button>): Window
    decreases |bs|
  {
    if |bs| == 0 then w else ClickAll(Click(w, bs[0]).window, bs[1..])
  }

  /** Any sequence of clicks from a fresh window keeps the buttons agreeing, so
      the window is never paused without running. */
  lemma {:induction false} ClicksKeepButtonsAgreeing(w: Window, bs: seq<Button>)
    requires ButtonsAgree(w)
    ensures ButtonsAgree(ClickAll(w, bs))
    ensures ClickAll(w, bs).isPaused ==> ClickAll(w, bs).isRunning
    decreases |bs|
  {
    if |bs| > 0 {
      ClickKeepsButtonsAgreeing(w, bs[0]);
      ClicksKeepButtonsAgreeing(Click(w, bs[0]).window, bs[1..]);
    }
  }
}

=== FILE: preprocess.dfy ===
/** The image normaliser of the subtitle recogniser (`SubtitleRecognizer._otsu_threshold`
    and `_preprocess_image` in filmreader/ocr.py).

    An image is seen the way numpy sees it after `flatten()`: one 8-bit sample per
    channel per pixel. Both the histogram and the point map work sample by sample,
    so a grayscale and a colour image are treated alike. Resizing and grayscale
    conversion are foreign image operations and enter as parameters. */
module Preprocess {
  import opened Common

  /** One 8-bit channel value. */
  type Sample = x: int | 0 <= x <= 255

  datatype Image = Image(samples: seq<Sample>)

  /** The `preprocess_*` settings of the recogniser. The fixed threshold is what
      `int(preprocess_threshold)` gives, or `None` when that raises (a JSON `null`
      or a string that is not an integer literal). */
  datatype PreprocessConfig = PreprocessConfig(
    enable: bool,
    grayscale: bool,
    threshold: Option<int>,
    invert: bool,
    autoThreshold: bool,
    scale: real)

  /** The image library's operations the pipeline calls but the model does not
      define: the Lanczos resize, the grayscale conversion (`None` when they raise),
      whether `point` and `invert` accept an image's mode, and whether numpy could
      be imported. */
  datatype Imaging = Imaging(
    resize: (Image, real) -> Option<Image>,
    toGrayscale: Image -> Option<Image>,
    pointAccepts: Image -> bool,
    invertAccepts: Image -> bool,
    haveNumpy: bool)

  // ---------------------------------------------------------------------------
  // Histogram and Otsu's method

  /** `np.histogram(data, bins=256, range=(0, 256))`: how often each value occurs. */
  function Histogram(s: seq<Sample>): (h: seq<nat>)
    ensures |h| == 256
    ensures forall v: Sample :: h[v] == multiset(s)[v]
  {
    if |s| == 0 then seq(256, _ => 0)
    else
      var h := Histogram(s[..|s| - 1]);
      var x := s[|s| - 1];
      assert s == s[..|s| - 1] + [x];
      h[x := h[x] + 1]
  }

  /** Number of samples with a value below `t`. */
  function Weight(h: seq<nat>, t: nat): nat
    requires t <= |h|
  {
    if t == 0 then 0 else Weight(h, t - 1) + h[t - 1]
  }

  /** Sum of the values of the samples below `t`. */
  function Moment(h: seq<nat>, t: nat): nat
    requires t <= |h|
  {
    if t == 0 then 0 else Moment(h, t - 1) + (t - 1) * h[t - 1]
  }

  /** The between-class variance `w_b * w_f * (m_b - m_f) ** 2` of a split into a
      background class of weight `wb` and sample sum `sb` and a foreground class of
      weight `wf` and sample sum `sf`. */
  function SplitVariance(wb: real, wf: real, sb: real, sf: real): real
    requires wb > 0.0 && wf > 0.0
  {
    var d := sb / wb - sf / wf;
    (wb * wf) * (d * d)
  }

  /** The between-class variance of splitting the histogram after level `t`; zero
      when either class is empty (the levels the scan skips or stops at). */
  function BetweenVariance(h: seq<nat>, t: nat): real
    requires |h| == 256 && t < 256
  {
    var wb := Weight(h, t + 1);
    var wf := Weight(h, 256) - wb;
    if wb == 0 || wf <= 0 then 0.0
    else
      var sb := Moment(h, t + 1);
      SplitVariance(wb as real, wf as real, sb as real, (Moment(h, 256) - sb) as real)
  }

  /** `r` is the first level at which the between-class variance is largest. */
  ghost predicate IsFirstArgmax(h: seq<nat>, r: int)
    requires |h| == 256
  {
    && 0 <= r < 256
    && (forall u :: 0 <= u < 256 ==> BetweenVariance(h, u) <= BetweenVariance(h, r))
    && (forall u :: 0 <= u < r ==> BetweenVariance(h, u) < BetweenVariance(h, r))
  }

  lemma WeightMonotone(h: seq<nat>, s: nat, t: nat)
    requires s <= t <= |h|
    ensures Weight(h, s) <= Weight(h, t)
  {
  }

  lemma SplitVarianceNonNegative(wb: real, wf: real, sb: real, sf: real)
    requires wb > 0.0 && wf > 0.0
    ensures SplitVariance(wb, wf, sb, sf) >= 0.0
  {
    var d := sb / wb - sf / wf;
    assert wb * wf > 0.0;
    assert d * d >= 0.0;
  }

  lemma VarianceNonNegative(h: seq<nat>, u: nat)
    requires |h| == 256 && u < 256
    ensures BetweenVariance(h, u) >= 0.0
  {
    var wb := Weight(h, u + 1);
    var wf := Weight(h, 256) - wb;
    if wb != 0 && wf > 0 {
      var sb := Moment(h, u + 1);
      SplitVarianceNonNegative(wb as real, wf as real, sb as real, (Moment(h, 256) - sb) as real);
    }
  }

  lemma VariancesNonNegative(h: seq<nat>)
    requires |h| == 256
    ensures forall u :: 0 <= u < 256 ==> BetweenVariance(h, u) >= 0.0
  {
    forall u | 0 <= u < 256
      ensures BetweenVariance(h, u) >= 0.0
    {
      VarianceNonNegative(h, u);
    }
  }

  /** What the scan of `_otsu_threshold` knows after visiting the levels below `t`:
      `varMax` is the largest variance seen (or 0) and `threshold` the first level
      reaching it (or 0 when nothing beat 0). */
  ghost predicate ScanInvariant(h: seq<nat>, t: nat, varMax: real, threshold: nat)
    requires |h| == 256 && t <= 256
  {
    && 0.0 <= varMax
    && (forall u :: 0 <= u < t ==> BetweenVariance(h, u) <= varMax)
    && (if varMax > 0.0 then
          && threshold < t
          && BetweenVariance(h, threshold) == varMax
          && (forall u :: 0 <= u < threshold ==> BetweenVariance(h, u) < varMax)
        else threshold == 0)
  }

  /** Once every sample lies at or below level `t`, no later split has a
      non-empty foreground class. */
  lemma TailVariancesZero(h: seq<nat>, t: nat)
    requires |h| == 256 && t < 256
    requires Weight(h, t + 1) == Weight(h, 256)
    ensures forall u :: t <= u < 256 ==> BetweenVariance(h, u) == 0.0
  {
    forall u | t <= u < 256
      ensures BetweenVariance(h, u) == 0.0
    {
      WeightMonotone(h, t + 1, u + 1);
      WeightMonotone(h, u + 1, 256);
    }
  }

  /** A finished scan's threshold is the first maximiser. */
  lemma ScanResult(h: seq<nat>, varMax: real, threshold: nat)
    requires |h| == 256
    requires ScanInvariant(h, 256, varMax, threshold)
    ensures IsFirstArgmax(h, threshold)
  {
    VariancesNonNegative(h);
  }

  /** Visiting level `t` with variance `v` keeps the invariant, whether or not
      `v` beats the best so far. */
  lemma ScanVisit(h: seq<nat>, t: nat, varMax: real, threshold: nat, v: real)
    requires |h| == 256 && t < 256
    requires ScanInvariant(h, t, varMax, threshold)
    requires v == BetweenVariance(h, t)
    ensures v > varMax ==> ScanInvariant(h, t + 1, v, t)
    ensures !(v > varMax) ==> ScanInvariant(h, t + 1, varMax, threshold)
  {
  }

  /** Stopping at level `t` because the foreground is empty yields the first
      maximiser over all levels. */
  lemma ScanStop(h: seq<nat>, t: nat, varMax: real, threshold: nat)
    requires |h| == 256 && t < 256
    requires ScanInvariant(h, t, varMax, threshold)
    requires Weight(h, t + 1) == Weight(h, 256)
    ensures IsFirstArgmax(h, threshold)
  {
    TailVariancesZero(h, t);
    assert ScanInvariant(h, 256, varMax, threshold);
    ScanResult(h, varMax, threshold);
  }

  /** The running totals after adding level `t` give that level's variance. */
  lemma VisitedVariance(h: seq<nat>, t: nat)
    requires |h| == 256 && t < 256
    requires Weight(h, t + 1) > 0 && Weight(h, 256) - Weight(h, t + 1) != 0
    ensures Weight(h, 256) - Weight(h, t + 1) > 0
    ensures BetweenVariance(h, t) == SplitVariance(
      Weight(h, t + 1) as real,
      (Weight(h, 256) - Weight(h, t + 1)) as real,
      Moment(h, t + 1) as real,
      (Moment(h, 256) - Moment(h, t + 1)) as real)
  {
    WeightMonotone(h, t + 1, 256);
  }

  /** The loop of `_otsu_threshold` from level `t` on, with its running totals
      `w_b`, `sum_b`, `var_max` and `threshold`. */
  function OtsuScan(h: seq<nat>, t: nat, wb: nat, sb: nat, varMax: real, threshold: nat): (r: nat)
    requires |h| == 256 && t <= 256
    requires wb == Weight(h, t) && sb == Moment(h, t)
    requires ScanInvariant(h, t, varMax, threshold)
    ensures IsFirstArgmax(h, r)
    decreases 256 - t
  {
    if t == 256 then
      ScanResult(h, varMax, threshold);
      threshold
    else
      var wb' := wb + h[t];
      assert wb' == Weight(h, t + 1);
      if wb' == 0 then
        assert BetweenVariance(h, t) == 0.0;
        ScanVisit(h, t, varMax, threshold, 0.0);
        OtsuScan(h, t + 1, wb', sb, varMax, threshold)
      else
        var wf := Weight(h, 256) - wb';
        if wf == 0 then
          ScanStop(h, t, varMax, threshold);
          threshold
        else
          var sb' := sb + t * h[t];
          assert sb' == Moment(h, t + 1);
          VisitedVariance(h, t);
          var v := SplitVariance(wb' as real, wf as real, sb' as real, (Moment(h, 256) - sb') as real);
          ScanVisit(h, t, varMax, threshold, v);
          if v > varMax then OtsuScan(h, t + 1, wb', sb', v, t)
          else OtsuScan(h, t + 1, wb', sb', varMax, threshold)
  }

  /** Otsu's threshold of a 256-bin histogram. */
  function Otsu(h: seq<nat>): (r: Sample)
    requires |h| == 256
    ensures IsFirstArgmax(h, r)
  {
    VariancesNonNegative(h);
    OtsuScan(h, 0, 0, 0, 0.0, 0)
  }

  /** The first maximiser is unique, so `Otsu` is pinned down by its contract. */
  lemma FirstArgmaxUnique(h: seq<nat>, r: int, r': int)
    requires |h| == 256
    requires IsFirstArgmax(h, r) && IsFirstArgmax(h, r')
    ensures r == r'
  {
    assert BetweenVariance(h, r) == BetweenVariance(h, r');
  }

  lemma WeightOneLevel(h: seq<nat>, v: nat, k: nat)
    requires |h| == 256 && v < 256 && k <= 256
    requires forall u :: 0 <= u < 256 && u != v ==> h[u] == 0
    ensures Weight(h, k) == if k > v then h[v] else 0
  {
  }

  /** When no split has positive variance, the threshold is 0. */
  lemma OtsuFlat(h: seq<nat>)
    requires |h| == 256
    requires forall u :: 0 <= u < 256 ==> BetweenVariance(h, u) == 0.0
    ensures Otsu(h) == 0
  {
    assert IsFirstArgmax(h, 0);
    FirstArgmaxUnique(h, 0, Otsu(h));
  }

  /** An image whose samples all share one value (or that is empty) gets threshold 0. */
  lemma OtsuOneLevel(s: seq<Sample>, v: Sample)
    requires forall i :: 0 <= i < |s| ==> s[i] == v
    ensures Otsu(Histogram(s)) == 0
  {
    var h := Histogram(s);
    forall u | 0 <= u < 256 && u != v
      ensures h[u] == 0
    {
      assert u !in multiset(s);
    }
    forall u | 0 <= u < 256
      ensures BetweenVariance(h, u) == 0.0
    {
      WeightOneLevel(h, v, u + 1);
      WeightOneLevel(h, v, 256);
    }
    OtsuFlat(h);
  }

  lemma {:induction false} TwoLevelSums(h: seq<nat>, a: nat, b: nat, k: nat)
    requires |h| == 256 && a < b < 256 && k <= 256
    requires forall u :: 0 <= u < 256 && u != a && u != b ==> h[u] == 0
    ensures Weight(h, k) == (if k > a then h[a] else 0) + (if k > b then h[b] else 0)
    ensures Moment(h, k) == (if k > a then a * h[a] else 0) + (if k > b then b * h[b] else 0)
  {
    if k > 0 {
      TwoLevelSums(h, a, b, k - 1);
    }
  }

  lemma {:induction false} CastProduct(a: nat, m: nat)
    ensures (a * m) as real == a as real * m as real
  {
    if a > 0 {
      CastProduct(a - 1, m);
      assert a * m == (a - 1) * m + m;
    }
  }

  lemma DivCancel(x: real, m: real)
    requires m != 0.0
    ensures (x * m) / m == x
  {
  }

  lemma PositiveProduct(x: real, y: real)
    requires x > 0.0 && y > 0.0
    ensures x * y > 0.0
  {
  }

  /** Splitting between two levels `a < b` of weights `m` and `n` has positive
      variance. */
  lemma SeparatingSplitPositive(m: nat, n: nat, a: nat, b: nat)
    requires m > 0 && n > 0 && a < b
    ensures SplitVariance(m as real, n as real, (a * m) as real, (b * n) as real) > 0.0
  {
    var mr, nr, ar, br := m as real, n as real, a as real, b as real;
    CastProduct(a, m);
    CastProduct(b, n);
    DivCancel(ar, mr);
    DivCancel(br, nr);
    var d := ar - br;
    assert d * d > 0.0 by {
      PositiveProduct(-d, -d);
    }
    PositiveProduct(mr, nr);
    PositiveProduct(mr * nr, d * d);
  }

  /** The between-class variance of a two-level histogram: the same positive value
      for every split that separates the two levels, zero for the others. */
  lemma TwoLevelVariance(h: seq<nat>, a: nat, b: nat, t: nat)
    requires |h| == 256 && a < b < 256 && t < 256
    requires forall u :: 0 <= u < 256 && u != a && u != b ==> h[u] == 0
    requires h[a] > 0 && h[b] > 0
    ensures a <= t < b ==> BetweenVariance(h, t) == BetweenVariance(h, a) > 0.0
    ensures !(a <= t < b) ==> BetweenVariance(h, t) == 0.0
  {
    TwoLevelSums(h, a, b, t + 1);
    TwoLevelSums(h, a, b, 256);
    if a <= t < b {
      TwoLevelSums(h, a, b, a + 1);
      var m, n := h[a], h[b];
      assert BetweenVariance(h, t) == SplitVariance(m as real, n as real, (a * m) as real, (b * n) as real);
      assert BetweenVariance(h, a) == SplitVariance(m as real, n as real, (a * m) as real, (b * n) as real);
      SeparatingSplitPositive(m, n, a, b);
    }
  }

  /** A two-level image `{a < b}` gets threshold `a`: the lower level, so that
      `p > threshold` separates the levels. */
  lemma OtsuTwoLevels(s: seq<Sample>, a: Sample, b: Sample)
    requires a < b
    requires forall i :: 0 <= i < |s| ==> s[i] == a || s[i] == b
    requires a in s && b in s
    ensures Otsu(Histogram(s)) == a
  {
    var h := Histogram(s);
    forall u | 0 <= u < 256 && u != a && u != b
      ensures h[u] == 0
    {
      assert u !in multiset(s);
    }
    forall u | 0 <= u < 256
      ensures a <= u < b ==> BetweenVariance(h, u) == BetweenVariance(h, a) > 0.0
      ensures !(a <= u < b) ==> BetweenVariance(h, u) == 0.0
    {
      TwoLevelVariance(h, a, b, u);
    }
    assert IsFirstArgmax(h, a);
    FirstArgmaxUnique(h, a, Otsu(h));
  }

  // ---------------------------------------------------------------------------
  // Point maps

  predicate IsBinary(s: seq<Sample>) {
    forall i :: 0 <= i < |s| ==> s[i] == 0 || s[i] == 255
  }

  /** `image.point(lambda p: 255 if p > threshold else 0)`. */
  function Binarise(s: seq<Sample>, threshold: int): (r: seq<Sample>)
    ensures |r| == |s| && IsBinary(r)
    ensures forall i :: 0 <= i < |s| ==> (r[i] == 255 <==> s[i] > threshold)
  {
    seq(|s|, i requires 0 <= i < |s| => if s[i] > threshold then 255 else 0)
  }

  /** `ImageOps.invert`: every sample `p` becomes `255 - p`. */
  function Invert(s: seq<Sample>): (r: seq<Sample>)
    ensures |r| == |s|
  {
    seq(|s|, i requires 0 <= i < |s| => 255 - s[i])
  }

  lemma InvertInvolution(s: seq<Sample>)
    ensures Invert(Invert(s)) == s
  {
  }

  /** Inverting a binary image swaps black and white and keeps it binary. */
  lemma InvertSwapsBinary(s: seq<Sample>)
    requires IsBinary(s)
    ensures IsBinary(Invert(s))
    ensures forall i :: 0 <= i < |s| ==> (Invert(s)[i] == 255 <==> s[i] == 0)
  {
  }

  /** Binarising a binary image again, with any threshold a binary image can be
      told apart by, changes nothing. */
  lemma BinariseIdempotent(s: seq<Sample>, t: int, t': int)
    requires 0 <= t' < 255
    ensures Binarise(Binarise(s, t), t') == Binarise(s, t)
  {
  }

  // ---------------------------------------------------------------------------
  // The pipeline

  /** `_otsu_threshold`: `None` when numpy is missing. */
  function OtsuThreshold(img: Image, im: Imaging): (r: Option<Sample>)
    ensures r.None? <==> !im.haveNumpy
    ensures r.Some? ==> IsFirstArgmax(Histogram(img.samples), r.value)
  {
    if im.haveNumpy then Some(Otsu(Histogram(img.samples))) else None
  }

  /** `max(0, min(255, int(t)))`. */
  function Clamp(t: int): (r: Sample)
    ensures 0 <= t <= 255 ==> r == t
    ensures t < 0 ==> r == 0
    ensures t > 255 ==> r == 255
  {
    if t < 0 then 0 else if t > 255 then 255 else t
  }

  /** The threshold the binarisation uses: Otsu's when asked for and computable,
      otherwise the configured one clamped into the sample range; `None` when that
      one is needed and `int()` raised on it. */
  function ChooseThreshold(cfg: PreprocessConfig, g: Image, im: Imaging): (t: Option<Sample>)
    ensures cfg.autoThreshold && im.haveNumpy ==> t == Some(Otsu(Histogram(g.samples)))
    ensures !(cfg.autoThreshold && im.haveNumpy) ==>
      && (t.None? <==> cfg.threshold.None?)
      && (t.Some? ==> t.value == Clamp(cfg.threshold.value))
  {
    var auto := if cfg.autoThreshold then OtsuThreshold(g, im) else None;
    match auto
    case Some(t) => Some(t)
    case None =>
      match cfg.threshold
      case Some(t) => Some(Clamp(t))
      case None => None
  }

  /** The resize (only when `scale > 1.0`) and the grayscale step (only when
      enabled); `None` when either raised. */
  function Prepare(img: Image, cfg: PreprocessConfig, im: Imaging): Option<Image> {
    var scaled := if cfg.scale > 1.0 then im.resize(img, cfg.scale) else Some(img);
    match scaled
    case None => None
    case Some(s) => if cfg.grayscale then im.toGrayscale(s) else Some(s)
  }

  /** `_preprocess_image`: the identity when disabled or when any step raises,
      otherwise a black-and-white image where a sample is white exactly when it lies
      above the threshold (below or at it, when inverting). */
  function PreprocessImage(img: Image, cfg: PreprocessConfig, im: Imaging): (r: Image)
    ensures !cfg.enable ==> r == img
    // Each step that can raise sends the original image back.
    ensures cfg.enable && Prepare(img, cfg, im).None? ==> r == img
    ensures cfg.enable && Prepare(img, cfg, im).Some? ==>
      var g := Prepare(img, cfg, im).value;
      && (ChooseThreshold(cfg, g, im).None? ==> r == img)
      && (!im.pointAccepts(g) ==> r == img)
    ensures cfg.enable && Prepare(img, cfg, im).Some? && cfg.invert ==>
      var g := Prepare(img, cfg, im).value;
      var t := ChooseThreshold(cfg, g, im);
      t.Some? && !im.invertAccepts(Image(Binarise(g.samples, t.value))) ==> r == img
    ensures cfg.enable && Prepare(img, cfg, im).Some? ==>
      var g := Prepare(img, cfg, im).value;
      var t := ChooseThreshold(cfg, g, im);
      t.Some? && im.pointAccepts(g) && (cfg.invert ==> im.invertAccepts(Image(Binarise(g.samples, t.value)))) ==>
      && |r.samples| == |g.samples|
      && IsBinary(r.samples)
      && forall i :: 0 <= i < |g.samples| ==> (r.samples[i] == 255 <==> (g.samples[i] > t.value) != cfg.invert)
  {
    if !cfg.enable then img
    else
      match Prepare(img, cfg, im)
      case None => img
      case Some(g) =>
        match ChooseThreshold(cfg, g, im)
        case None => img
        case Some(t) =>
          if !im.pointAccepts(g) then img
          else
            var b := Binarise(g.samples, t);
            if !cfg.invert then Image(b)
            else if !im.invertAccepts(Image(b)) then img
            else
              InvertSwapsBinary(b);
              Image(Invert(b))
  }

  /** On a two-level image with automatic thresholding, the lower level turns
      black and the upper one white. */
  lemma TwoLevelsSeparate(img: Image, cfg: PreprocessConfig, im: Imaging, a: Sample, b: Sample)
    requires cfg.enable && cfg.autoThreshold && !cfg.invert && im.haveNumpy
    requires Prepare(img, cfg, im) == Some(img) && im.pointAccepts(img)
    requires a < b
    requires forall i :: 0 <= i < |img.samples| ==> img.samples[i] == a || img.samples[i] == b
    requires a in img.samples && b in img.samples
    ensures forall i :: 0 <= i < |img.samples| ==>
      PreprocessImage(img, cfg, im).samples[i] == (if img.samples[i] == a then 0 else 255)
  {
    OtsuTwoLevels(img.samples, a, b);
  }
}

=== FILE: pytext.dfy ===
/** The few Python string operations the application relies on: `str.isspace`,
    `str.strip`, `str.split(sep)`, `sep.join`, `int(s)`, `str(n)` and `float(s)`
    for plain decimal literals. */
module PyText {
  import opened Common

  /** Python's `str.isspace` for a single character. */
  predicate IsSpace(c: char) {
    || c == ' '
    || '\t' <= c <= '\r'
    || '\U{1C}' <= c <= '\U{1F}'
    || c == '\U{85}' || c == '\U{A0}' || c == '\U{1680}'
    || '\U{2000}' <= c <= '\U{200A}'
    || c == '\U{2028}' || c == '\U{2029}' || c == '\U{202F}' || c == '\U{205F}' || c == '\U{3000}'
  }

  /** Every character is whitespace (the empty string included). */
  predicate IsBlank(s: string) {
    forall i :: 0 <= i < |s| ==> IsSpace(s[i])
  }

  predicate IsDigit(c: char) {
    '0' <= c <= '9'
  }

  lemma DigitNotSpace(c: char)
    requires IsDigit(c) || c == '-'
    ensures !IsSpace(c)
  {
  }

  /** How many whitespace characters `s` starts with. */
  function LeadingSpaces(s: string): (n: nat)
    ensures n <= |s|
  {
    if |s| > 0 && IsSpace(s[0]) then LeadingSpaces(s[1..]) + 1 else 0
  }

  /** How many whitespace characters `s` ends with. */
  function TrailingSpaces(s: string): (n: nat)
    ensures n <= |s|
  {
    if |s| > 0 && IsSpace(s[|s| - 1]) then TrailingSpaces(s[..|s| - 1]) + 1 else 0
  }

  /** The leading count is all whitespace and stops at the first other character. */
  lemma {:induction false} LeadingSpacesBlank(s: string)
    ensures IsBlank(s[..LeadingSpaces(s)])
    ensures LeadingSpaces(s) == |s| || !IsSpace(s[LeadingSpaces(s)])
  {
    if |s| > 0 && IsSpace(s[0]) {
      LeadingSpacesBlank(s[1..]);
      var k := LeadingSpaces(s[1..]);
      assert s[..k + 1] == [s[0]] + s[1..][..k];
    }
  }

  /** The trailing count is all whitespace. */
  lemma {:induction false} TrailingSpacesBlank(s: string)
    ensures IsBlank(s[|s| - TrailingSpaces(s)..])
  {
    if |s| > 0 && IsSpace(s[|s| - 1]) {
      var p := s[..|s| - 1];
      TrailingSpacesBlank(p);
      var k := TrailingSpaces(p);
      assert s[|s| - (k + 1)..] == p[|p| - k..] + [s[|s| - 1]];
    }
  }

  /** The trailing count stops at the last other character. */
  lemma {:induction false} TrailingSpacesStop(s: string)
    ensures TrailingSpaces(s) == |s| || !IsSpace(s[|s| - 1 - TrailingSpaces(s)])
  {
    if |s| > 0 && IsSpace(s[|s| - 1]) {
      TrailingSpacesStop(s[..|s| - 1]);
    }
  }

  /** `s.lstrip()`: `s` without its leading whitespace. */
  function LStrip(s: string): string {
    s[LeadingSpaces(s)..]
  }

  /** `s.rstrip()`: `s` without its trailing whitespace. */
  function RStrip(s: string): string {
    s[..|s| - TrailingSpaces(s)]
  }

  /** `s.strip()` with no argument: what is left neither starts nor ends with
      whitespace. */
  function Strip(s: string): (r: string)
    ensures |r| <= |s|
    ensures r == [] || (!IsSpace(r[0]) && !IsSpace(r[|r| - 1]))
  {
    var l := LStrip(s);
    LeadingSpacesBlank(s);
    TrailingSpacesStop(l);
    RStrip(l)
  }

  /** `not s.strip()` holds exactly for the whitespace-only strings. */
  lemma StripEmptyIffBlank(s: string)
    ensures Strip(s) == [] <==> IsBlank(s)
  {
    var n := LeadingSpaces(s);
    LeadingSpacesBlank(s);
    if n == |s| {
      assert s[..n] == s;
    } else {
      var l := LStrip(s);
      assert l[0] == s[n] && !IsSpace(l[0]);
      TrailingSpacesBlank(l);
      assert l[|l| - |l|..] == l;
      assert !IsSpace(s[n]);
    }
  }

  /** A string that is empty or starts and ends with non-whitespace is its own strip. */
  lemma StripFixed(s: string)
    requires s == [] || (!IsSpace(s[0]) && !IsSpace(s[|s| - 1]))
    ensures Strip(s) == s
  {
    assert LeadingSpaces(s) == 0;
    assert LStrip(s) == s;
    assert TrailingSpaces(s) == 0;
  }

  /** Stripping twice is stripping once. */
  lemma StripIdempotent(s: string)
    ensures Strip(Strip(s)) == Strip(s)
  {
    StripFixed(Strip(s));
  }

  /** `s.split(sep)` for a one-character separator: the pieces between separators,
      never an empty list. */
  function Split(s: string, sep: char): (parts: seq<string>)
    ensures |parts| >= 1
    ensures forall i :: 0 <= i < |parts| ==> sep !in parts[i]
  {
    if |s| == 0 then [""]
    else
      var rest := Split(s[1..], sep);
      if s[0] == sep then [""] + rest
      else [[s[0]] + rest[0]] + rest[1..]
  }

  /** `sep.join(parts)`. */
  function Join(parts: seq<string>, sep: char): string {
    if |parts| == 0 then ""
    else if |parts| == 1 then parts[0]
    else parts[0] + [sep] + Join(parts[1..], sep)
  }

  lemma {:induction false} SplitNoSep(a: string, sep: char)
    requires sep !in a
    ensures Split(a, sep) == [a]
  {
    if |a| > 0 {
      SplitNoSep(a[1..], sep);
      assert [a[0]] + a[1..] == a;
    }
  }

  lemma {:induction false} SplitAfterPiece(a: string, sep: char, b: string)
    requires sep !in a
    ensures Split(a + [sep] + b, sep) == [a] + Split(b, sep)
  {
    if |a| == 0 {
      assert (a + [sep] + b)[1..] == b;
    } else {
      assert (a + [sep] + b)[1..] == a[1..] + [sep] + b;
      SplitAfterPiece(a[1..], sep, b);
      assert [a[0]] + a[1..] == a;
    }
  }

  /** Splitting undoes joining, for pieces free of the separator. */
  lemma {:induction false} SplitJoin(parts: seq<string>, sep: char)
    requires |parts| >= 1
    requires forall i :: 0 <= i < |parts| ==> sep !in parts[i]
    ensures Split(Join(parts, sep), sep) == parts
  {
    if |parts| == 1 {
      SplitNoSep(parts[0], sep);
    } else {
      SplitJoin(parts[1..], sep);
      SplitAfterPiece(parts[0], sep, Join(parts[1..], sep));
      assert [parts[0]] + parts[1..] == parts;
    }
  }

  /** Joining undoes splitting. */
  lemma {:induction false} JoinSplit(s: string, sep: char)
    ensures Join(Split(s, sep), sep) == s
  {
    if |s| > 0 {
      JoinSplit(s[1..], sep);
      var rest := Split(s[1..], sep);
      if s[0] == sep {
        assert [""] + rest == [""] + rest;
        assert s == [sep] + s[1..];
      } else {
        var parts := [[s[0]] + rest[0]] + rest[1..];
        assert parts[1..] == rest[1..];
        if |rest| == 1 {
          assert s == [s[0]] + s[1..];
        } else {
          assert rest == [rest[0]] + rest[1..];
          assert Join(rest, sep) == rest[0] + [sep] + Join(rest[1..], sep);
          assert s == [s[0]] + s[1..];
        }
      }
    }
  }

  /** The value of a decimal digit character. */
  function DigitValue(c: char): nat
    requires IsDigit(c)
  {
    (c as int) - ('0' as int)
  }

  /** The digit character of `d`. */
  function DigitChar(d: nat): (c: char)
    requires d < 10
    ensures IsDigit(c) && DigitValue(c) == d
  {
    ('0' as int + d) as char
  }

  /** The body of a decimal integer literal as `int()` accepts it:
      `digit (["_"] digit)*`: it starts and ends with a digit, and no two
      underscores are adjacent. */
  predicate IsDigitRun(b: string) {
    && |b| > 0
    && IsDigit(b[0])
    && IsDigit(b[|b| - 1])
    && DigitsOrUnderscores(b)
    && forall i, j :: 0 <= i < |b| && j == i + 1 && j < |b| && b[i] == '_' ==> b[j] != '_'
  }

  predicate DigitsOrUnderscores(b: string) {
    forall i :: 0 <= i < |b| ==> IsDigit(b[i]) || b[i] == '_'
  }

  /** The number a digit run denotes, underscores ignored. */
  function RunValue(b: string): nat
    requires DigitsOrUnderscores(b)
  {
    if |b| == 0 then 0
    else if b[|b| - 1] == '_' then RunValue(b[..|b| - 1])
    else 10 * RunValue(b[..|b| - 1]) + DigitValue(b[|b| - 1])
  }

  /** `int(s)` in base 10: surrounding whitespace, an optional sign, then a digit run.
      `None` stands for the `ValueError` it raises otherwise. */
  function ParseInt(s: string): (r: Option<int>)
    ensures r.Some? ==> var t := Strip(s);
      |t| > 0 && IsDigit(t[|t| - 1]) && (r.value < 0 ==> t[0] == '-')
  {
    match ParseSignedRun(Strip(s))
    case Some((v, _)) => Some(v)
    case None => None
  }

  /** `int()` of an already stripped text: the value, and the index of a digit
      it contains. */
  function ParseSignedRun(t: string): (r: Option<(int, nat)>)
    ensures r.Some? ==> r.value.1 < |t| && IsDigit(t[r.value.1])
    ensures r.Some? ==> IsDigit(t[|t| - 1]) && (r.value.0 < 0 ==> t[0] == '-')
  {
    if |t| > 0 && (t[0] == '-' || t[0] == '+') then
      var b := t[1..];
      if IsDigitRun(b) then
        var v: int := RunValue(b);
        Some((if t[0] == '-' then -v else v, 1))
      else None
    else if IsDigitRun(t) then Some((RunValue(t), 0))
    else None
  }

  /** `int()` accepts only text holding at least one digit. */
  lemma ParseIntNeedsDigit(s: string)
    ensures ParseInt(s).Some? ==> exists k :: 0 <= k < |s| && IsDigit(s[k])
  {
    var t := Strip(s);
    var r := ParseSignedRun(t);
    if r.Some? {
      var k := LeadingSpaces(s) + r.value.1;
      assert t[r.value.1] == s[k];
    }
  }

  /** `str(n)` for a natural number: its shortest decimal spelling. */
  function FormatNat(n: nat): (s: string)
    ensures |s| >= 1
    ensures forall i :: 0 <= i < |s| ==> IsDigit(s[i])
  {
    if n < 10 then [DigitChar(n)] else FormatNat(n / 10) + [DigitChar(n % 10)]
  }

  /** `str(n)` for any integer. */
  function FormatInt(n: int): (r: string)
    ensures |r| >= 1 && (r[0] == '-' <==> n < 0)
    ensures forall i :: (if n < 0 then 1 else 0) <= i < |r| ==> IsDigit(r[i])
  {
    if n < 0 then "-" + FormatNat(-n) else FormatNat(n)
  }

  lemma {:induction false} RunValueOfFormat(n: nat)
    ensures RunValue(FormatNat(n)) == n
  {
    var s := FormatNat(n);
    if n >= 10 {
      RunValueOfFormat(n / 10);
      assert s[..|s| - 1] == FormatNat(n / 10);
    }
  }

  /** A string that starts with a digit or a minus sign and ends with a digit is
      its own strip. */
  lemma StripOfDigitEnds(s: string)
    requires |s| > 0 && (IsDigit(s[0]) || s[0] == '-') && IsDigit(s[|s| - 1])
    ensures Strip(s) == s
  {
    DigitNotSpace(s[0]);
    DigitNotSpace(s[|s| - 1]);
    StripFixed(s);
  }

  /** `int()` of a text with no surrounding whitespace is decided by its sign and
      digit run alone. */
  lemma ParseIntOfDigitEnds(s: string)
    requires |s| > 0 && (IsDigit(s[0]) || s[0] == '-') && IsDigit(s[|s| - 1])
    requires ParseSignedRun(s).Some?
    ensures ParseInt(s) == Some(ParseSignedRun(s).value.0)
  {
    StripOfDigitEnds(s);
  }

  lemma SignedRunOfRun(s: string)
    requires IsDigitRun(s)
    ensures ParseSignedRun(s) == Some((RunValue(s) as int, 0))
  {
  }

  lemma SignedRunOfNegatedRun(s: string)
    requires |s| > 0 && s[0] == '-' && IsDigitRun(s[1..])
    ensures ParseSignedRun(s) == Some((-(RunValue(s[1..]) as int), 1))
  {
  }

  /** `int()` of plain digits. */
  lemma ParseIntOfDigits(b: string)
    requires |b| > 0 && AllDigits(b)
    ensures ParseInt(b) == Some(RunValue(b) as int)
  {
    assert IsDigitRun(b);
    SignedRunOfRun(b);
    ParseIntOfDigitEnds(b);
  }

  /** `int()` of a minus sign followed by plain digits. */
  lemma ParseIntOfNegated(s: string)
    requires |s| > 1 && s[0] == '-' && AllDigits(s[1..])
    ensures ParseInt(s) == Some(-(RunValue(s[1..]) as int))
  {
    assert IsDigitRun(s[1..]);
    assert s[|s| - 1] == s[1..][|s| - 2];
    SignedRunOfNegatedRun(s);
    ParseIntOfDigitEnds(s);
  }

  lemma DropSign(x: string)
    ensures |"-" + x| > 1 || x == []
    ensures ("-" + x)[0] == '-' && ("-" + x)[1..] == x
  {
  }

  /** `int(str(n)) == n`. */
  lemma ParseFormatInt(n: int)
    ensures ParseInt(FormatInt(n)) == Some(n)
  {
    if n < 0 {
      ParseFormatNegative(-n);
      assert FormatInt(-(-n as int)) == FormatInt(n);
    } else {
      ParseFormatNat(n);
    }
  }

  lemma ParseFormatNat(n: nat)
    ensures ParseInt(FormatNat(n)) == Some(n)
  {
    RunValueOfFormat(n);
    ParseIntOfDigits(FormatNat(n));
  }

  lemma ParseFormatNegative(m: nat)
    requires m > 0
    ensures ParseInt(FormatInt(-(m as int))) == Some(-(m as int))
  {
    var d := FormatNat(m);
    var s := FormatInt(-(m as int));
    assert s == "-" + d;
    DropSign(d);
    assert s[1..] == d;
    RunValueOfFormat(m);
    ParseIntOfNegated(s);
  }

  predicate AllDigits(b: string) {
    forall i :: 0 <= i < |b| ==> IsDigit(b[i])
  }

  function Pow10(n: nat): (p: nat)
    ensures p >= 1
  {
    if n == 0 then 1 else 10 * Pow10(n - 1)
  }

  /** The value of an unsigned decimal literal: digits, optionally a point and
      more digits, with at least one digit in all. */
  function DecimalValue(b: string): (r: Option<real>)
    ensures r.Some? ==> r.value >= 0.0
  {
    var parts := Split(b, '.');
    if |parts| == 1 then
      if |b| > 0 && AllDigits(b) then Some(RunValue(b) as real) else None
    else if |parts| == 2 then
      var whole, fraction := parts[0], parts[1];
      if |whole| + |fraction| > 0 && AllDigits(whole) && AllDigits(fraction) then
        Some(PointValue(whole, fraction))
      else None
    else None
  }

  /** The value of `whole.fraction`. */
  function PointValue(whole: string, fraction: string): (v: real)
    requires AllDigits(whole) && AllDigits(fraction)
    ensures v >= RunValue(whole) as real
  {
    RunValue(whole) as real + (RunValue(fraction) as real) / (Pow10(|fraction|) as real)
  }

  /** `float(s)` for plain decimal literals: surrounding whitespace, an optional
      sign, then digits with an optional fractional part. `None` stands for the
      `ValueError` raised otherwise. */
  function ParseFloat(s: string): (r: Option<real>)
    ensures r.Some? ==> var t := Strip(s);
      |t| > 0 && (r.value < 0.0 ==> t[0] == '-')
  {
    SignedDecimal(Strip(s))
  }

  /** `float()` of an already stripped text. */
  function SignedDecimal(t: string): Option<real> {
    var negative := |t| > 0 && t[0] == '-';
    var body := if |t| > 0 && (t[0] == '-' || t[0] == '+') then t[1..] else t;
    match DecimalValue(body)
    case Some(v) => Some(if negative then -v else v)
    case None => None
  }

  /** `float()` of plain digits. */
  lemma ParseFloatOfDigits(b: string)
    requires |b| > 0 && AllDigits(b)
    ensures ParseFloat(b) == Some(RunValue(b) as real)
  {
    assert Split(b, '.') == [b] by {
      assert '.' !in b by {
        assert forall i :: 0 <= i < |b| ==> IsDigit(b[i]);
      }
      SplitNoSep(b, '.');
    }
    StripOfDigitEnds(b);
    assert IsDigit(b[0]);
  }

  /** A text with exactly one point splits there. */
  lemma SplitAtPoint(s: string, k: nat)
    requires k < |s| && s[k] == '.'
    requires '.' !in s[..k] && '.' !in s[k + 1..]
    ensures Split(s, '.') == [s[..k], s[k + 1..]]
  {
    assert s == s[..k] + ['.'] + s[k + 1..];
    SplitAfterPiece(s[..k], '.', s[k + 1..]);
    SplitNoSep(s[k + 1..], '.');
  }

  lemma NoPointInDigits(b: string)
    requires AllDigits(b)
    ensures '.' !in b
  {
  }

  /** `float()` of digits, a point at index `k`, and digits. */
  lemma ParseFloatOfDecimal(s: string, k: nat)
    requires 0 < k < |s| - 1 && s[k] == '.'
    requires AllDigits(s[..k]) && AllDigits(s[k + 1..])
    ensures ParseFloat(s) == Some(PointValue(s[..k], s[k + 1..]))
  {
    assert IsDigit(s[..k][0]) && IsDigit(s[k + 1..][|s| - k - 2]);
    StripOfDigitEnds(s);
    DecimalAtPoint(s, k);
  }

  lemma DecimalAtPoint(s: string, k: nat)
    requires 0 < k < |s| - 1 && s[k] == '.'
    requires AllDigits(s[..k]) && AllDigits(s[k + 1..])
    ensures DecimalValue(s) == Some(PointValue(s[..k], s[k + 1..]))
  {
    NoPointInDigits(s[..k]);
    NoPointInDigits(s[k + 1..]);
    SplitAtPoint(s, k);
  }

  /** `float(str(n)) == n` for every natural number. */
  lemma ParseFloatOfNat(n: nat)
    ensures ParseFloat(FormatNat(n)) == Some(n as real)
  {
    RunValueOfFormat(n);
    ParseFloatOfDigits(FormatNat(n));
  }

  /** `float("2.0") == 2.0`. */
  lemma ParseFloatTwo()
    ensures ParseFloat("2.0") == Some(2.0)
  {
    var s := "2.0";
    assert s[..1] == "2" && s[2..] == "0";
    assert PointValue("2", "0") == 2.0 by {
      assert RunValue("2") == 2 by { assert "2"[..0] == ""; }
      assert RunValue("0") == 0 by { assert "0"[..0] == ""; }
    }
    ParseFloatOfDecimal(s, 1);
  }

  /** `int("160") == 160`. */
  lemma ParseIntDefault()
    ensures ParseInt("160") == Some(160)
  {
    assert RunValue("1") == 1 by { assert "1"[..0] == ""; }
    assert RunValue("16") == 16 by { assert "16"[..1] == "1"; }
    assert RunValue("160") == 160 by { assert "160"[..2] == "16"; }
    ParseIntOfDigits("160");
  }
}

=== FILE: recognizer.dfy ===
/** The subtitle recogniser of filmreader/ocr.py (`SubtitleRecognizer.recognize_subtitle`,
    `reset` and `RecognitionResult`) as a step function
    `(state, observation) -> (state', result)`.

    The screen capture is the `Option<Image>` it returned; the OCR engine is a
    function from the normalised image to what its `recognize` and
    `get_confidence` returned, or to the fact that one of them raised; the clock is
    the `now` argument. */
module Recognizer {
  import opened Common
  import opened Preprocess

  /** Why a cycle produced the result it did. */
  datatype Reason = Accepted | CaptureFailed | NoText | LowConfidence | Duplicate | Error {
    /** The tag string the source stores in `RecognitionResult.reason`. */
    function Name(): string {
      match this
      case Accepted => "ok"
      case CaptureFailed => "capture_failed"
      case NoText => "no_text"
      case LowConfidence => "low_confidence"
      case Duplicate => "duplicate"
      case Error => "error"
    }
  }

  datatype RecognitionResult = RecognitionResult(text: string, confidence: real, skipped: bool, reason: Reason)

  /** The only memory carried from one cycle to the next. */
  datatype RecognizerState = RecognizerState(lastText: string, lastCaptureTime: real)

  /** What the OCR engine's `recognize` then `get_confidence` returned, or that
      one of them raised. */
  datatype EngineReply = Read(text: string, confidence: real) | Raised

  /** A recogniser's fixed settings: its engine, confidence threshold and
      normaliser. */
  datatype RecognizerConfig = RecognizerConfig(
    ocr: Image -> EngineReply,
    confidenceThreshold: real,
    preprocess: PreprocessConfig,
    imaging: Imaging)

  /** One cycle's new state and result. */
  datatype Recognition = Recognition(state: RecognizerState, result: RecognitionResult)

  /** The state of a freshly built recogniser, and the one `reset` restores. */
  function Initial(): (st: RecognizerState)
    ensures st.lastText == ""
  {
    RecognizerState("", 0.0)
  }

  /** `reset`. */
  function Reset(st: RecognizerState): (st': RecognizerState)
    ensures st'.lastText == "" && st'.lastCaptureTime == 0.0
  {
    Initial()
  }

  function Skip(confidence: real, reason: Reason): RecognitionResult {
    RecognitionResult("", confidence, true, reason)
  }

  /** What the engine makes of a captured image after normalisation. */
  function ReplyFor(cfg: RecognizerConfig, img: Image): EngineReply {
    cfg.ocr(PreprocessImage(img, cfg.preprocess, cfg.imaging))
  }

  /** `recognize_subtitle`: one capture-normalise-recognise-filter cycle. */
  function RecognizeSubtitle(cfg: RecognizerConfig, st: RecognizerState, capture: Option<Image>, now: real): (out: Recognition)
    // The result tags agree with one another.
    ensures out.result.skipped <==> out.result.reason != Accepted
    ensures out.result.text != "" <==> out.result.reason == Accepted
    // The last text changes exactly when a text is accepted, and then it is that text.
    ensures out.result.reason == Accepted <==> out.state.lastText != st.lastText
    ensures out.result.reason == Accepted ==>
      && out.state.lastText == out.result.text
      && out.result.confidence >= cfg.confidenceThreshold
    // A failed capture or a raising engine leave everything as it was.
    ensures capture.None? ==> out == Recognition(st, Skip(0.0, CaptureFailed))
    ensures capture.Some? && ReplyFor(cfg, capture.value).Raised? ==> out == Recognition(st, Skip(0.0, Error))
    // Once the engine answered, the capture time is recorded whatever the verdict.
    ensures capture.Some? && ReplyFor(cfg, capture.value).Read? ==>
      var reply := ReplyFor(cfg, capture.value);
      && out.state.lastCaptureTime == now
      && out.result.confidence == reply.confidence
      && (out.result.reason == NoText <==> reply.text == "")
      && (out.result.reason == LowConfidence <==> reply.text != "" && reply.confidence < cfg.confidenceThreshold)
      && (out.result.reason == Duplicate <==>
            reply.text != "" && reply.confidence >= cfg.confidenceThreshold && reply.text == st.lastText)
    // A refused read only records the capture time; a confident new read is
    // accepted as it came, and remembered.
    ensures capture.Some? && ReplyFor(cfg, capture.value).Read? && out.result.reason != Accepted ==>
      out.state == st.(lastCaptureTime := now)
    ensures capture.Some? && ReplyFor(cfg, capture.value).Read? ==>
      var reply := ReplyFor(cfg, capture.value);
      reply.text != "" && reply.confidence >= cfg.confidenceThreshold && reply.text != st.lastText ==>
        out == Recognition(RecognizerState(reply.text, now), RecognitionResult(reply.text, reply.confidence, false, Accepted))
  {
    match capture
    case None => Recognition(st, Skip(0.0, CaptureFailed))
    case Some(img) =>
      match ReplyFor(cfg, img)
      case Raised => Recognition(st, Skip(0.0, Error))
      case Read(text, confidence) =>
        var timed := st.(lastCaptureTime := now);
        if text == "" then Recognition(timed, Skip(confidence, NoText))
        else if confidence < cfg.confidenceThreshold then Recognition(timed, Skip(confidence, LowConfidence))
        else if text == st.lastText then Recognition(timed, Skip(confidence, Duplicate))
        else Recognition(timed.(lastText := text), RecognitionResult(text, confidence, false, Accepted))
  }

  /** Two consecutive confident reads of the same new text: `ok`, then `duplicate`. */
  lemma OkThenDuplicate(cfg: RecognizerConfig, st: RecognizerState, img1: Image, img2: Image, now1: real, now2: real)
    requires ReplyFor(cfg, img1).Read? && ReplyFor(cfg, img2).Read?
    requires ReplyFor(cfg, img1).text == ReplyFor(cfg, img2).text != st.lastText
    requires ReplyFor(cfg, img1).text != ""
    requires ReplyFor(cfg, img1).confidence >= cfg.confidenceThreshold
    requires ReplyFor(cfg, img2).confidence >= cfg.confidenceThreshold
    ensures var first := RecognizeSubtitle(cfg, st, Some(img1), now1);
      && first.result.reason == Accepted
      && RecognizeSubtitle(cfg, first.state, Some(img2), now2).result.reason == Duplicate
  {
  }

  /** A low-confidence read is not remembered, so the same text read confidently
      afterwards is `ok` rather than `duplicate`. */
  lemma LowConfidenceIsForgotten(cfg: RecognizerConfig, st: RecognizerState, img1: Image, img2: Image, now1: real, now2: real)
    requires ReplyFor(cfg, img1).Read? && ReplyFor(cfg, img2).Read?
    requires ReplyFor(cfg, img1).text == ReplyFor(cfg, img2).text != st.lastText
    requires ReplyFor(cfg, img1).text != ""
    requires ReplyFor(cfg, img1).confidence < cfg.confidenceThreshold <= ReplyFor(cfg, img2).confidence
    ensures var first := RecognizeSubtitle(cfg, st, Some(img1), now1);
      && first.result == Skip(ReplyFor(cfg, img1).confidence, LowConfidence)
      && first.state.lastText == st.lastText
      && RecognizeSubtitle(cfg, first.state, Some(img2), now2).result.reason == Accepted
  {
  }

  /** After `reset`, every non-empty confident read is accepted. */
  lemma ResetAcceptsAnything(cfg: RecognizerConfig, st: RecognizerState, img: Image, now: real)
    requires ReplyFor(cfg, img).Read?
    requires ReplyFor(cfg, img).text != ""
    requires ReplyFor(cfg, img).confidence >= cfg.confidenceThreshold
    ensures RecognizeSubtitle(cfg, Reset(st), Some(img), now).result
         == RecognitionResult(ReplyFor(cfg, img).text, ReplyFor(cfg, img).confidence, false, Accepted)
  {
  }

  // ---------------------------------------------------------------------------
  // Many cycles

  /** One cycle's inputs: what the capture returned and the clock. */
  datatype Observation = Observation(capture: Option<Image>, now: real)

  /** Cycles run back to back, each starting from the state the previous left. */
  function Run(cfg: RecognizerConfig, st: RecognizerState, obs: seq<Observation>): (out: (RecognizerState, seq<RecognitionResult>))
    ensures |out.1| == |obs|
    decreases |obs|
  {
    if |obs| == 0 then (st, [])
    else
      var first := RecognizeSubtitle(cfg, st, obs[0].capture, obs[0].now);
      var rest := Run(cfg, first.state, obs[1..]);
      (rest.0, [first.result] + rest.1)
  }

  /** The accepted texts of a run of results, in order. */
  function AcceptedTexts(rs: seq<RecognitionResult>): seq<string> {
    if |rs| == 0 then []
    else (if rs[0].reason == Accepted then [rs[0].text] else []) + AcceptedTexts(rs[1..])
  }

  predicate NoAdjacentRepeats(s: seq<string>) {
    forall i :: 0 < i < |s| ==> s[i - 1] != s[i]
  }

  /** Putting in front a text that differs from the first keeps adjacent texts distinct. */
  lemma ConsNoRepeats(x: string, s: seq<string>)
    requires NoAdjacentRepeats(s)
    requires |s| > 0 ==> s[0] != x
    ensures NoAdjacentRepeats([x] + s)
  {
    var t := [x] + s;
    forall i | 0 < i < |t|
      ensures t[i - 1] != t[i]
    {
      if i > 1 {
        assert t[i - 1] == s[i - 2] && t[i] == s[i - 1];
      }
    }
  }

  /** Dedup holds across a whole run: no accepted text repeats the one accepted
      just before it (nor the one remembered at the start), and the remembered text
      is always the last one accepted. The same text may be accepted again after a
      different one. */
  lemma {:induction false} RunDedup(cfg: RecognizerConfig, st: RecognizerState, obs: seq<Observation>)
    ensures var (st', rs) := Run(cfg, st, obs);
      var acc := AcceptedTexts(rs);
      && NoAdjacentRepeats(acc)
      && (|acc| == 0 ==> st'.lastText == st.lastText)
      && (|acc| > 0 ==> acc[0] != st.lastText && acc[|acc| - 1] == st'.lastText)
    decreases |obs|
  {
    if |obs| > 0 {
      var first := RecognizeSubtitle(cfg, st, obs[0].capture, obs[0].now);
      var rest := Run(cfg, first.state, obs[1..]);
      RunDedup(cfg, first.state, obs[1..]);
      assert Run(cfg, st, obs) == (rest.0, [first.result] + rest.1);
      var head := if first.result.reason == Accepted then [first.result.text] else [];
      var accRest := AcceptedTexts(rest.1);
      var acc := head + accRest;
      assert AcceptedTexts([first.result] + rest.1) == acc by {
        assert ([first.result] + rest.1)[1..] == rest.1;
      }
      if first.result.reason == Accepted {
        ConsNoRepeats(first.result.text, accRest);
      } else {
        assert acc == accRest;
      }
    }
  }
}

=== FILE: speech.dfy ===
/** The decision logic of filmreader/tts.py's `SpeechSynthesizer`: the cache-key
    path, the cache-hit / primary / fallback branches of `speak`, the pyttsx3
    `.wav` rule, the speech queue with its single consumer, and `clear_cache`.

    Engines are their kind plus an uninterpreted "does synthesis succeed for this
    text" function, Python's `hash` is an uninterpreted function of the text, and
    the file system is the set of paths that exist. */
module Speech {
  import opened Common
  import opened PyText

  datatype EngineKind = EdgeTts | AzureTts | Pyttsx3 | AiVoice

  /** A TTS engine: its class and whether `synthesize` would succeed on a text. */
  datatype TtsEngine = TtsEngine(kind: EngineKind, works: string -> bool)

  /** `synthesize` returns True. The Azure and AI-voice engines are placeholders
      that never do. */
  predicate Synthesizes(e: TtsEngine, text: string) {
    match e.kind
    case AzureTts => false
    case AiVoice => false
    case _ => e.works(text)
  }

  /** A file path: its directory and its final component. */
  datatype Path = Path(dir: string, name: string)

  datatype SpeechSynthesizer = SpeechSynthesizer(
    primary: TtsEngine,
    fallback: Option<TtsEngine>,
    cacheDir: string,
    hash: string -> int,
    queue: seq<string>,
    workerRunning: bool)

  // ---------------------------------------------------------------------------
  // Paths

  /** How many dots `s` starts with. */
  function LeadingDots(s: string): (n: nat)
    ensures n <= |s| && (n == |s| || s[n] != '.')
    ensures forall i :: 0 <= i < n ==> s[i] == '.'
  {
    if |s| > 0 && s[0] == '.' then LeadingDots(s[1..]) + 1 else 0
  }

  /** `s.lstrip(".")`. */
  function LStripDots(s: string): string {
    s[LeadingDots(s)..]
  }

  /** The file extension a freshly synthesised file of this engine gets. */
  function Extension(kind: EngineKind): (ext: string)
    ensures ext == "wav" <==> kind == Pyttsx3
    ensures ext == "wav" || ext == "mp3"
  {
    if kind == Pyttsx3 then "wav" else "mp3"
  }

  /** The part of a cache file name before its extension: `speech_{hash(text)}`. */
  function CacheStem(s: SpeechSynthesizer, text: string): (stem: string)
    ensures |stem| > 0
  {
    "speech_" + FormatInt(s.hash(text))
  }

  /** `_get_audio_path`: `cache_dir / f"speech_{hash(text)}.{ext}"`. */
  function AudioPath(s: SpeechSynthesizer, text: string, extension: string): (p: Path)
    ensures p.dir == s.cacheDir
    ensures |p.name| > 7 && p.name[..7] == "speech_"
  {
    Path(s.cacheDir, CacheStem(s, text) + "." + LStripDots(extension))
  }

  /** The position of the last `.` in `s`, if any. */
  function LastDot(s: string): (r: Option<nat>)
    ensures r.Some? ==> r.value < |s| && s[r.value] == '.' && '.' !in s[r.value + 1..]
    ensures r.None? ==> '.' !in s
  {
    if |s| == 0 then None
    else if s[|s| - 1] == '.' then Some(|s| - 1)
    else
      var r := LastDot(s[..|s| - 1]);
      LastDotStep(s, r);
      r
  }

  /** A last character other than a dot keeps the last dot of the rest. */
  lemma LastDotStep(s: string, r: Option<nat>)
    requires |s| > 0 && s[|s| - 1] != '.'
    requires r.Some? ==> r.value < |s| - 1 && s[..|s| - 1][r.value] == '.' && '.' !in s[..|s| - 1][r.value + 1..]
    requires r.None? ==> '.' !in s[..|s| - 1]
    ensures r.Some? ==> r.value < |s| && s[r.value] == '.' && '.' !in s[r.value + 1..]
    ensures r.None? ==> '.' !in s
  {
    if r.Some? {
      assert s[r.value + 1..] == s[..|s| - 1][r.value + 1..] + [s[|s| - 1]];
    } else {
      assert s == s[..|s| - 1] + [s[|s| - 1]];
    }
  }

  /** pathlib's `suffix` of a final path component: from its last dot, provided
      that dot is neither the first nor the last character. */
  function Suffix(name: string): (suffix: string)
    ensures |suffix| <= |name| && suffix == name[|name| - |suffix|..]
    ensures suffix == [] || (suffix[0] == '.' && |suffix| >= 2 && |suffix| < |name|)
  {
    match LastDot(name)
    case Some(i) => if 0 < i < |name| - 1 then name[i..] else ""
    case None => ""
  }

  /** pathlib's `with_suffix` for a non-empty name and a suffix starting with a dot. */
  function WithSuffix(name: string, suffix: string): string {
    name[..|name| - |Suffix(name)|] + suffix
  }

  function LowerAscii(s: string): (r: string)
    ensures |r| == |s|
  {
    if |s| == 0 then ""
    else [if 'A' <= s[0] <= 'Z' then (s[0] as int + 32) as char else s[0]] + LowerAscii(s[1..])
  }

  /** Where an engine actually writes when asked to write to `p`: pyttsx3 replaces
      any suffix other than `.wav` (compared case-insensitively) by `.wav`. */
  function WriteTarget(kind: EngineKind, p: Path): (q: Path)
    ensures q.dir == p.dir
    ensures kind != Pyttsx3 ==> q == p
    ensures q != p ==> EndsWith(q.name, ".wav")
  {
    if kind == Pyttsx3 && LowerAscii(Suffix(p.name)) != ".wav" then Path(p.dir, WithSuffix(p.name, ".wav"))
    else p
  }

  lemma LowerWav()
    ensures LowerAscii(".wav") == ".wav"
  {
    assert LowerAscii("") == "";
    assert LowerAscii("v") == "v";
    assert LowerAscii("av") == "av";
    assert LowerAscii("wav") == "wav";
  }

  lemma {:induction false} LastDotAfter(pre: string, ext: string)
    requires '.' !in ext
    ensures LastDot(pre + "." + ext) == Some(|pre|)
    decreases |ext|
  {
    var s := pre + "." + ext;
    if |ext| > 0 {
      assert s[..|s| - 1] == pre + "." + ext[..|ext| - 1];
      LastDotAfter(pre, ext[..|ext| - 1]);
    }
  }

  /** The suffix of a name built as `stem + "." + ext`, for a non-empty stem and a
      non-empty, dot-free extension. */
  lemma SuffixOf(stem: string, ext: string)
    requires |stem| > 0 && |ext| > 0 && '.' !in ext
    ensures Suffix(stem + "." + ext) == "." + ext
  {
    LastDotAfter(stem, ext);
    assert (stem + "." + ext)[|stem|..] == "." + ext;
  }

  /** The cache file of an engine is named with that engine's own extension. */
  lemma AudioPathSuffix(s: SpeechSynthesizer, text: string, kind: EngineKind)
    ensures Suffix(AudioPath(s, text, Extension(kind)).name) == "." + Extension(kind)
  {
    SuffixOf(CacheStem(s, text), Extension(kind));
  }

  /** Every engine writes its cache file exactly where `speak` looks for it: the
      pyttsx3 suffix rule never moves a path built with the `wav` extension. */
  lemma WriteTargetIsCachePath(s: SpeechSynthesizer, text: string, kind: EngineKind)
    ensures WriteTarget(kind, AudioPath(s, text, Extension(kind))) == AudioPath(s, text, Extension(kind))
  {
    AudioPathSuffix(s, text, kind);
    if kind == Pyttsx3 {
      LowerWav();
    }
  }

  /** Whatever path pyttsx3 is handed, the file it writes ends in `.wav`. */
  lemma PyttsxWritesWav(p: Path)
    requires |p.name| > 0
    ensures LowerAscii(Suffix(WriteTarget(Pyttsx3, p).name)) == ".wav"
  {
    var previous := Suffix(p.name);
    if LowerAscii(previous) != ".wav" {
      var stem := p.name[..|p.name| - |previous|];
      assert |stem| > 0;
      SuffixOf(stem, "wav");
      assert WriteTarget(Pyttsx3, p).name == stem + "." + "wav";
    }
    LowerWav();
  }

  /** The `wav` and `mp3` cache files of a text are different files. */
  lemma WavAndMp3Distinct(s: SpeechSynthesizer, text: string)
    ensures AudioPath(s, text, "wav") != AudioPath(s, text, "mp3")
  {
    AudioPathSuffix(s, text, Pyttsx3);
    AudioPathSuffix(s, text, EdgeTts);
  }

  /** The characters of a cache file name between `speech_` and `.<ext>`. */
  function NameDigits(name: string, ext: string): string {
    var k := 1 + |LStripDots(ext)|;
    if 7 <= |name| - k then name[7..|name| - k] else ""
  }

  /** The digits of a cache file name between `speech_` and the extension spell
      the text's hash. */
  lemma HashInName(s: SpeechSynthesizer, text: string, ext: string)
    ensures ParseInt(NameDigits(AudioPath(s, text, ext).name, ext)) == Some(s.hash(text))
  {
    var digits := FormatInt(s.hash(text));
    ParseFormatInt(s.hash(text));
    assert AudioPath(s, text, ext).name == "speech_" + digits + ("." + LStripDots(ext));
    DigitsBetween(digits, ext);
  }

  /** The digits between `speech_` and the extension are found again. */
  lemma DigitsBetween(digits: string, ext: string)
    ensures NameDigits("speech_" + digits + ("." + LStripDots(ext)), ext) == digits
  {
    MiddleSlice("speech_", digits, "." + LStripDots(ext));
  }

  /** The middle of three joined strings is found between the other two. */
  lemma MiddleSlice(pre: string, mid: string, post: string)
    ensures (pre + mid + post)[|pre|..|pre| + |mid|] == mid
  {
  }

  /** Texts with different hashes get different cache files. */
  lemma AudioPathDistinguishesHashes(s: SpeechSynthesizer, a: string, b: string, ext: string)
    requires s.hash(a) != s.hash(b)
    ensures AudioPath(s, a, ext) != AudioPath(s, b, ext)
  {
    HashInName(s, a, ext);
    HashInName(s, b, ext);
  }

  // ---------------------------------------------------------------------------
  // speak

  /** Which engines `speak` asked to synthesise, in order. */
  datatype Role = Primary | Fallback

  datatype SpeakOutcome = SpeakOutcome(success: bool, played: Option<Path>, files: set<Path>, invoked: seq<Role>)

  /** `speak(text)` against the set of existing files. Playback cannot fail the
      call: the player swallows its own errors. */
  function Speak(s: SpeechSynthesizer, files: set<Path>, text: string): (out: SpeakOutcome)
    // Blank text is refused before any engine is consulted.
    ensures IsBlank(text) ==> out == SpeakOutcome(false, None, files, [])
    ensures out.success <==> out.played.Some?
    // What is played exists afterwards, and nothing but it is created.
    ensures out.played.Some? ==> out.played.value in out.files
    ensures files <= out.files
    ensures out.files - files <= (if out.played.Some? then {out.played.value} else {})
    // A cached primary file is played without synthesis.
    ensures !IsBlank(text) && AudioPath(s, text, Extension(s.primary.kind)) in files ==>
      out == SpeakOutcome(true, Some(AudioPath(s, text, Extension(s.primary.kind))), files, [])
    // The fallback is consulted only after the primary failed, and only if there is one.
    ensures out.invoked in [[], [Primary], [Primary, Fallback]]
    ensures out.invoked == [Primary] && out.success ==>
      out.played.value == AudioPath(s, text, Extension(s.primary.kind)) || s.fallback.Some?
    ensures |out.invoked| > 0 ==> AudioPath(s, text, Extension(s.primary.kind)) !in files
    ensures Fallback in out.invoked ==> s.fallback.Some? && !Synthesizes(s.primary, text)
    ensures |out.invoked| > 0 && s.fallback.None? && !Synthesizes(s.primary, text) ==> out == SpeakOutcome(false, None, files, [Primary])
    // Whatever is played is the cache file of the engine that produced it.
    ensures out.played.Some? ==>
      || out.played.value == AudioPath(s, text, Extension(s.primary.kind))
      || (s.fallback.Some? && out.played.value == AudioPath(s, text, Extension(s.fallback.value.kind)))
    // Branch by branch, once the primary's cache file is missing.
    ensures !IsBlank(text) && AudioPath(s, text, Extension(s.primary.kind)) !in files ==>
      var main := AudioPath(s, text, Extension(s.primary.kind));
      && |out.invoked| > 0 && out.invoked[0] == Primary
      // The primary synthesises: its cache file is created and played.
      && (Synthesizes(s.primary, text) ==> out == SpeakOutcome(true, Some(main), files + {main}, [Primary]))
      // No fallback: the call fails.
      && (!Synthesizes(s.primary, text) && s.fallback.None? ==> out == SpeakOutcome(false, None, files, [Primary]))
    ensures !IsBlank(text) && AudioPath(s, text, Extension(s.primary.kind)) !in files
            && !Synthesizes(s.primary, text) && s.fallback.Some? ==>
      var other := AudioPath(s, text, Extension(s.fallback.value.kind));
      // A cached fallback file is played without asking the fallback.
      && (other in files ==> out == SpeakOutcome(true, Some(other), files, [Primary]))
      // Otherwise the fallback synthesises it, or the call fails.
      && (other !in files && Synthesizes(s.fallback.value, text) ==>
            out == SpeakOutcome(true, Some(other), files + {other}, [Primary, Fallback]))
      && (other !in files && !Synthesizes(s.fallback.value, text) ==>
            out == SpeakOutcome(false, None, files, [Primary, Fallback]))
  {
    // `not text.strip()`, which is blankness by `StripEmptyIffBlank`.
    if IsBlank(text) then SpeakOutcome(false, None, files, [])
    else
      var main := AudioPath(s, text, Extension(s.primary.kind));
      if main in files then SpeakOutcome(true, Some(main), files, [])
      else if Synthesizes(s.primary, text) then
        WriteTargetIsCachePath(s, text, s.primary.kind);
        SpeakOutcome(true, Some(main), files + {WriteTarget(s.primary.kind, main)}, [Primary])
      else match s.fallback
        case None => SpeakOutcome(false, None, files, [Primary])
        case Some(fb) =>
          var other := AudioPath(s, text, Extension(fb.kind));
          if other in files then SpeakOutcome(true, Some(other), files, [Primary])
          else if Synthesizes(fb, text) then
            WriteTargetIsCachePath(s, text, fb.kind);
            SpeakOutcome(true, Some(other), files + {WriteTarget(fb.kind, other)}, [Primary, Fallback])
          else SpeakOutcome(false, None, files, [Primary, Fallback])
  }

  /** Once the primary engine has produced a text, speaking it again is a pure
      cache hit. */
  lemma SecondSpeakHitsCache(s: SpeechSynthesizer, files: set<Path>, text: string)
    requires var first := Speak(s, files, text);
      first.success && first.played == Some(AudioPath(s, text, Extension(s.primary.kind)))
    ensures var first := Speak(s, files, text);
      Speak(s, first.files, text) == SpeakOutcome(true, first.played, first.files, [])
  {
  }

  /** A fallback whose extension is the primary's writes the primary's cache
      file, so once it has produced a text, speaking that text again is a pure
      cache hit. */
  lemma FallbackSharesPrimaryCache(s: SpeechSynthesizer, files: set<Path>, text: string)
    requires s.fallback.Some? && Extension(s.fallback.value.kind) == Extension(s.primary.kind)
    requires var first := Speak(s, files, text);
      first.success && first.played == Some(AudioPath(s, text, Extension(s.fallback.value.kind)))
    ensures var first := Speak(s, files, text);
      Speak(s, first.files, text) == SpeakOutcome(true, first.played, first.files, [])
  {
    SecondSpeakHitsCache(s, files, text);
  }

  /** When the fallback produced a text, the primary's cache file still does not
      exist, so every later `speak` of that text asks the primary again before
      reaching the fallback's cached file. */
  lemma FallbackRetriesPrimary(s: SpeechSynthesizer, files: set<Path>, text: string)
    requires s.fallback.Some? && Extension(s.fallback.value.kind) != Extension(s.primary.kind)
    requires var first := Speak(s, files, text);
      first.success && first.played == Some(AudioPath(s, text, Extension(s.fallback.value.kind)))
    requires !Synthesizes(s.primary, text)
    ensures var first := Speak(s, files, text);
      Speak(s, first.files, text) == SpeakOutcome(true, first.played, first.files, [Primary])
  {
    var main := AudioPath(s, text, Extension(s.primary.kind));
    var other := AudioPath(s, text, Extension(s.fallback.value.kind));
    assert main != other by {
      WavAndMp3Distinct(s, text);
    }
    var first := Speak(s, files, text);
    assert main !in first.files by {
      assert main !in files;
      assert first.files <= files + {other};
    }
  }

  // ---------------------------------------------------------------------------
  // The speech queue and its worker

  /** Two synthesisers share their engines, cache directory and hash. */
  ghost predicate SameSettings(a: SpeechSynthesizer, b: SpeechSynthesizer) {
    && a.primary == b.primary
    && a.fallback == b.fallback
    && a.cacheDir == b.cacheDir
    && a.hash == b.hash
  }

  /** `enqueue_speech`. */
  function Enqueue(s: SpeechSynthesizer, text: string): (r: SpeechSynthesizer)
    ensures r.queue == if IsBlank(text) then s.queue else s.queue + [text]
    ensures SameSettings(r, s) && r.workerRunning == s.workerRunning
  {
    StripEmptyIffBlank(text);
    if Strip(text) != [] then s.(queue := s.queue + [text]) else s
  }

  /** Enqueue a sequence of texts one after the other. */
  function EnqueueAll(s: SpeechSynthesizer, texts: seq<string>): SpeechSynthesizer
    decreases |texts|
  {
    if |texts| == 0 then s else EnqueueAll(Enqueue(s, texts[0]), texts[1..])
  }

  /** The non-blank texts of `texts`, in order, repeats kept. */
  function NonBlank(texts: seq<string>): (r: seq<string>)
    ensures |r| <= |texts|
  {
    if |texts| == 0 then []
    else (if IsBlank(texts[0]) then [] else [texts[0]]) + NonBlank(texts[1..])
  }

  /** What `NonBlank` keeps is non-blank and comes from `texts`, and it keeps
      every non-blank text. */
  lemma {:induction false} NonBlankKeeps(texts: seq<string>)
    ensures forall i :: 0 <= i < |NonBlank(texts)| ==> !IsBlank(NonBlank(texts)[i]) && NonBlank(texts)[i] in texts
    ensures forall t :: t in texts && !IsBlank(t) ==> t in NonBlank(texts)
  {
    if |texts| > 0 {
      NonBlankKeeps(texts[1..]);
      var rest := NonBlank(texts[1..]);
      var head := if IsBlank(texts[0]) then [] else [texts[0]];
      assert NonBlank(texts) == head + rest;
      forall t | t in texts && !IsBlank(t)
        ensures t in NonBlank(texts)
      {
        if t != texts[0] {
          var j :| 0 <= j < |texts| && texts[j] == t;
          assert texts[1..][j - 1] == t;
        }
      }
      forall i | 0 <= i < |NonBlank(texts)|
        ensures !IsBlank(NonBlank(texts)[i]) && NonBlank(texts)[i] in texts
      {
        if i >= |head| {
          assert NonBlank(texts)[i] == rest[i - |head|];
          var j :| 0 <= j < |texts[1..]| && texts[1..][j] == rest[i - |head|];
          assert texts[j + 1] == rest[i - |head|];
        }
      }
    }
  }

  /** The queue is FIFO, drops exactly the blank texts and does no dedup. */
  lemma {:induction false} EnqueueAllAppendsNonBlank(s: SpeechSynthesizer, texts: seq<string>)
    ensures EnqueueAll(s, texts).queue == s.queue + NonBlank(texts)
    ensures SameSettings(EnqueueAll(s, texts), s) && EnqueueAll(s, texts).workerRunning == s.workerRunning
    decreases |texts|
  {
    if |texts| > 0 {
      var s1 := Enqueue(s, texts[0]);
      EnqueueAllAppendsNonBlank(s1, texts[1..]);
      NonBlankCons(texts);
      EnqueueThen(s, texts[0], NonBlank(texts[1..]));
    }
  }

  lemma NonBlankCons(texts: seq<string>)
    requires |texts| > 0
    ensures NonBlank(texts) == (if IsBlank(texts[0]) then [] else [texts[0]]) + NonBlank(texts[1..])
  {
  }

  lemma EnqueueThen(s: SpeechSynthesizer, text: string, rest: seq<string>)
    ensures Enqueue(s, text).queue + rest == s.queue + ((if IsBlank(text) then [] else [text]) + rest)
  {
  }

  /** `clear_queue`. */
  function ClearQueue(s: SpeechSynthesizer): (r: SpeechSynthesizer)
    ensures r.queue == [] && SameSettings(r, s) && r.workerRunning == s.workerRunning
  {
    s.(queue := [])
  }

  /** `stop_speaking`: stop the player (not modelled) and empty the queue. */
  function StopSpeaking(s: SpeechSynthesizer): (r: SpeechSynthesizer)
    ensures r.queue == [] && SameSettings(r, s) && r.workerRunning == s.workerRunning
  {
    ClearQueue(s)
  }

  /** `start_queue_worker`: a second start is a no-op. */
  function StartQueueWorker(s: SpeechSynthesizer): (r: SpeechSynthesizer)
    ensures r.workerRunning && SameSettings(r, s) && r.queue == s.queue
  {
    if s.workerRunning then s else s.(workerRunning := true)
  }

  /** `stop_queue_worker`. */
  function StopQueueWorker(s: SpeechSynthesizer): (r: SpeechSynthesizer)
    ensures !r.workerRunning && SameSettings(r, s) && r.queue == s.queue
  {
    s.(workerRunning := false)
  }

  /** One text spoken by the worker, and how that went. */
  datatype Utterance = Utterance(text: string, outcome: SpeakOutcome)

  datatype WorkerStep = WorkerStep(synth: SpeechSynthesizer, files: set<Path>, spoke: Option<Utterance>)

  /** How the worker speaks a text against the files that exist. */
  type Say = (set<Path>, string) -> SpeakOutcome

  /** The worker thread of `s` speaks with `s.speak(text, blocking=True)`. */
  function Speaker(s: SpeechSynthesizer): Say {
    (files: set<Path>, text: string) => Speak(s, files, text)
  }

  /** One turn of `_queue_worker`'s loop: take the head of the queue, if any, and
      speak it. An empty queue is the `queue.Empty` timeout, after which the loop
      simply goes round again; a stopped worker does nothing. */
  function WorkerTurn(s: SpeechSynthesizer, files: set<Path>, say: Say): (r: WorkerStep)
    ensures !s.workerRunning || |s.queue| == 0 ==> r == WorkerStep(s, files, None)
    ensures s.workerRunning && |s.queue| > 0 ==>
      && SameSettings(r.synth, s) && r.synth.workerRunning && r.synth.queue == s.queue[1..]
      && r.spoke.Some? && r.spoke.value.text == s.queue[0]
      && r.spoke.value.outcome == say(files, s.queue[0])
      && r.files == r.spoke.value.outcome.files
  {
    if !s.workerRunning || |s.queue| == 0 then WorkerStep(s, files, None)
    else
      var text := s.queue[0];
      var outcome := say(files, text);
      WorkerStep(s.(queue := s.queue[1..]), outcome.files, Some(Utterance(text, outcome)))
  }

  /** `n` turns of the worker; returns the final synthesiser, files and what was
      spoken, in order. */
  function WorkerRun(s: SpeechSynthesizer, files: set<Path>, n: nat, say: Say): (r: (SpeechSynthesizer, set<Path>, seq<Utterance>))
    // At most one text per turn, each taken off the front of the queue.
    ensures |r.2| <= n && |r.2| <= |s.queue| && r.0.queue == s.queue[|r.2|..]
    ensures SameSettings(r.0, s) && r.0.workerRunning == s.workerRunning
    // A stopped worker speaks nothing.
    ensures !s.workerRunning ==> r == (s, files, [])
    decreases n
  {
    if n == 0 then (s, files, [])
    else
      var step := WorkerTurn(s, files, say);
      var rest := WorkerRun(step.synth, step.files, n - 1, say);
      (rest.0, rest.1, (if step.spoke.Some? then [step.spoke.value] else []) + rest.2)
  }

  function Texts(us: seq<Utterance>): (ts: seq<string>)
    ensures |ts| == |us| && forall i :: 0 <= i < |us| ==> ts[i] == us[i].text
  {
    if |us| == 0 then [] else [us[0].text] + Texts(us[1..])
  }

  function Min(a: nat, b: nat): nat { if a <= b then a else b }

  /** A single running consumer speaks the queue in FIFO order, one text per turn,
      each exactly once. */
  lemma {:induction false} WorkerRunSpeaksInOrder(s: SpeechSynthesizer, files: set<Path>, n: nat, say: Say)
    requires s.workerRunning
    decreases n, 1
    ensures var (s', _, spoken) := WorkerRun(s, files, n, say);
      var k := Min(n, |s.queue|);
      && Texts(spoken) == s.queue[..k]
      && SameSettings(s', s) && s'.workerRunning && s'.queue == s.queue[k..]
  {
    if n > 0 && |s.queue| > 0 {
      WorkerRunTakesHead(s, files, n, say);
    } else if n > 0 {
      WorkerRunSpeaksInOrder(s, files, n - 1, say);
      var rest := WorkerRun(s, files, n - 1, say);
      assert WorkerRun(s, files, n, say).2 == [] + rest.2 == rest.2;
    }
  }

  /** The inductive step of `WorkerRunSpeaksInOrder` when the queue is not empty. */
  lemma {:induction false} WorkerRunTakesHead(s: SpeechSynthesizer, files: set<Path>, n: nat, say: Say)
    requires s.workerRunning && n > 0 && |s.queue| > 0
    decreases n, 0
    ensures var (s', _, spoken) := WorkerRun(s, files, n, say);
      var k := Min(n, |s.queue|);
      && Texts(spoken) == s.queue[..k]
      && SameSettings(s', s) && s'.workerRunning && s'.queue == s.queue[k..]
  {
    var step := WorkerTurn(s, files, say);
    var u := step.spoke.value;
    assert step.synth == s.(queue := s.queue[1..]) && u.text == s.queue[0];
    WorkerRunSpeaksInOrder(step.synth, step.files, n - 1, say);
    var rest := WorkerRun(step.synth, step.files, n - 1, say);
    assert WorkerRun(s, files, n, say) == (rest.0, rest.1, [u] + rest.2);
    TextsCons(u, rest.2);
    var k := Min(n, |s.queue|);
    assert k - 1 == Min(n - 1, |s.queue| - 1) && 1 <= k <= |s.queue|;
    assert s.queue[..k] == [s.queue[0]] + s.queue[1..][..k - 1];
    assert s.queue[k..] == s.queue[1..][k - 1..];
  }

  lemma TextsCons(u: Utterance, us: seq<Utterance>)
    ensures Texts([u] + us) == [u.text] + Texts(us)
  {
    assert ([u] + us)[1..] == us;
  }

  // ---------------------------------------------------------------------------
  // clear_cache

  predicate EndsWith(s: string, tail: string) {
    |tail| <= |s| && s[|s| - |tail|..] == tail
  }

  /** `clear_cache`: delete every `*.mp3` file of the cache directory. */
  function ClearCache(s: SpeechSynthesizer, files: set<Path>): (r: set<Path>)
    ensures r <= files
    ensures forall p :: p in files ==> (p in r <==> !(p.dir == s.cacheDir && EndsWith(p.name, ".mp3")))
  {
    set p | p in files && !(p.dir == s.cacheDir && EndsWith(p.name, ".mp3"))
  }

  /** A cache file name ends in `.mp3` exactly when it was not made for pyttsx3. */
  lemma AudioPathMp3(s: SpeechSynthesizer, text: string, kind: EngineKind)
    ensures EndsWith(AudioPath(s, text, Extension(kind)).name, ".mp3") <==> kind != Pyttsx3
  {
    var name := AudioPath(s, text, Extension(kind)).name;
    if kind == Pyttsx3 {
      assert name[|name| - 4..][1] == 'w' by {
        assert LStripDots("wav") == "wav";
        assert name == CacheStem(s, text) + ".wav";
      }
    } else {
      assert name[|name| - 4..] == ".mp3" by {
        assert LStripDots("mp3") == "mp3";
        assert name == CacheStem(s, text) + ".mp3";
      }
    }
  }

  /** Cache files of pyttsx3 survive `clear_cache`; those of the other engines do not. */
  lemma ClearCacheKeepsOnlyWav(s: SpeechSynthesizer, files: set<Path>, text: string, kind: EngineKind)
    requires AudioPath(s, text, Extension(kind)) in files
    ensures AudioPath(s, text, Extension(kind)) in ClearCache(s, files) <==> kind == Pyttsx3
  {
    AudioPathMp3(s, text, kind);
  }
}
